=== FILE: README.md ===
# oas-core in Dafny: `$ref` expansion, validation rules and model invariants

This project models the core of the PHP library `on1kel/oas-core`, which reads, expands,
validates and serializes OpenAPI documents.

The main part is the `$ref` expansion engine:

- **UriHelper** splits a reference into a target document and a JSON Pointer. It joins a
  relative path onto a base URI for `http(s)`, `file` and scheme-less bases, removes dot
  segments, and follows JSON Pointers (RFC 6901, section 4).
- **PathContext** renders the pointer of the node being walked, escaping each segment
  (RFC 6901, section 3).
- **RefResolver** resolves one reference. It has a cache, a depth limit and a cycle guard.
- **RefResolution** is the result record. **InMemoryRefCache** is the cache of such records.
- **DocumentParser** walks the decoded tree and deep-merges the siblings of every `$ref` over
  the walked target.

Around that core the project also models:

- the `pruneEmpty` pass of the serializer;
- the pointer arithmetic of `ValidationContext` and the filters of `ValidationReport`;
- four validation rules: path-template parameters, path-key format, response status codes
  and unique operation ids;
- version detection and the profile registry;
- the `x-` extension operations shared by every model object;
- the constructor invariants of nine OpenAPI 3.1 objects: Parameter, Header, Security
  Scheme, Example, Discriminator, Schema, XML, Link and Security Requirement.

Each constructor is a `New` function returning `Result<_, Invalid>`. It fails exactly when
a `Valid` predicate fails. The checks run in the source's order, so the first broken rule
decides the error.

A decoded PHP array is `Json.Arr(seq<(Key, Json)>)`, an ordered map. Its keys are `IntKey`
or `StrKey`. `Json.ToKey` models PHP's coercion of canonical decimal strings to integer keys.

I/O and the file system become parameters:

- The document fetcher is a function from a URI (and the base URI) to an optional decoded
  array. A missing result stands for every exception the fetcher can throw.
- `is_dir` is an oracle `string -> bool`.

Mutable state is threaded explicitly through pure functions:

- the resolver's cache;
- the parser's `$seen` chain;
- the registry;
- the `seen` map of the unique-operation-id rule.

`walkNode` terminates on the fuel `maxWalkDepth - depth`.

Behaviours of the code that the model keeps on purpose:

- **Every uncached `$ref` fails.** `walkNode` adds the chain key to `$seen` and then passes
  the keys of `$seen` to the resolver as its stack. The resolver rejects a chain key already
  on the stack, and the chain key equals the cache key. So every reference reached through
  the walk whose target is not yet cached raises `CircularReference`
  (`DocumentParser.EveryUncachedRefFails`). Only references already in the cache expand
  (`DocumentParser.CachedRefMerges`).
- **Nested references use the target as their root.** The walk of a resolved target uses the
  target array itself as its root document, not the document it came from.
- **The scalar branch cannot be reached.** The scalar branch after a resolution is
  unreachable, because walking an array gives an array (`DocumentParser.WalkKeepsArrays`).
- **`ParseOptions.maxRefDepth` is carried but never read.**
- **`normalizePath` drops empty segments**, so `a//b` becomes `a/b`.
- **An integer key in an object stops the walk.** The object loop of `walkNode` passes each
  key to `guessKind(string $key, ...)` as an argument of the child's walk, and the file
  declares `strict_types=1`. PHP stores a decimal string key such as `"200"` as the integer
  200, so any non-list array with an integer key (a `responses` map, say) raises a
  `TypeError` before that child is walked. The model returns `GuessKindTypeError(key)` there
  (`DocumentParser.WalkEntries`, `DocumentParser.IntegerKeyedDocumentFails`), and
  `DocumentParser.RefFreeWalk` characterizes exactly which reference-free trees walk
  through. The hint `guessKind` computes is otherwise never read by the walk.
- **The status-code pattern accepts a final newline.** The pattern is
  `/^(?:[1-5][0-9]{2})$/`, and PCRE's `$` also matches before a final newline, so `"200\n"`
  is accepted (`Rules.StatusExamples`).

## Model

| member | source | states |
|---|---|---|
| `Text.IndexOf` | src/Ref/UriHelper.php:45-47 | `strpos` finds the first occurrence of the character, and none exactly when the character is absent |
| `Text.LastIndexOf` | src/Ref/UriHelper.php:122-125 | `strrpos` finds the last occurrence of the character, and none exactly when it is absent |
| `Text.Before` | src/Ref/UriHelper.php:74-75 | the text before the first `#` is a separator-free prefix of the reference, followed by the separator when one exists |
| `Text.Split` | src/Ref/UriHelper.php:139 | `explode` gives at least one piece, no piece holds the separator, and joining the pieces restores the input |
| `Text.SplitJoin` | src/Ref/UriHelper.php:157 | `explode` undoes `implode` on separator-free pieces |
| `Text.RTrim` | src/Ref/UriHelper.php:120 | `rtrim` keeps a prefix whose last character is not trimmable, and removes only trimmable characters |
| `Text.EscapeToken` | src/Parsing/PathContext.php:28 | an escaped segment holds no `/`, and `getByPointer`'s unescape (`~1` then `~0`) gives the segment back |
| `Text.EscapeSteps` | src/Ref/UriHelper.php:179 | the two `str_replace` passes of escaping and of unescaping are inverse to each other |
| `Text.ParseNatToString` | src/Ref/UriHelper.php:184-185 | `(int)` of the decimal rendering of a natural number is that number |
| `Text.IntToStringRoundTrip` | src/Parsing/DocumentParser.php:115 | `(string)$i` of any integer is a canonical integer string that parses back to `$i` |
| `Json.ToKey` | src/Ref/UriHelper.php:180 | PHP's array-key coercion gives a key PHP can hold, and the key's text is the string used |
| `Json.KeyRoundTrip` | src/Parsing/DocumentParser.php:122 | `(string)$key` coerced back as a key gives the key back, for every key PHP can hold |
| `Json.Get` | src/Ref/UriHelper.php:180-181 | `array_key_exists` holds exactly when the key is among the array's keys, and the value read is the one stored under it |
| `Json.Find` | src/Ref/UriHelper.php:186-187 | the position of a key holds that key and the value `Get` reads, and there is none exactly when the key is absent |
| `Json.Set` | src/Model/Support/HasExtensions.php:32 | assigning an existing key keeps the key order, and a new key is appended last |
| `Json.SetGet` | src/Model/Support/HasExtensions.php:31-32 | after `$a[$k] = $v`, `$a[$k]` reads `$v` and every other key reads as before |
| `Json.SetDistinct` | src/Model/Support/HasExtensions.php:32 | assignment keeps the keys distinct |
| `Json.Remove` | src/Parsing/DocumentParser.php:91-92 | `unset` removes the key, keeps every other key's value and the order of the rest, and keeps keys distinct |
| `Json.KeysCount` | src/Parsing/DocumentParser.php:157-163 | the counting loop of `isList` succeeds exactly when the keys are `n, n+1, ...` in order |
| `Json.IsListIff` | src/Parsing/DocumentParser.php:152-166 | `isList` holds exactly when the array is non-empty and keyed `0..n-1` in order, which is `array_is_list` minus the empty array |
| `UriHelper.ParseUrl` | src/Ref/UriHelper.php:83-89 | the path `parse_url` reports holds no query or fragment, and for a scheme-less string it is the text before `?` and `#` |
| `UriHelper.ParseUrlCompose` | src/Ref/UriHelper.php:83-89 | parsing `scheme://host/path` gives back the scheme, the host, no port and the path |
| `UriHelper.FoldClean` | src/Ref/UriHelper.php:139-155 | the `normalizePath` loop leaves a stack without `.`, `..` or empty segments except a leading root marker, and never drops that marker |
| `UriHelper.FoldReplays` | src/Ref/UriHelper.php:141-155 | the loop replays a clean stack unchanged |
| `UriHelper.SplitHead` | src/Ref/UriHelper.php:139-145 | the first piece of `explode('/')` is the empty root marker exactly when the path starts with `/` |
| `UriHelper.NormalizePath` | src/Ref/UriHelper.php:137-160 | the result is never empty, is `/` or has only clean segments, and starts with `/` whenever the input does |
| `UriHelper.NormalizeIdempotent` | src/Ref/UriHelper.php:137-160 | normalizing a normalized path changes nothing |
| `UriHelper.DirOf` | src/Ref/UriHelper.php:91-93 | the directory of a base path is a prefix of it ending at its last `/`, and is the empty path when the path is empty |
| `UriHelper.BaseDir` | src/Ref/UriHelper.php:117-127 | the base directory of a scheme-less base is empty for an empty base or one containing `://`; for a directory it is the base with trailing `/` and `\` trimmed plus one `/`; otherwise it runs through the last `/` of the base and is empty when there is none |
| `UriHelper.Fragment` | src/Ref/UriHelper.php:74-76 | the fragment is the rest of the reference after its path part, and starts with `#` when non-empty |
| `UriHelper.ResolveHttp` | src/Ref/UriHelper.php:86-101 | the http(s) result is `scheme://host`, then `:port` when there is one, then the normalized join of the base path's directory and the path part, then the fragment |
| `UriHelper.ResolveFile` | src/Ref/UriHelper.php:103-112 | the file result is `file://`, then the normalized join of the base path's directory (`/` when that is empty) and the path part, then the fragment |
| `UriHelper.ResolveRelative` | src/Ref/UriHelper.php:72-135 | a pure fragment gives `baseUri + ref`; otherwise an http(s) base gives scheme, host, port and the normalized join onto the base path's directory, a file base the same under `file://`, a scheme-less base the normalized join onto its base directory, and any other scheme the reference unchanged; the fragment always ends the result |
| `UriHelper.SplitRef` | src/Ref/UriHelper.php:42-70 | the pointer is the text after the first `#`, or empty; an empty path part targets the base itself, otherwise the target is `resolveRelative` of the path part cut at its first `#` |
| `UriHelper.ResolveFileAt` | src/Ref/UriHelper.php:103-112 | against `file://` and a rooted path, a reference resolves to `file://`, the normalized join of that path's directory and the path part, and the fragment |
| `UriHelper.ResolveHttpAt` | src/Ref/UriHelper.php:86-101 | against `http://host` and a rooted path, a reference resolves to `http://host`, the normalized join of that path's directory and the path part, and the fragment |
| `UriHelper.QueryIgnored` | src/Ref/UriHelper.php:83 | `parse_url` gives the same parts with or without a query |
| `UriHelper.HttpQueryDropped` | src/Ref/UriHelper.php:97-100 | an http(s) base resolves a reference the same with or without its query |
| `UriHelper.ResolveFileParent` | src/Ref/UriHelper.php:103-112 | `../g` against `file:///a/b/f` gives `file:///a/g` for any plain segments |
| `UriHelper.ResolveFileParentExample` | src/Ref/UriHelper.php:35-36 | `../common.json` against `file:///var/spec/root.json` gives `file:///var/common.json` |
| `UriHelper.SplitRefHttp` | src/Ref/UriHelper.php:42-70 | `d/g#y` against `http://h/f` targets `http://h/d/g` with pointer `y` for any plain segments |
| `UriHelper.SplitRefHttpExample` | src/Ref/UriHelper.php:32-33 | `models/user.json#/User` against `http://host/root.json` splits into `http://host/models/user.json` and `/User` |
| `UriHelper.ResolveCurrentDir` | src/Ref/UriHelper.php:103-112 | `./g#y` against `file:///a/f` gives `file:///a/g#y`: the document's own directory is the base |
| `UriHelper.ResolveCurrentDirExample` | src/Ref/UriHelper.php:103-112 | `./c.json#/Y` inside `file:///a/b.json` resolves to `file:///a/c.json#/Y` |
| `UriHelper.MakeCacheKey` | src/Ref/UriHelper.php:18-23 | the cache key is the target and the pointer of `splitRef` glued with `#` |
| `UriHelper.LocalCacheKey` | src/Ref/UriHelper.php:18-23 | the key of a reference starting with `#` is the base URI followed by the reference |
| `UriHelper.CacheKeyInjective` | src/Ref/UriHelper.php:22 | two keys of targets without `#` are equal only for equal targets and pointers |
| `UriHelper.Lookup` | src/Ref/UriHelper.php:178-192 | a step finds nothing outside an array; in an array it takes the exact key (a digit string coerced as PHP does) when present, otherwise, for a `ctype_digit` token, the integer key it spells; it finds something exactly when one of the two keys is present |
| `UriHelper.Tokens` | src/Ref/UriHelper.php:170-175 | the tokens hold no `/` and are exactly the pieces after the leading `/`: joined back behind an empty piece they give the pointer, with a `/` added in front when it had none |
| `UriHelper.GetByPointer` | src/Ref/UriHelper.php:165-196 | the empty pointer gives the whole document; any other pointer gives the node its tokens reach one lookup at a time, and `null` when some step finds nothing |
| `UriHelper.MissingSlashTolerated` | src/Ref/UriHelper.php:170-172 | a non-empty pointer without a leading `/` reads the same node as with one |
| `UriHelper.MissedStepIsNull` | src/Ref/UriHelper.php:178-192 | once a step finds nothing, `getByPointer` returns `null` whatever the later tokens are |
| `UriHelper.FollowKeys` | src/Ref/UriHelper.php:165-196 | following the escaped texts of a path of keys reaches the node those keys name |
| `UriHelper.DigitFallback` | src/Ref/UriHelper.php:184-189 | a digit token with no exact match falls back to the integer key: `/007` finds the key `7` |
| `PathContexts.PathContext.Pointer` | src/Parsing/PathContext.php:23-31 | the pointer is empty exactly at the root, and otherwise starts with `/` and unescapes back to the segments |
| `PathContexts.PathContext.Push` | src/Parsing/PathContext.php:33-39 | `push` keeps the base and appends exactly one segment, an integer rendered in decimal |
| `PathContexts.PathContext.WithBaseUri` | src/Parsing/PathContext.php:41-44 | `withBaseUri` replaces the base and keeps the segments |
| `PathContexts.Root` | src/Parsing/PathContext.php:18-21 | the root context has the given base and the empty pointer |
| `PathContexts.PointerTokens` | src/Parsing/PathContext.php:30 | the tokens of `'/' . implode('/', $escaped)` are the escaped segments |
| `PathContexts.PointerLocates` | src/Parsing/PathContext.php:23-31 | the pointer of the context built while descending through keys leads `getByPointer` back to the node it names |
| `Refs.RefResolution.CacheKey` | src/Contract/Ref/RefResolution.php:38-43 | for every base, the key is the base URI (or the resolved URI when the base is null), then `|`, then the original reference: it starts with that base, ends with `|` and the reference, and has exactly their combined length; when the base has no `|`, the first `|` of the key separates the two |
| `Refs.CacheGet` | src/Ref/InMemoryRefCache.php:15-18 | `get` finds a resolution exactly for a stored key, and it is the stored one |
| `Refs.CachePut` | src/Ref/InMemoryRefCache.php:20-23 | `put` adds the key to the stored keys |
| `Refs.CacheForget` | src/Ref/InMemoryRefCache.php:25-28 | `forget` removes the key from the stored keys |
| `Refs.CacheClear` | src/Ref/InMemoryRefCache.php:30-33 | `clear` leaves no key |
| `Refs.CacheLaws` | src/Ref/InMemoryRefCache.php:15-33 | read-after-put sees the put value, `forget` makes the key absent, other keys are untouched by both, and nothing survives `clear` |
| `RefResolver.Target` | src/Ref/RefResolver.php:46-49 | a target exists exactly when the pointer leads to an array, and the empty pointer gives the whole document |
| `RefResolver.WithFragment` | src/Ref/RefResolver.php:54 | the resolved URI is the target, with `#pointer` appended only for a non-empty pointer |
| `RefResolver.Resolve` | src/Ref/RefResolver.php:26-80 | a cache hit wins before every check; then the depth guard and the stack guard raise `CircularReference`; past them a local target succeeds exactly when its pointer locates an array in the root document and otherwise fails with `RefNotFound`, and an external target fails with `FetchFailed` when the fetch fails, then succeeds exactly when the pointer locates an array in the fetched document and otherwise fails with `RefNotFound`; a failure leaves the cache alone; a fresh success is stored under the key |
| `RefResolver.ResolvedData` | src/Ref/RefResolver.php:45-68 | fresh data is the array its JSON Pointer locates, in the root document for a local target and in the fetched document otherwise |
| `RefResolver.LocalIgnoresFetcher` | src/Ref/RefResolver.php:45-61 | a reference into the current document gives the same outcome whatever the fetcher |
| `RefResolver.ResolveTwice` | src/Ref/RefResolver.php:28-31 | a second resolution of the same reference returns the first result and cache, whatever the stack and root document |
| `RefResolver.StackedKeyIsCircular` | src/Ref/RefResolver.php:33-41 | an uncached reference whose key is already on the stack fails with `CircularReference` |
| `DocumentParser.Unmark` | src/Parsing/DocumentParser.php:96 | `unset($seen[$key])` removes the key and keeps every other member |
| `DocumentParser.UnmarkLast` | src/Parsing/DocumentParser.php:78-102 | removing the key just marked gives back the chain as it was on entry |
| `DocumentParser.ChainKey` | src/Parsing/DocumentParser.php:73-74 | the parser's chain key is the resolver's cache key |
| `DocumentParser.MergeGet` | src/Parsing/DocumentParser.php:136-147 | a key only on the left keeps its value; a key on the right takes the sibling's value, merged deeply when both sides are non-list arrays |
| `DocumentParser.MergeNothing` | src/Parsing/DocumentParser.php:136-147 | merging no siblings leaves the target unchanged |
| `DocumentParser.MergeKeys` | src/Parsing/DocumentParser.php:136-147 | the merged object holds exactly the keys of both sides |
| `DocumentParser.WalkNode` | src/Parsing/DocumentParser.php:46-126 | exceeding the depth fails at the current pointer before anything else; scalars come back unchanged; an object whose first key is an integer fails with the `guessKind` type error; an object walks through only when all its keys are strings; a successful walk returns the chain and cache it was given |
| `DocumentParser.WalkRef` | src/Parsing/DocumentParser.php:58-105 | a reference that is not followed comes back verbatim with its siblings; a chain key already seen is circular; success restores `$seen` |
| `DocumentParser.WalkEntries` | src/Parsing/DocumentParser.php:108-125 | walking a list or an object keeps its keys in order; the object loop fails with the `guessKind` type error at an integer first key, before walking that child, and succeeds only when every key is a string |
| `DocumentParser.Parse` | src/Parsing/DocumentParser.php:30-38 | a parsed document is an array; a negative depth limit fails at the root; otherwise a top-level object with an integer first key fails with the `guessKind` type error, and a top-level object parses only when all its keys are strings |
| `DocumentParser.WalkKeepsArrays` | src/Parsing/DocumentParser.php:94-104 | walking an array gives an array, so the scalar branch after a resolution is never taken |
| `DocumentParser.EveryUncachedRefFails` | src/Parsing/DocumentParser.php:73-81 | every followed reference whose target is not cached fails with `CircularReference` |
| `DocumentParser.RefFreeWalk` | src/Parsing/DocumentParser.php:46-126 | a tree without references walks to itself exactly when it fits the depth budget and holds no object with an integer key; otherwise it fails, with the depth error only when too deep and the `guessKind` type error only when such an object exists |
| `DocumentParser.RefFreeEntries` | src/Parsing/DocumentParser.php:108-125 | the child loop over reference-free entries gives them back unchanged exactly when all fit one level down, the object loop meets no integer key and no child holds an integer-keyed object; otherwise it fails with the depth error or the type error, each only when its cause is present |
| `DocumentParser.IntegerKeyedDocumentFails` | src/Parsing/DocumentParser.php:121-123 | with a non-negative depth limit, the document `{"200": ...}`, whose key PHP stores as an integer, fails to parse with the `guessKind` type error |
| `DocumentParser.FollowRef` | src/Parsing/DocumentParser.php:73-104 | a followed reference that succeeds hands back the chain and cache it was given |
| `DocumentParser.FollowRefWalked` | src/Parsing/DocumentParser.php:78-98 | once the resolved target walks to an array, the result is that array with the `$ref` siblings merged on top |
| `DocumentParser.CachedRefMerges` | src/Parsing/DocumentParser.php:73-98 | a cached target free of references and of integer-keyed objects, within the depth budget, becomes its data with the `$ref` siblings merged on top |
| `Serializer.ExtraFlag` | src/Contract/Profile/FeatureSet.php:30-33 | a flag reads its stored value, or the default when it is absent |
| `Serializer.PruneEmpty` | src/Serialize/DefaultSerializer.php:81-154 | non-arrays come back unchanged and arrays stay arrays; for an array that does not lift, every surviving entry is an input entry under its own key with its value pruned below its key's path, and passes the keep test for its key, value and the parent's shape and path; and every input entry whose pruned value passes the keep test survives |
| `Serializer.PruneLift` | src/Serialize/DefaultSerializer.php:87-103 | an object holding an array under `requirements` and only `null` or `[]` besides is replaced by that array, pruned in scope mode under the same path |
| `Serializer.PruneKeepsOrder` | src/Serialize/DefaultSerializer.php:106-153 | the survivors' keys are the input's keys in input order with the dropped ones left out: the loop writes `$result[$key]` in the order it reads the entries |
| `Serializer.PruneFrom` | src/Serialize/DefaultSerializer.php:106-153 | the loop's result holds exactly the entries from position `i` on whose pruned value passes the keep test (preserve flag, no `null`, no `[]` except in scope context), each under its input key with its pruned value |
| `Serializer.ToArray` | src/Serialize/DefaultSerializer.php:27-36 | pruning runs when the `pruneEmpty` flag is absent or truthy, and is skipped when it is falsy |
| `Serializer.PruneRemovesNulls` | src/Serialize/DefaultSerializer.php:118-128 | with no `preserveEmpty.*` flag, no `null` survives anywhere in the tree |
| `Serializer.SecurityScopesKept` | src/Serialize/DefaultSerializer.php:137-144 | a document `{security: [{scheme: []}]}` prunes to itself for every scheme name other than `requirements`: the empty scope list under `security` is kept |
| `Serializer.TopLevelEmptySecurityDropped` | src/Serialize/DefaultSerializer.php:130-147 | an empty array directly under a top-level `security` key is dropped |
| `Serializer.RequirementsLift` | src/Serialize/DefaultSerializer.php:89-104 | an object whose only non-blank member is `requirements` is replaced by the requirements, with empty scope lists kept |
| `Serializer.KeptScopes` | src/Serialize/DefaultSerializer.php:130-144 | in scope mode, empty scope lists under an object all survive in order |
| `Validation.ErrorAt` | src/Contract/Validation/ValidationError.php:35-38 | `ValidationError::error` has severity Error at the given pointer with the given code and message, and no hint or source version |
| `Validation.Context.WithPointer` | src/Contract/Validation/ValidationContext.php:55-58 | `withPointer` sets the pointer and keeps the profile, the strictness and the base URI |
| `Validation.Context.Child` | src/Contract/Validation/ValidationContext.php:63-69 | `child` appends the escaped segment after `#/` at the root and after `/` elsewhere, keeping everything else |
| `Validation.NewContext` | src/Contract/Validation/ValidationContext.php:24-30 | the default context has pointer `#` and no base URI |
| `Validation.DescendAppends` | src/Contract/Validation/ValidationContext.php:63-69 | below the root, descending appends `/`-prefixed escaped segments |
| `Validation.DescendFromRoot` | src/Contract/Validation/ValidationContext.php:63-69 | the validator's pointer below `#` is `#` followed by the parser's pointer for the same segments |
| `Validation.OfSeverity` | src/Contract/Validation/ValidationReport.php:50-65 | a severity filter keeps exactly the items of that severity |
| `Validation.OfSeverityAppend` | src/Contract/Validation/ValidationReport.php:50-65 | filtering distributes over concatenation, so the filters keep report order |
| `Validation.SeverityPartition` | src/Contract/Validation/ValidationReport.php:50-65 | the three filters partition the items |
| `Validation.AddTo` | src/Contract/Validation/ValidationReport.php:75-78 | adding an item appends it to the group of its pointer, or opens a new last group when the pointer is new, leaving every other group as it was |
| `Validation.AddToNames` | src/Contract/Validation/ValidationReport.php:75-78 | the group pointers stay distinct and gain exactly the item's pointer |
| `Validation.Group` | src/Contract/Validation/ValidationReport.php:72-80 | one group per distinct pointer, each holding that pointer's items in report order |
| `Validation.Report.All` | src/Contract/Validation/ValidationReport.php:44-47 | `all()` returns the items in order |
| `Validation.Report.With` | src/Contract/Validation/ValidationReport.php:97-100 | `with` gives the old items followed by the new ones |
| `Validation.Report.GroupByPointer` | src/Contract/Validation/ValidationReport.php:72-80 | one non-empty group per distinct pointer of the items, each with its items in order |
| `Validation.IsOkIff` | src/Contract/Validation/ValidationReport.php:32-41 | `isOk` holds exactly when no item has severity Error |
| `Validation.FiltersCount` | src/Contract/Validation/ValidationReport.php:50-65 | the lengths of `errors`, `warnings` and `infos` add up to `count()` |
| `Validation.WithFilters` | src/Contract/Validation/ValidationReport.php:97-100 | extending a report extends each filter by the filtered new items, and the result is ok exactly when both parts are |
| `Rules.Operations` | src/Validation/Rule/PathTemplateParametersRule.php:38-44 | the operations considered are exactly the present ones among the eight methods |
| `Rules.PathSegment` | src/Validation/Rule/PathTemplateParametersRule.php:76-84 | a segment exists exactly for pointers under `#/paths/` |
| `Rules.TemplatePath` | src/Validation/Rule/PathTemplateParametersRule.php:73-87 | the template is the unescaped first segment, and `null` when it is absent or empty |
| `Rules.KeyPath` | src/Validation/Rule/PathsKeyFormatRule.php:44-54 | as above, but `?: null` also turns `"0"` into `null` |
| `Rules.SegmentOfChild` | src/Validation/Rule/PathTemplateParametersRule.php:73-87 | below `#/paths`, the segment read back from a `child` pointer is the original key |
| `Rules.ScanSound` | src/Validation/Rule/PathTemplateParametersRule.php:94 | every name the scan finds is the inside of a `{name}` of the path |
| `Rules.ScanComplete` | src/Validation/Rule/PathTemplateParametersRule.php:94 | every `{name}` of the path is found by the scan |
| `Rules.Dedup` | src/Validation/Rule/PathTemplateParametersRule.php:98 | `array_unique` keeps the same names without duplicates |
| `Rules.TemplateVarsIff` | src/Validation/Rule/PathTemplateParametersRule.php:92-99 | a name is a template variable exactly when `{name}` occurs in the path |
| `Rules.ScanTemplate` | src/Validation/Rule/PathTemplateParametersRule.php:94 | scanning a path built as `/{n1}/{n2}...` from brace-free names gives back exactly those names in order, repeats included |
| `Rules.TemplateVarsExample` | src/Validation/Rule/PathTemplateParametersRule.php:92-99 | for any two distinct brace-free names `a` and `b`, `/{a}/{b}/{a}` has the variables `a` and `b`, in that order |
| `Rules.Collect` | src/Validation/Rule/PathTemplateParametersRule.php:104-135 | every named declaration is collected, and nothing else |
| `Rules.CollectLast` | src/Validation/Rule/PathTemplateParametersRule.php:116-118 | the last declaration of a name decides its entry |
| `Rules.MergeParams` | src/Validation/Rule/PathTemplateParametersRule.php:143-150 | the merge has every name of both maps, the operation's entries winning |
| `Rules.VarIssue` | src/Validation/Rule/PathTemplateParametersRule.php:48-66 | a variable yields nothing exactly when it is declared `in: path` and required, `missing` when undeclared, `invalid` otherwise |
| `Rules.CheckVars` | src/Validation/Rule/PathTemplateParametersRule.php:48-67 | exactly one issue per variable not declared as a required path parameter, each being that variable's `missing` or `invalid` error at the node's pointer, and none exactly when all are declared |
| `Rules.CheckOps` | src/Validation/Rule/PathTemplateParametersRule.php:38-68 | exactly one issue per (present operation, variable) pair lacking a proper declaration in the merged parameters, each being that variable's coded error; none exactly when every variable is declared for every operation |
| `Rules.PathTemplateIssues` | src/Validation/Rule/PathTemplateParametersRule.php:15-71 | non-Path-Item nodes and pointers outside `#/paths/` give nothing; otherwise exactly one coded error per present operation and badly declared template variable, all at the node's pointer |
| `Rules.DeclaredOnPathItemPasses` | src/Validation/Rule/PathTemplateParametersRule.php:36-68 | variables declared on the Path Item as required path parameters, and not redeclared by operations, give no error |
| `Rules.PathsKeyIssues` | src/Validation/Rule/PathsKeyFormatRule.php:18-42 | at most one `paths.key.invalid`, exactly when the decoded key is present and does not start with `/` |
| `Rules.PathsKeyOfChild` | src/Validation/Rule/PathsKeyFormatRule.php:18-54 | for the Path Item under `paths[key]`, the rule fires exactly when the key is not empty, not `"0"` and does not start with `/` |
| `Rules.StatusOkRange` | src/Validation/Rule/ResponsesStatusCodeRule.php:46 | the pattern accepts three digits with the first in 1 to 5, optionally followed by one newline |
| `Rules.IntStatusAccepted` | src/Validation/Rule/ResponsesStatusCodeRule.php:39-46 | an integer response key passes exactly when it lies in 100..599 |
| `Rules.StatusExamples` | src/Validation/Rule/ResponsesStatusCodeRule.php:42-46 | `200`, `599` and `200\n` pass; `2XX`, `600`, `20` and `default` do not match the pattern |
| `Rules.StatusIssues` | src/Validation/Rule/ResponsesStatusCodeRule.php:39-56 | every rejected key is reported, all at the operation's pointer, and none exactly when no key is rejected |
| `Rules.StatusIssuesCount` | src/Validation/Rule/ResponsesStatusCodeRule.php:39-56 | exactly one report per rejected key |
| `Rules.ResponsesIssues` | src/Validation/Rule/ResponsesStatusCodeRule.php:22-58 | non-Operation nodes and a missing response map give nothing; otherwise every rejected key is reported at the operation's pointer, one report per rejected key |
| `Rules.TrackedId` | src/Validation/Rule/UniqueOperationIdRule.php:26-33 | only an Operation with a non-empty operation id is tracked |
| `Rules.UniqueIdIssues` | src/Validation/Rule/UniqueOperationIdRule.php:24-50 | untracked nodes change nothing; a known id gives one duplicate error and keeps the state; a new id is recorded with its pointer |
| `Rules.RunSeen` | src/Validation/Rule/UniqueOperationIdRule.php:16-49 | after a run the state knows exactly the initial ids and every tracked id, and the first pointer of each is never overwritten |
| `Rules.RunReports` | src/Validation/Rule/UniqueOperationIdRule.php:36-45 | a call reports a duplicate exactly when its id was seen before that call |
| `Versions.TrimLeft` | src/Version/VersionDetector.php:48 | the leading `\s*` removed is all white space, and what remains starts with a non-space |
| `Versions.TrimRight` | src/Version/VersionDetector.php:48 | the trailing `\s*` removed is all white space, and what remains ends with a non-space |
| `Versions.NormalizeJoin` | src/Version/VersionDetector.php:45-53 | padded dot-separated digit runs give `major.minor` for two or three runs and nothing otherwise |
| `Versions.NormalizeAccepts` | src/Version/VersionDetector.php:45-53 | `major.minor[.patch]` padded with white space normalizes to `major.minor` |
| `Versions.NormalizeIdempotent` | src/Version/VersionDetector.php:45-53 | a normalized version normalizes to itself |
| `Versions.NormalizeThreeOne` | src/Version/VersionDetector.php:25-26 | `3.1.0` gives `3.1` |
| `Versions.NormalizePadded` | src/Version/VersionDetector.php:48 | ` 3.2 ` gives `3.2` |
| `Versions.NormalizeFourParts` | src/Version/VersionDetector.php:48-50 | `3.1.0.1` is rejected |
| `Versions.OpenApiVersion` | src/Version/VersionDetector.php:38-43 | the version is the root `openapi` value exactly when that is a non-empty string |
| `Versions.Register` | src/Version/ProfileRegistry.php:28-35 | `register` keeps the registry well formed, appends only a new id, and moves the default when asked or when there was none |
| `Versions.Lookup` | src/Version/ProfileRegistry.php:42-49 | `get` fails with `ProfileNotFound` exactly for unregistered ids, and otherwise returns the profile with that id |
| `Versions.GetDefault` | src/Version/ProfileRegistry.php:54-61 | `getDefault` fails only on an empty registry, and otherwise returns the default profile |
| `Versions.SetDefault` | src/Version/ProfileRegistry.php:63-69 | `setDefault` fails on an unknown id; otherwise only the default changes, and it is the named profile |
| `Versions.All` | src/Version/ProfileRegistry.php:74-85 | `all()` lists one profile per id of `ids()`, aligned with it |
| `Versions.FromProfiles` | src/Version/ProfileRegistry.php:21-26 | the variadic constructor builds a well-formed registry whose default is the first profile |
| `Versions.RegisterLookup` | src/Version/ProfileRegistry.php:28-49 | after `register`, the new profile answers for its id and every other id answers as before |
| `Versions.FromProfilesIds` | src/Version/ProfileRegistry.php:21-31 | the registered ids are exactly the ids of the given profiles |
| `Versions.Detect` | src/Version/VersionDetector.php:21-33 | the normalized version's profile when it is registered, the default profile otherwise |
| `Versions.DetectSelects` | src/Version/VersionDetector.php:26-29 | with `3.1` and `3.2` registered, `3.2.0` selects `3.2` |
| `Versions.DetectFallsBack` | src/Version/VersionDetector.php:23-32 | in the same registry, `3.1.0.1` and a missing version fall back to the default `3.1` |
| `Extensions.NameIsStringKey` | src/Model/Support/HasExtensions.php:27-32 | an `x-` name stays a string key |
| `Extensions.FirstBadFrom` | src/Model/Support/HasExtensions.php:78-82 | the loop finds the first key that is not an `x-` string, and none exactly when there is none |
| `Extensions.FirstBadKey` | src/Model/Support/HasExtensions.php:76-83 | the key thrown on is the first bad key, and there is none exactly when every key is an `x-` string |
| `Extensions.Extension` | src/Model/Support/HasExtensions.php:17-23 | `extension` reads the stored value, or `null` when the name is absent |
| `Extensions.WithExtension` | src/Model/Support/HasExtensions.php:25-35 | a non-`x-` name is rejected; otherwise the name reads the new value, every other key is unchanged, and key validity and distinctness are kept |
| `Extensions.OverlayGet` | src/Model/Support/HasExtensions.php:47 | in `[...$old, ...$new]` a key reads from the new array when it has it and from the old one otherwise |
| `Extensions.OverlayKeepsOrder` | src/Model/Support/HasExtensions.php:47 | the old keys keep their positions at the front of the merge |
| `Extensions.WithExtensions` | src/Model/Support/HasExtensions.php:37-50 | a map with a bad key is rejected on that key; otherwise the new map wins over the old entries, old keys stay first, and key validity is kept |
| `Extensions.ExtensionAfterWith` | src/Model/Support/HasExtensions.php:17-50 | after a merge, a merged name reads its new value and any other name its old one |
| `Parameters.New` | src/Model/Parameter.php:47-92 | construction succeeds exactly for valid parameters: non-empty name, `x-` keys, path implies required, one example form, schema block or content, query-only flags |
| `Parameters.EffectiveStyle` | src/Model/Parameter.php:97-107 | the explicit style, else `form` exactly for query and cookie and `simple` exactly for path and header |
| `Parameters.EffectiveExplode` | src/Model/Parameter.php:112-119 | the explicit value, else whether the effective style is `form` |
| `Parameters.DefaultExplode` | src/Model/Parameter.php:97-119 | with neither style nor explode, a parameter explodes exactly when it is in query or cookie |
| `Parameters.ValidPathParameter` | src/Model/Parameter.php:69-91 | a valid path parameter is required and has no query-only flags |
| `Parameters.WithExtensionsOf` | src/Model/Parameter.php:122-140 | merging extensions succeeds exactly for `x-` keys, keeps every other field and validity, and the new map wins |
| `Parameters.WithExtensionOf` | src/Model/Parameter.php:122-140 | setting an extension succeeds exactly for an `x-` name, keeps every other field, and the name reads the value |
| `Headers.New` | src/Model/Header.php:41-76 | construction succeeds exactly for valid headers: `x-` keys, one example form, schema block or content, one media type, style `simple` |
| `Headers.EffectiveExplode` | src/Model/Header.php:94-97 | a header explodes exactly when `explode` is explicitly true |
| `Headers.StyleAgrees` | src/Model/Header.php:73-75 | a valid header's explicit style is its effective style, which is always `simple` |
| `Headers.ContentExcludes` | src/Model/Header.php:55-70 | a header described by `content` has exactly one media type, no schema and no examples |
| `SecuritySchemes.CheckApiKey` | src/Model/SecurityScheme.php:56-71 | the apiKey checks pass exactly when name and location are set, the location is not path, and the other fields are absent |
| `SecuritySchemes.CheckHttp` | src/Model/SecurityScheme.php:73-81 | the http checks pass exactly when `scheme` is set and name, location, flows and URL are absent |
| `SecuritySchemes.CheckOAuth2` | src/Model/SecurityScheme.php:90-98 | the oauth2 checks pass exactly when flows with at least one flow are set and the other fields are absent |
| `SecuritySchemes.CheckOpenIdConnect` | src/Model/SecurityScheme.php:100-111 | the openIdConnect checks pass exactly when the URL is set and the other fields, the metadata URL included, are absent |
| `SecuritySchemes.New` | src/Model/SecurityScheme.php:39-113 | construction succeeds exactly for valid schemes, extension keys being checked first |
| `SecuritySchemes.FieldsByType` | src/Model/SecurityScheme.php:54-112 | in a valid scheme each type-specific field is present exactly for its own type |
| `SecuritySchemes.RequiredParts` | src/Model/SecurityScheme.php:56-98 | a valid apiKey has a non-empty name and a non-path location; a valid oauth2 has at least one flow |
| `SecurityRequirements.CheckFrom` | src/Model/SecurityRequirement.php:31-44 | the loop passes exactly when every scheme name is a non-empty string and every scope value a list of non-empty strings |
| `SecurityRequirements.New` | src/Model/SecurityRequirement.php:27-46 | construction succeeds exactly for valid requirements |
| `SecurityRequirements.Scopes` | src/Model/SecurityRequirement.php:69-75 | `scopes` returns the stored list, or `[]` when the scheme is absent |
| `SecurityRequirements.SchemeNames` | src/Model/SecurityRequirement.php:82-85 | one name per entry, each coercing back to its key |
| `SecurityRequirements.ScopesAreLists` | src/Model/SecurityRequirement.php:35-42 | in a valid requirement every scope value read is a list of non-empty strings |
| `SecurityRequirements.SchemeNamesAreKeys` | src/Model/SecurityRequirement.php:51-62 | every scheme name is non-empty and `has` holds for it, and `hasAny` holds exactly when there is a name |
| `Examples.New` | src/Model/Example.php:31-66 | construction succeeds exactly for valid examples, extension keys being checked first |
| `Examples.AtMostOneValue` | src/Model/Example.php:44-65 | a valid example sets at most one of `value`, `serializedValue` and `externalValue` |
| `Examples.HasExcludes` | src/Model/Example.php:78-96 | the `has*` predicates of a valid example exclude each other |
| `Examples.EmptySerializedValue` | src/Model/Example.php:83-86 | an empty `serializedValue` is set but not reported by `hasSerializedValue` |
| `Discriminators.CheckMapping` | src/Model/Discriminator.php:42-54 | the mapping passes exactly when every key and value is a non-empty string |
| `Discriminators.New` | src/Model/Discriminator.php:32-61 | construction succeeds exactly for valid discriminators |
| `Discriminators.Target` | src/Model/Discriminator.php:73-76 | a mapped value gives its target, any other value the default mapping, and a target is never empty |
| `Discriminators.All` | src/Model/Discriminator.php:79-82 | `all()` is the mapping, or `[]` without one |
| `Discriminators.HasMeansListed` | src/Model/Discriminator.php:68-82 | a value `has` reports is a key of `all()` mapped to its target |
| `Discriminators.NumericValueUsesDefault` | src/Model/Discriminator.php:47-48 | a numeric discriminator value is never mapped, because PHP turns it into an integer key, so it falls back to the default |
| `XmlObjects.New` | src/Model/Xml.php:34-65 | construction succeeds exactly for valid XML objects |
| `XmlObjects.HasIsPresence` | src/Model/Xml.php:56-80 | in a valid object, `hasName`, `hasNamespace` and `hasPrefix` hold exactly when the field is set |
| `XmlObjects.NodeTypeClearsFlags` | src/Model/Xml.php:46-53 | with a node type set, neither flag is set |
| `XmlObjects.FalseFlagNotSet` | src/Model/Xml.php:87-90 | an explicit `false` attribute flag is present but not set |
| `Links.CheckParameters` | src/Model/Link.php:51-60 | the parameters pass exactly when every key is a non-empty string |
| `Links.New` | src/Model/Link.php:29-61 | construction succeeds exactly for valid links, extension keys being checked first |
| `Links.OneOperationReference` | src/Model/Link.php:42-48 | a valid link has exactly one of `operationRef` and `operationId` |
| `Links.WithExtensionsOf` | src/Model/Link.php:84-95 | merging extensions succeeds exactly for `x-` keys and keeps every other field and validity |
| `Links.WithExtensionOf` | src/Model/Link.php:84-95 | setting an extension succeeds exactly for an `x-` name, keeps every other field, and the name reads the value |
| `Schemas.FirstBadName` | src/Model/Schema.php:116-121 | the loop finds the first element that is not a non-empty string, and none exactly when there is none |
| `Schemas.New` | src/Model/Schema.php:111-145 | construction succeeds exactly for valid schemas: list-shaped `enum`, `required` and `examples`, non-empty type names, `x-` keys |
| `Schemas.Extra` | src/Model/Schema.php:163-166 | `extra` reads the stored keyword, or `null` when absent |
| `Schemas.NullExtraIsPresent` | src/Model/Schema.php:163-172 | a keyword stored as `null` is present for `hasExtra` although `extra` reads `null` |
| `Schemas.TypeNamesNonEmpty` | src/Model/Schema.php:127-140 | every type name of a valid schema is a non-empty string, in either form |
| `Schemas.RequiredIsNameList` | src/Model/Schema.php:114-121 | the required names of a valid schema sit at keys `0..n-1` and are non-empty strings |

## Left out

- `src/Ref/DefaultRefFetcher.php`: file and HTTP reads and JSON decoding are I/O. The
  fetcher is a function parameter returning an optional array, and every fetch failure is
  one `FetchFailed` error.
- `is_dir` is an oracle parameter. `parse_url` is reduced to the scheme, host, port and path
  of `scheme://authority/path` and scheme-less strings. User info, queries and IPv6 hosts
  are not parsed.
- `src/Parsing/NodeFactory.php` is not part of this model. `Parse` returns the walked array,
  as the factory hands it back.
- The node kind `guessKind` returns is a hint for the node factory and is not modelled; only
  the `TypeError` its `string` parameter raises for an integer key is. Strictness is
  carried by contexts but never read.
- Floats and PHP's 64-bit integer limits are not modelled. Integers are unbounded, and the
  tree has null, booleans, integers, strings and arrays.
- Walking a PHP list appends children at `0, 1, ...`. Because a list's keys already are
  `0, 1, ...`, this is modelled as keeping every key.
- The spread `[...$old, ...$new]` renumbers integer keys. Extension keys are `x-` strings
  by the time they are merged, so only string keys are modelled.
- `DocumentParser.MergeGet` and `Extensions.OverlayGet`: the key-by-key statements assume
  the sibling or new array has distinct keys, as every PHP array does.
- A profile is its `major.minor` id and its `extra` flags; the rest of `SpecProfile` is not
  read by the modelled code. Profile ids are kept as strings, so the integer-key coercion
  of ids such as `"3"` in `$this->profiles[$id]` is not modelled.
- `Validation.Group`: pointers are compared as strings. PHP's coercion of a numeric pointer
  such as `"12"` to an integer key in `groupByPointer` is not modelled, since pointers
  start with `#`.
- `ValidationReport` imports `Severity` from a global namespace that does not exist
  (`src/Contract/Validation/ValidationReport.php:13`). The model uses the enum of
  `src/Contract/Validation/Enum/Severity.php`.
- `collectParameters` reads a parameter as a name, a location string and a required flag.
  It also casts the `ParameterIn` enum with `(string)`, which PHP refuses for a backed
  enum. The Traversable and array branches, which do the same thing, are one function.
- `Schema`: the many sub-schema and structural fields are not kept, because the constructor
  checks nothing about them. `hasStructural` works by reflection. The check that `raw` is a
  bool or an array cannot fail on the typed `Raw` argument.
- `withExtension`/`withExtensions` are modelled on the extension array, and then through the
  constructor for Parameter and Link. The other objects' `recreateWithExtensions` copies the
  fields in the same way.
- `OAuthFlows`: only `hasAny` is modelled, as a predicate over the five optional flows.
  The flows' own constructors are thin, and so are the other thin model classes (Info,
  License, Contact, Server, Tag, Operation, PathItem, Components and so on).
- `Headers.EffectiveStyle`: the function is a constant. `Headers.StyleAgrees` carries the
  statement about it.
- The traversal walker, the composite validator, the normalizers, the type registry and the
  reflection-driven rules have no statable core and are not part of this model.

=== FILE: extensions.dfy ===
/** `HasExtensions`: the `x-` specification extensions every model object
    carries, kept as an ordered PHP array, and the copy-on-write operations
    on them. */
module Extensions {
  import opened Wrappers
  import opened Text
  import opened Json

  /** Why a model constructor or a `with*` call throws
      `InvalidArgumentException`: a bad extension key, or the named rule of
      the object that is broken. */
  datatype Invalid = BadExtensionKey(key: Key) | Violation(rule: string)

  predicate ExtensionName(s: string) {
    StartsWith(s, "x-")
  }

  /** `is_string($k) && str_starts_with($k, 'x-')`. */
  predicate ExtensionKey(k: Key) {
    k.StrKey? && ExtensionName(k.s)
  }

  predicate ExtensionKeys(e: Entries) {
    forall i :: 0 <= i < |e| ==> ExtensionKey(e[i].0)
  }

  /** An `x-` name never looks like an integer, so PHP keeps it a string key. */
  lemma NameIsStringKey(name: string)
    requires ExtensionName(name)
    ensures ToKey(name) == StrKey(name)
  {
    assert name[0] == 'x';
  }

  /** The loop of `assertExtensionsKeys` from position `i` on: where the
      first key that is not an `x-` string sits, if anywhere. */
  function FirstBadFrom(e: Entries, i: nat): (r: Option<nat>)
    requires i <= |e|
    ensures r.None? <==> forall j :: i <= j < |e| ==> ExtensionKey(e[j].0)
    ensures r.Some? ==> i <= r.value < |e| && !ExtensionKey(e[r.value].0)
    ensures r.Some? ==> forall j :: i <= j < r.value ==> ExtensionKey(e[j].0)
    decreases |e| - i
  {
    if i == |e| then None
    else if !ExtensionKey(e[i].0) then Some(i)
    else FirstBadFrom(e, i + 1)
  }

  /** The key `assertExtensionsKeys` throws on: the first bad one. */
  function FirstBadKey(e: Entries): (r: Option<Key>)
    ensures r.None? <==> ExtensionKeys(e)
    ensures r.Some? ==> exists i :: 0 <= i < |e| && e[i].0 == r.value && !ExtensionKey(r.value) && ExtensionKeys(e[..i])
  {
    match FirstBadFrom(e, 0)
    case None => None
    case Some(i) =>
      assert ExtensionKeys(e[..i]) by {
        assert forall j :: 0 <= j < i ==> e[..i][j] == e[j];
      }
      Some(e[i].0)
  }

  /** `hasExtensions()`. */
  predicate HasExtensions(e: Entries) {
    e != []
  }

  /** `extension($name)`: the value, or `null` when the name is absent. */
  function Extension(e: Entries, name: string): (v: Json)
    ensures ToKey(name) !in Keys(e) ==> v == Null
    ensures ToKey(name) in Keys(e) ==> Get(e, ToKey(name)) == Some(v)
  {
    Get(e, ToKey(name)).GetOr(Null)
  }

  /** `withExtension($name, $value)` on the extension array: `$name` must be
      an `x-` name, and then it is assigned. */
  function WithExtension(e: Entries, name: string, v: Json): (r: Result<Entries, Invalid>)
    ensures r.Success? <==> ExtensionName(name)
    ensures r.Failure? ==> r.error == BadExtensionKey(ToKey(name))
    ensures r.Success? ==> Extension(r.value, name) == v
    ensures r.Success? ==> forall k :: k != StrKey(name) ==> Get(r.value, k) == Get(e, k)
    ensures r.Success? && ExtensionKeys(e) ==> ExtensionKeys(r.value)
    ensures r.Success? && DistinctKeys(e) ==> DistinctKeys(r.value)
  {
    if !ExtensionName(name) then Failure(BadExtensionKey(ToKey(name)))
    else
      NameIsStringKey(name);
      var r := Set(e, StrKey(name), v);
      SetGet(e, StrKey(name), v, StrKey(name));
      SetGetAll(e, StrKey(name), v);
      SetExtensionKeys(e, StrKey(name), v);
      assert DistinctKeys(e) ==> DistinctKeys(r) by {
        if DistinctKeys(e) {
          SetDistinct(e, StrKey(name), v);
        }
      }
      Success(r)
  }

  lemma SetGetAll(e: Entries, k: Key, v: Json)
    ensures forall k' :: k' != k ==> Get(Set(e, k, v), k') == Get(e, k')
  {
    forall k' | k' != k
      ensures Get(Set(e, k, v), k') == Get(e, k')
    {
      SetGet(e, k, v, k');
    }
  }

  lemma SetExtensionKeys(e: Entries, k: Key, v: Json)
    requires ExtensionKey(k)
    ensures ExtensionKeys(e) ==> ExtensionKeys(Set(e, k, v))
  {
    var r := Set(e, k, v);
    if ExtensionKeys(e) {
      if k in Keys(e) {
        assert forall i :: 0 <= i < |r| ==> r[i].0 == Keys(e)[i];
      }
    }
  }

  /** `[...$old, ...$new]` for string keys: each entry of `$new` is assigned
      over `$old` in order. */
  function Overlay(a: Entries, b: Entries): (r: Entries)
    decreases |b|
  {
    if b == [] then a else Overlay(Set(a, b[0].0, b[0].1), b[1..])
  }

  /** A merged key reads from the new array when it has the key and from the
      old one otherwise. */
  lemma {:induction false} OverlayGet(a: Entries, b: Entries, k: Key)
    requires DistinctKeys(b)
    ensures Get(Overlay(a, b), k) == if k in Keys(b) then Get(b, k) else Get(a, k)
    decreases |b|
  {
    if b != [] {
      var (k0, v0) := b[0];
      var rest := b[1..];
      assert Keys(b) == [k0] + Keys(rest);
      DistinctTail(b);
      OverlayGet(Set(a, k0, v0), rest, k);
      SetGet(a, k0, v0, k);
      if k == k0 {
        HeadNotInTail(b);
        assert Get(b, k) == Some(v0);
      } else {
        assert Get(b, k) == Get(rest, k);
      }
    }
  }

  lemma DistinctTail(b: Entries)
    requires DistinctKeys(b) && b != []
    ensures DistinctKeys(b[1..])
  {
    forall i, j | 0 <= i < j < |b| - 1
      ensures b[1..][i].0 != b[1..][j].0
    {
      assert b[1..][i] == b[i + 1] && b[1..][j] == b[j + 1];
    }
  }

  lemma HeadNotInTail(b: Entries)
    requires DistinctKeys(b) && b != []
    ensures b[0].0 !in Keys(b[1..])
  {
    forall i | 0 <= i < |b| - 1
      ensures Keys(b[1..])[i] != b[0].0
    {
      assert Keys(b[1..])[i] == b[i + 1].0;
    }
  }

  /** The old keys keep their positions at the front of the merge. */
  lemma {:induction false} OverlayKeepsOrder(a: Entries, b: Entries)
    ensures |Overlay(a, b)| >= |a| && Keys(Overlay(a, b))[..|a|] == Keys(a)
    decreases |b|
  {
    if b != [] {
      var s := Set(a, b[0].0, b[0].1);
      OverlayKeepsOrder(s, b[1..]);
      if b[0].0 !in Keys(a) {
        assert Keys(s)[..|a|] == Keys(a);
      }
    }
  }

  lemma {:induction false} OverlayExtensionKeys(a: Entries, b: Entries)
    requires ExtensionKeys(a) && ExtensionKeys(b)
    ensures ExtensionKeys(Overlay(a, b))
    decreases |b|
  {
    if b != [] {
      SetExtensionKeys(a, b[0].0, b[0].1);
      OverlayExtensionKeys(Set(a, b[0].0, b[0].1), b[1..]);
    }
  }

  /** `withExtensions($map)` on the extension array: every key of `$map`
      must be an `x-` string; then `$map` is merged over the old entries, or
      taken as it is when there are none. */
  function WithExtensions(e: Entries, m: Entries): (r: Result<Entries, Invalid>)
    ensures r.Success? <==> ExtensionKeys(m)
    ensures r.Failure? ==> r.error == BadExtensionKey(FirstBadKey(m).value) && r.error.key in Keys(m)
    ensures r.Success? && DistinctKeys(m) ==>
      forall k :: Get(r.value, k) == if k in Keys(m) then Get(m, k) else Get(e, k)
    ensures r.Success? && ExtensionKeys(e) ==> ExtensionKeys(r.value)
    ensures r.Success? ==> |r.value| >= |e| && Keys(r.value)[..|e|] == Keys(e)
  {
    match FirstBadKey(m)
    case Some(k) => Failure(BadExtensionKey(k))
    case None =>
      var merged := if e == [] then m else Overlay(e, m);
      assert DistinctKeys(m) ==> forall k :: Get(merged, k) == if k in Keys(m) then Get(m, k) else Get(e, k) by {
        if DistinctKeys(m) && e != [] {
          forall k
            ensures Get(merged, k) == if k in Keys(m) then Get(m, k) else Get(e, k)
          {
            OverlayGet(e, m, k);
          }
        }
      }
      assert ExtensionKeys(e) ==> ExtensionKeys(merged) by {
        if ExtensionKeys(e) && e != [] {
          OverlayExtensionKeys(e, m);
        }
      }
      OverlayKeepsOrder(e, m);
      Success(merged)
  }

  /** Reading back: a name just set reads as its value, and a name merged in
      reads as the merged value. */
  lemma ExtensionAfterWith(e: Entries, m: Entries, name: string)
    requires DistinctKeys(m) && ExtensionKeys(m) && ExtensionName(name)
    ensures WithExtensions(e, m).Success?
    ensures StrKey(name) in Keys(m) ==> Extension(WithExtensions(e, m).value, name) == Get(m, StrKey(name)).value
    ensures StrKey(name) !in Keys(m) ==> Extension(WithExtensions(e, m).value, name) == Extension(e, name)
  {
    NameIsStringKey(name);
    var r := WithExtensions(e, m).value;
    assert Get(r, StrKey(name)) == if StrKey(name) in Keys(m) then Get(m, StrKey(name)) else Get(e, StrKey(name));
  }
}

=== FILE: json.dfy ===
/** The decoded document tree. A PHP array is an ORDERED map whose keys are
    integers or strings; a JSON object and a JSON list are both arrays and are
    told apart only by their keys. Floating-point numbers are not modelled. */
module Json {
  import opened Wrappers
  import opened Text

  datatype Key = IntKey(i: int) | StrKey(s: string)

  datatype Json =
    | Null
    | Bool(b: bool)
    | Int(i: int)
    | Str(s: string)
    | Arr(entries: seq<(Key, Json)>)

  type Entries = seq<(Key, Json)>

  // ---------------------------------------------------------------------------
  // Keys

  /** `(string)$key`. */
  function KeyText(k: Key): string {
    match k
    case IntKey(i) => IntToString(i)
    case StrKey(s) => s
  }

  /** A key PHP can actually hold: a string key never looks like a canonical
      integer, because PHP stores such a string as that integer. */
  predicate WellKeyed(k: Key) {
    k.StrKey? ==> !IsCanonicalInt(k.s)
  }

  /** `$array[$s]`: the key a string becomes when used to index an array. */
  function ToKey(s: string): (k: Key)
    ensures WellKeyed(k)
    ensures KeyText(k) == s
  {
    if IsCanonicalInt(s) then
      CanonicalIntRoundTrip(s);
      IntKey(ParseInt(s))
    else StrKey(s)
  }

  /** Coercing a key's text gives the key back: `ToKey` and `KeyText` are
      inverse bijections between strings and well-keyed keys. */
  lemma KeyRoundTrip(k: Key)
    requires WellKeyed(k)
    ensures ToKey(KeyText(k)) == k
  {
    if k.IntKey? {
      IntToStringRoundTrip(k.i);
    }
  }

  lemma {:induction false} PositiveDigits(s: string)
    requires AllDigits(s) && s[0] != '0'
    ensures ParseNat(s) >= 1
    decreases |s|
  {
    if |s| > 1 {
      PositiveDigits(s[..|s| - 1]);
    }
  }

  lemma {:induction false} CanonicalNatRoundTrip(s: string)
    requires AllDigits(s) && (s[0] != '0' || s == "0")
    ensures NatToString(ParseNat(s)) == s
    decreases |s|
  {
    if |s| > 1 {
      var init := s[..|s| - 1];
      assert init[0] == s[0];
      PositiveDigits(init);
      CanonicalNatRoundTrip(init);
      var n := ParseNat(s);
      var d := DigitValue(s[|s| - 1]);
      assert n == ParseNat(init) * 10 + d;
      assert n / 10 == ParseNat(init) && n % 10 == d;
      assert s == init + [s[|s| - 1]];
    }
  }

  lemma CanonicalIntRoundTrip(s: string)
    requires IsCanonicalInt(s)
    ensures IntToString(ParseInt(s)) == s
  {
    if s[0] == '-' {
      CanonicalNatRoundTrip(s[1..]);
      PositiveDigits(s[1..]);
      assert s == "-" + s[1..];
    } else {
      CanonicalNatRoundTrip(s);
    }
  }

  // ---------------------------------------------------------------------------
  // The array as an ordered map

  function Keys(e: Entries): (ks: seq<Key>)
    ensures |ks| == |e| && forall i :: 0 <= i < |e| ==> ks[i] == e[i].0
  {
    seq(|e|, i requires 0 <= i < |e| => e[i].0)
  }

  /** PHP arrays never hold a key twice. */
  predicate DistinctKeys(e: Entries) {
    forall i, j :: 0 <= i < j < |e| ==> e[i].0 != e[j].0
  }

  /** `array_key_exists($k, $a) ? $a[$k] : <absent>`. */
  function Get(e: Entries, k: Key): (r: Option<Json>)
    ensures r.Some? <==> k in Keys(e)
    ensures DistinctKeys(e) ==> forall i :: 0 <= i < |e| && e[i].0 == k ==> r == Some(e[i].1)
    decreases |e|
  {
    if |e| == 0 then None
    else if e[0].0 == k then Some(e[0].1)
    else
      assert Keys(e) == [e[0].0] + Keys(e[1..]);
      Get(e[1..], k)
  }

  /** The position of key `k`: where `Get` finds its value. */
  function Find(e: Entries, k: Key): (r: Option<nat>)
    ensures r.None? <==> k !in Keys(e)
    ensures r.Some? ==> r.value < |e| && e[r.value].0 == k && Get(e, k) == Some(e[r.value].1)
    decreases |e|
  {
    if |e| == 0 then None
    else if e[0].0 == k then Some(0)
    else
      assert Keys(e) == [e[0].0] + Keys(e[1..]);
      match Find(e[1..], k)
      case None => None
      case Some(i) => Some(i + 1)
  }

  /** `$a[$k] = $v`: an existing key keeps its position, a new key goes last. */
  function Set(e: Entries, k: Key, v: Json): (r: Entries)
    ensures k in Keys(e) ==> Keys(r) == Keys(e)
    ensures k !in Keys(e) ==> r == e + [(k, v)]
    decreases |e|
  {
    if |e| == 0 then [(k, v)]
    else if e[0].0 == k then
      var r := [(k, v)] + e[1..];
      assert Keys(r) == Keys(e);
      r
    else
      var rest := Set(e[1..], k, v);
      var r := [e[0]] + rest;
      assert Keys(e) == [e[0].0] + Keys(e[1..]);
      assert Keys(r) == [e[0].0] + Keys(rest);
      r
  }

  /** After `$a[$k] = $v`, `$a[$k]` is `$v` and every other key reads as before. */
  lemma {:induction false} SetGet(e: Entries, k: Key, v: Json, k': Key)
    ensures Get(Set(e, k, v), k') == if k' == k then Some(v) else Get(e, k')
    decreases |e|
  {
    if |e| > 0 && e[0].0 != k {
      SetGet(e[1..], k, v, k');
      assert Set(e, k, v)[1..] == Set(e[1..], k, v);
    }
  }

  /** Assignment keeps the keys distinct. */
  lemma SetDistinct(e: Entries, k: Key, v: Json)
    requires DistinctKeys(e)
    ensures DistinctKeys(Set(e, k, v))
  {
    var r := Set(e, k, v);
    if k in Keys(e) {
      assert Keys(r) == Keys(e);
      assert forall i, j :: 0 <= i < j < |r| ==> r[i].0 == Keys(e)[i] && r[j].0 == Keys(e)[j];
    } else {
      assert forall i :: 0 <= i < |e| ==> e[i].0 in Keys(e);
    }
  }

  /** Reading an array that starts with a known entry. */
  lemma GetCons(x: (Key, Json), rest: Entries, k: Key)
    ensures Get([x] + rest, k) == if x.0 == k then Some(x.1) else Get(rest, k)
  {
    assert ([x] + rest)[1..] == rest;
  }

  /** Prepending an entry whose key is new keeps the keys distinct. */
  lemma DistinctCons(x: (Key, Json), rest: Entries)
    requires DistinctKeys(rest) && x.0 !in Keys(rest)
    ensures DistinctKeys([x] + rest)
  {
    var r := [x] + rest;
    forall i, j | 0 <= i < j < |r|
      ensures r[i].0 != r[j].0
    {
      if i == 0 {
        assert r[j].0 == Keys(rest)[j - 1];
      } else {
        assert r[i] == rest[i - 1] && r[j] == rest[j - 1];
      }
    }
  }

  /** The key of the first entry is not among the keys of the tail. */
  lemma HeadKeyNew(e: Entries)
    requires |e| > 0 && DistinctKeys(e)
    ensures DistinctKeys(e[1..]) && e[0].0 !in Keys(e[1..])
  {
    assert forall i :: 0 <= i < |e[1..]| ==> e[1..][i] == e[i + 1];
  }

  /** Keys of an array with a known first entry. */
  lemma KeysCons(x: (Key, Json), rest: Entries)
    ensures Keys([x] + rest) == [x.0] + Keys(rest)
  {
  }

  /** Keys of a non-empty array: the first key, then the tail's keys. */
  lemma KeysTail(e: Entries)
    requires |e| > 0
    ensures Keys(e) == [e[0].0] + Keys(e[1..])
  {
  }

  /** A non-empty array is its first entry followed by the rest. */
  lemma HeadTail(e: Entries)
    requires |e| > 0
    ensures [e[0]] + e[1..] == e
  {
  }

  /** A suffix of an array is its first entry followed by the next suffix. */
  lemma SuffixCons(e: Entries, i: nat)
    requires i < |e|
    ensures e[i..] == [e[i]] + e[i + 1..]
  {
  }

  /** One step of `Remove`: reading keys other than `k`. */
  lemma RemoveStepGet(e: Entries, k: Key, rest: Entries)
    requires |e| > 0
    requires forall k' :: k' != k ==> Get(rest, k') == Get(e[1..], k')
    ensures var r := if e[0].0 == k then rest else [e[0]] + rest;
      forall k' :: k' != k ==> Get(r, k') == Get(e, k')
  {
    assert e == [e[0]] + e[1..];
    forall k'
      ensures Get(e, k') == if e[0].0 == k' then Some(e[0].1) else Get(e[1..], k')
      ensures Get([e[0]] + rest, k') == if e[0].0 == k' then Some(e[0].1) else Get(rest, k')
    {
      GetCons(e[0], e[1..], k');
      GetCons(e[0], rest, k');
    }
  }

  /** One step of `Remove`: the survivors come from the array and keep
      their keys distinct. */
  lemma RemoveStepDistinct(e: Entries, k: Key, rest: Entries)
    requires |e| > 0
    requires forall i :: 0 <= i < |rest| ==> rest[i] in e[1..]
    requires DistinctKeys(e[1..]) ==> DistinctKeys(rest)
    ensures var r := if e[0].0 == k then rest else [e[0]] + rest;
      && (forall i :: 0 <= i < |r| ==> r[i] in e)
      && (DistinctKeys(e) ==> DistinctKeys(r))
  {
    assert forall x :: x in e[1..] ==> x in e;
    if DistinctKeys(e) {
      HeadKeyNew(e);
      if e[0].0 != k {
        forall i | 0 <= i < |rest|
          ensures rest[i].0 != e[0].0
        {
          assert rest[i] in e[1..];
          var j :| 0 <= j < |e[1..]| && e[1..][j] == rest[i];
          assert Keys(e[1..])[j] == rest[i].0;
        }
        DistinctCons(e[0], rest);
      }
    }
  }

  /** One step of `Remove` when `k` is absent: nothing changes. */
  lemma RemoveStepAbsent(e: Entries, k: Key, rest: Entries)
    requires |e| > 0 && k !in Keys(e)
    requires k !in Keys(e[1..]) ==> rest == e[1..]
    ensures e[0].0 != k && [e[0]] + rest == e
  {
    KeysCons(e[0], e[1..]);
    assert e == [e[0]] + e[1..];
  }

  /** `unset($a[$k])`: removes the key, keeping the order of the others. */
  function Remove(e: Entries, k: Key): (r: Entries)
    ensures k !in Keys(r)
    ensures forall k' :: k' != k ==> Get(r, k') == Get(e, k')
    ensures k !in Keys(e) ==> r == e
    ensures forall i :: 0 <= i < |r| ==> r[i] in e
    ensures DistinctKeys(e) ==> DistinctKeys(r)
    decreases |e|
  {
    if |e| == 0 then []
    else
      var rest := Remove(e[1..], k);
      RemoveStepGet(e, k, rest);
      RemoveStepDistinct(e, k, rest);
      if k !in Keys(e) then RemoveStepAbsent(e, k, rest); e
      else if e[0].0 == k then rest
      else KeysCons(e[0], rest); [e[0]] + rest
  }

  // ---------------------------------------------------------------------------
  // Lists and objects

  /** The loop of the parser's `isList`: walks the keys with a counter and
      stops at the first key that is not the counter. */
  function KeysCount(e: Entries, n: int): (b: bool)
    ensures b <==> forall i :: 0 <= i < |e| ==> e[i].0 == IntKey(n + i)
    decreases |e|
  {
    if |e| == 0 then true
    else if e[0].0 != IntKey(n) then false
    else
      var b := KeysCount(e[1..], n + 1);
      assert b ==> forall i :: 1 <= i < |e| ==> e[i].0 == e[1..][i - 1].0;
      b
  }

  /** `DocumentParser::isList`: a non-empty array keyed exactly 0..n-1 in
      order. The empty array is NOT a list here. */
  predicate IsList(e: Entries) {
    |e| > 0 && KeysCount(e, 0)
  }

  /** PHP's own `array_is_list`, which also accepts the empty array. */
  predicate ArrayIsList(e: Entries) {
    |e| == 0 || KeysCount(e, 0)
  }

  /** A non-list array: what `mergeObjects` merges key by key. */
  predicate IsObject(j: Json) {
    j.Arr? && !IsList(j.entries)
  }

  lemma IsListIff(e: Entries)
    ensures IsList(e) <==> ArrayIsList(e) && e != []
    ensures IsList(e) <==> |e| > 0 && forall i :: 0 <= i < |e| ==> e[i].0 == IntKey(i)
  {
  }
}

=== FILE: objects.dfy ===
/** The Example object (section 4.8.19 of the OpenAPI Specification, with
    the `dataValue` and `serializedValue` fields of 3.2): which value forms
    may appear together. `mixed` values use `Null` for PHP's `null`. */
module Examples {
  import opened Wrappers
  import opened Json
  import opened Extensions

  datatype Example = Example(
    summary: Option<string>,
    description: Option<string>,
    dataValue: Json,
    serializedValue: Option<string>,
    externalValue: Option<string>,
    value: Json,
    extensions: Entries)

  predicate Valid(x: Example) {
    && ExtensionKeys(x.extensions)
    && !(x.dataValue != Null && x.value != Null)
    && (x.serializedValue.Some? ==> x.value == Null && x.externalValue.None?)
    && (x.externalValue.Some? ==> x.serializedValue.None? && x.value == Null)
    && !(x.value != Null && x.externalValue.Some?)
  }

  /** `new Example(...)`: the checks in the constructor's order. */
  function New(x: Example): (r: Result<Example, Invalid>)
    ensures r.Success? <==> Valid(x)
    ensures r.Success? ==> r.value == x
    ensures r.Failure? && r.error.BadExtensionKey? ==> r.error.key in Keys(x.extensions)
  {
    if FirstBadKey(x.extensions).Some? then Failure(BadExtensionKey(FirstBadKey(x.extensions).value))
    else if x.dataValue != Null && x.value != Null then Failure(Violation("dataValue"))
    else if x.serializedValue.Some? && (x.value != Null || x.externalValue.Some?) then Failure(Violation("serializedValue"))
    else if x.externalValue.Some? && (x.serializedValue.Some? || x.value != Null) then Failure(Violation("externalValue"))
    else if x.value != Null && x.externalValue.Some? then Failure(Violation("value"))
    else Success(x)
  }

  predicate HasSerializedValue(x: Example) {
    x.serializedValue.Some? && x.serializedValue.value != ""
  }

  predicate HasExternalValue(x: Example) {
    x.externalValue.Some? && x.externalValue.value != ""
  }

  predicate HasInlineValue(x: Example) {
    x.value != Null
  }

  predicate HasDataValue(x: Example) {
    x.dataValue != Null
  }

  function Count(b: bool): nat {
    if b then 1 else 0
  }

  /** At most one of `value`, `serializedValue` and `externalValue` is set,
      and `dataValue` never comes with `value`. */
  lemma AtMostOneValue(x: Example)
    requires Valid(x)
    ensures Count(x.value != Null) + Count(x.serializedValue.Some?) + Count(x.externalValue.Some?) <= 1
    ensures HasDataValue(x) ==> !HasInlineValue(x)
  {
  }

  /** The `has*` answers of a valid example exclude each other in the same
      way. */
  lemma HasExcludes(x: Example)
    requires Valid(x)
    ensures HasSerializedValue(x) ==> !HasExternalValue(x) && !HasInlineValue(x)
    ensures HasExternalValue(x) ==> !HasSerializedValue(x) && !HasInlineValue(x)
    ensures HasInlineValue(x) ==> !HasSerializedValue(x) && !HasExternalValue(x) && !HasDataValue(x)
  {
  }

  /** An empty `serializedValue` is set yet does not count for
      `hasSerializedValue`; it still excludes `value`. */
  lemma EmptySerializedValue(x: Example)
    requires Valid(x) && x.serializedValue == Some("")
    ensures !HasSerializedValue(x) && !HasInlineValue(x) && x.externalValue.None?
  {
  }
}

/** The Discriminator object (section 4.8.25 of the OpenAPI Specification):
    a property name and a map from its values to schema references. */
module Discriminators {
  import opened Wrappers
  import opened Text
  import opened Json
  import opened Extensions

  datatype Discriminator = Discriminator(
    propertyName: string,
    mapping: Option<Entries>,
    defaultMapping: Option<string>,
    extensions: Entries)

  /** A mapping entry: a non-empty string key to a non-empty string. */
  predicate MappingEntry(k: Key, v: Json) {
    k.StrKey? && k.s != "" && v.Str? && v.s != ""
  }

  predicate Valid(d: Discriminator) {
    && d.propertyName != ""
    && (d.mapping.Some? ==> forall i :: 0 <= i < |d.mapping.value| ==> MappingEntry(d.mapping.value[i].0, d.mapping.value[i].1))
    && d.defaultMapping != Some("")
    && ExtensionKeys(d.extensions)
  }

  /** The constructor's loop over the mapping from position `i` on. */
  function CheckMapping(m: Entries, i: nat): (r: Option<Invalid>)
    requires i <= |m|
    ensures r.None? <==> forall j :: i <= j < |m| ==> MappingEntry(m[j].0, m[j].1)
    decreases |m| - i
  {
    if i == |m| then None
    else if !(m[i].0.StrKey? && m[i].0.s != "") then Some(Violation("mapping key"))
    else if !(m[i].1.Str? && m[i].1.s != "") then Some(Violation("mapping value"))
    else CheckMapping(m, i + 1)
  }

  /** `new Discriminator(...)`: property name, mapping, default mapping,
      then extension keys. */
  function New(d: Discriminator): (r: Result<Discriminator, Invalid>)
    ensures r.Success? <==> Valid(d)
    ensures r.Success? ==> r.value == d
  {
    if d.propertyName == "" then Failure(Violation("propertyName"))
    else if d.mapping.Some? && CheckMapping(d.mapping.value, 0).Some? then Failure(CheckMapping(d.mapping.value, 0).value)
    else if d.defaultMapping == Some("") then Failure(Violation("defaultMapping"))
    else if FirstBadKey(d.extensions).Some? then Failure(BadExtensionKey(FirstBadKey(d.extensions).value))
    else Success(d)
  }

  /** `has($discValue)`. */
  predicate Has(d: Discriminator, v: string) {
    d.mapping.Some? && ToKey(v) in Keys(d.mapping.value)
  }

  /** `target($discValue)`: `mapping[$discValue] ?? defaultMapping`. */
  function Target(d: Discriminator, v: string): (t: Option<string>)
    requires Valid(d)
    ensures Has(d, v) ==> t.Some? && Get(d.mapping.value, ToKey(v)) == Some(Str(t.value))
    ensures !Has(d, v) ==> t == d.defaultMapping
    ensures t.Some? ==> t.value != ""
  {
    if d.mapping.Some? then
      match Find(d.mapping.value, ToKey(v))
      case Some(i) =>
        assert MappingEntry(d.mapping.value[i].0, d.mapping.value[i].1);
        Some(d.mapping.value[i].1.s)
      case None => d.defaultMapping
    else d.defaultMapping
  }

  /** `all()`: the mapping, or the empty array. */
  function All(d: Discriminator): (m: Entries)
    ensures d.mapping.Some? ==> m == d.mapping.value
    ensures d.mapping.None? ==> m == []
  {
    d.mapping.GetOr([])
  }

  /** Every value `has` recognises is a key of `all()`, and the target is
      the value stored there. */
  lemma HasMeansListed(d: Discriminator, v: string)
    requires Valid(d) && Has(d, v)
    ensures ToKey(v) in Keys(All(d))
    ensures Get(All(d), ToKey(v)) == Some(Str(Target(d, v).value))
  {
  }

  /** A value that reads as an integer can never be mapped: PHP stores such
      a key as an integer, and the constructor admits only string keys. So
      it always falls back to the default mapping. */
  lemma NumericValueUsesDefault(d: Discriminator, v: string)
    requires Valid(d) && IsCanonicalInt(v)
    ensures !Has(d, v)
    ensures Target(d, v) == d.defaultMapping
  {
  }
}

/** The XML object (section 4.8.26 of the OpenAPI Specification, with the
    `nodeType` field of 3.2). */
module XmlObjects {
  import opened Wrappers
  import opened Json
  import opened Extensions

  datatype XmlNodeType = Element | Attribute | Text | CData | NoNode

  datatype Xml = Xml(
    nodeType: Option<XmlNodeType>,
    name: Option<string>,
    namespace: Option<string>,
    prefix: Option<string>,
    attribute: Option<bool>,
    wrapped: Option<bool>,
    extensions: Entries)

  predicate Valid(x: Xml) {
    && ExtensionKeys(x.extensions)
    && (x.nodeType.Some? ==> x.attribute.None? && x.wrapped.None?)
    && x.name != Some("")
    && x.namespace != Some("")
    && x.prefix != Some("")
  }

  /** `new Xml(...)`: the checks in the constructor's order. */
  function New(x: Xml): (r: Result<Xml, Invalid>)
    ensures r.Success? <==> Valid(x)
    ensures r.Success? ==> r.value == x
    ensures r.Failure? && r.error.BadExtensionKey? ==> r.error.key in Keys(x.extensions)
  {
    if FirstBadKey(x.extensions).Some? then Failure(BadExtensionKey(FirstBadKey(x.extensions).value))
    else if x.nodeType.Some? && x.attribute.Some? then Failure(Violation("attribute"))
    else if x.nodeType.Some? && x.wrapped.Some? then Failure(Violation("wrapped"))
    else if x.name == Some("") then Failure(Violation("name"))
    else if x.namespace == Some("") then Failure(Violation("namespace"))
    else if x.prefix == Some("") then Failure(Violation("prefix"))
    else Success(x)
  }

  predicate HasName(x: Xml) {
    x.name.Some? && x.name.value != ""
  }

  predicate HasNamespace(x: Xml) {
    x.namespace.Some? && x.namespace.value != ""
  }

  predicate HasPrefix(x: Xml) {
    x.prefix.Some? && x.prefix.value != ""
  }

  /** `isAttributeFlagSet()`: the flag is exactly `true`. */
  predicate IsAttributeFlagSet(x: Xml) {
    x.attribute == Some(true)
  }

  /** `isWrappedFlagSet()`. */
  predicate IsWrappedFlagSet(x: Xml) {
    x.wrapped == Some(true)
  }

  /** On a valid object the `has*` answers are plain presence, because an
      empty string never gets through the constructor. */
  lemma HasIsPresence(x: Xml)
    requires Valid(x)
    ensures HasName(x) <==> x.name.Some?
    ensures HasNamespace(x) <==> x.namespace.Some?
    ensures HasPrefix(x) <==> x.prefix.Some?
  {
  }

  /** With a node type set, neither flag is set. */
  lemma NodeTypeClearsFlags(x: Xml)
    requires Valid(x) && x.nodeType.Some?
    ensures !IsAttributeFlagSet(x) && !IsWrappedFlagSet(x)
  {
  }

  /** An explicit `false` flag is given yet not set. */
  lemma FalseFlagNotSet(x: Xml)
    requires x.attribute == Some(false)
    ensures !IsAttributeFlagSet(x) && x.attribute.Some?
  {
  }
}

/** The Link object (section 4.8.20 of the OpenAPI Specification). */
module Links {
  import opened Wrappers
  import opened Json
  import opened Extensions

  datatype Link = Link(
    operationRef: Option<string>,
    operationId: Option<string>,
    parameters: Option<Entries>,
    requestBody: Json,
    description: Option<string>,
    server: Option<Json>,
    extensions: Entries)

  predicate ParameterKey(k: Key) {
    k.StrKey? && k.s != ""
  }

  predicate Valid(l: Link) {
    && ExtensionKeys(l.extensions)
    && (l.operationRef.Some? != l.operationId.Some?)
    && (l.parameters.Some? ==> forall i :: 0 <= i < |l.parameters.value| ==> ParameterKey(l.parameters.value[i].0))
  }

  /** The constructor's loop over the parameter names from position `i` on. */
  function CheckParameters(p: Entries, i: nat): (r: Option<Invalid>)
    requires i <= |p|
    ensures r.None? <==> forall j :: i <= j < |p| ==> ParameterKey(p[j].0)
    ensures r.Some? ==> r.value == Violation("parameters")
    decreases |p| - i
  {
    if i == |p| then None
    else if !ParameterKey(p[i].0) then Some(Violation("parameters"))
    else CheckParameters(p, i + 1)
  }

  /** `new Link(...)`: extension keys, the operation reference, then the
      parameter names. */
  function New(l: Link): (r: Result<Link, Invalid>)
    ensures r.Success? <==> Valid(l)
    ensures r.Success? ==> r.value == l
    ensures r.Failure? && r.error.BadExtensionKey? ==> r.error.key in Keys(l.extensions)
  {
    if FirstBadKey(l.extensions).Some? then Failure(BadExtensionKey(FirstBadKey(l.extensions).value))
    else if l.operationRef.Some? && l.operationId.Some? then Failure(Violation("operationRef"))
    else if l.operationRef.None? && l.operationId.None? then Failure(Violation("operationId"))
    else if l.parameters.Some? && CheckParameters(l.parameters.value, 0).Some? then Failure(CheckParameters(l.parameters.value, 0).value)
    else Success(l)
  }

  predicate HasParameters(l: Link) {
    l.parameters.Some? && l.parameters.value != []
  }

  predicate HasRequestBody(l: Link) {
    l.requestBody != Null
  }

  /** A valid link names its operation in exactly one way. */
  lemma OneOperationReference(l: Link)
    requires Valid(l)
    ensures l.operationRef.Some? <==> l.operationId.None?
  {
  }

  /** `withExtensions($map)`: the extension merge, then the constructor again
      on the same fields. */
  function WithExtensionsOf(l: Link, m: Entries): (r: Result<Link, Invalid>)
    requires Valid(l)
    ensures r.Success? <==> ExtensionKeys(m)
    ensures r.Success? ==> Valid(r.value) && r.value == l.(extensions := r.value.extensions)
    ensures r.Success? && DistinctKeys(m) ==>
      forall k :: Get(r.value.extensions, k) == if k in Keys(m) then Get(m, k) else Get(l.extensions, k)
  {
    var merged :- WithExtensions(l.extensions, m);
    New(l.(extensions := merged))
  }

  /** `withExtension($name, $value)`. */
  function WithExtensionOf(l: Link, name: string, v: Json): (r: Result<Link, Invalid>)
    requires Valid(l)
    ensures r.Success? <==> ExtensionName(name)
    ensures r.Success? ==> Valid(r.value) && r.value == l.(extensions := r.value.extensions)
    ensures r.Success? ==> Extension(r.value.extensions, name) == v
  {
    var ext :- WithExtension(l.extensions, name, v);
    New(l.(extensions := ext))
  }
}

=== FILE: parameters.dfy ===
/** The Parameter and Header objects of OpenAPI 3.1 (sections 4.8.12 and
    4.8.21 of the OpenAPI Specification): constructor invariants and the
    effective serialization style. Nested objects (schema, example map,
    media-type map) are kept as their decoded arrays; only their presence
    and size matter here. */
module Parameters {
  import opened Wrappers
  import opened Json
  import opened Extensions

  datatype Style = Matrix | Label | Form | Simple | SpaceDelimited | PipeDelimited | DeepObject

  datatype ParameterIn = Query | Header | Path | Cookie

  /** The constructor arguments of `Parameter`; `example` is `mixed`, with
      `Null` for PHP's `null`. */
  datatype Parameter = Parameter(
    name: string,
    location: ParameterIn,
    description: Option<string>,
    required: bool,
    deprecated: bool,
    allowEmptyValue: Option<bool>,
    style: Option<Style>,
    explode: Option<bool>,
    allowReserved: Option<bool>,
    schema: Option<Json>,
    example: Json,
    examples: Option<Entries>,
    content: Option<Entries>,
    extensions: Entries)

  /** Section 4.8.12.1: a path parameter is always required. */
  predicate PathIsRequired(p: Parameter) {
    p.location == Path ==> p.required
  }

  /** `example` and `examples` exclude each other. */
  predicate OneExampleForm(example: Json, examples: Option<Entries>) {
    !(example != Null && examples.Some?)
  }

  /** The schema block (schema, example, examples) excludes `content`. */
  predicate SchemaOrContent(schema: Option<Json>, example: Json, examples: Option<Entries>, content: Option<Entries>) {
    !((schema.Some? || example != Null || examples.Some?) && content.Some?)
  }

  /** `allowEmptyValue` and `allowReserved` belong to query parameters only. */
  predicate QueryOnlyFlags(p: Parameter) {
    p.location != Query ==> p.allowEmptyValue.None? && p.allowReserved.None?
  }

  predicate Valid(p: Parameter) {
    && p.name != ""
    && ExtensionKeys(p.extensions)
    && PathIsRequired(p)
    && OneExampleForm(p.example, p.examples)
    && SchemaOrContent(p.schema, p.example, p.examples, p.content)
    && QueryOnlyFlags(p)
  }

  /** `new Parameter(...)`: the checks in the constructor's order, the first
      failing one deciding the error. */
  function New(p: Parameter): (r: Result<Parameter, Invalid>)
    ensures r.Success? <==> Valid(p)
    ensures r.Success? ==> r.value == p
    ensures r.Failure? && r.error.BadExtensionKey? ==> p.name != "" && r.error.key in Keys(p.extensions)
    ensures r.Failure? && p.name == "" ==> r.error == Violation("name")
  {
    if p.name == "" then Failure(Violation("name"))
    else if FirstBadKey(p.extensions).Some? then Failure(BadExtensionKey(FirstBadKey(p.extensions).value))
    else if p.location == Path && !p.required then Failure(Violation("required"))
    else if p.example != Null && p.examples.Some? then Failure(Violation("example"))
    else if (p.schema.Some? || p.example != Null || p.examples.Some?) && p.content.Some? then Failure(Violation("content"))
    else if p.location != Query && p.allowEmptyValue.Some? then Failure(Violation("allowEmptyValue"))
    else if p.location != Query && p.allowReserved.Some? then Failure(Violation("allowReserved"))
    else Success(p)
  }

  /** `effectiveStyle()`: the explicit style, else `form` for query and
      cookie parameters and `simple` for path and header ones. */
  function EffectiveStyle(p: Parameter): (s: Style)
    ensures p.style.Some? ==> s == p.style.value
    ensures p.style.None? ==> (s == Form <==> p.location in {Query, Cookie})
    ensures p.style.None? ==> (s == Simple <==> p.location in {Path, Header})
  {
    match p.style
    case Some(s) => s
    case None =>
      match p.location
      case Query => Form
      case Cookie => Form
      case Path => Simple
      case Header => Simple
  }

  /** `effectiveExplode()`: the explicit value, else whether the effective
      style is `form`. */
  function EffectiveExplode(p: Parameter): (b: bool)
    ensures p.explode.Some? ==> b == p.explode.value
    ensures p.explode.None? ==> (b <==> EffectiveStyle(p) == Form)
  {
    match p.explode
    case Some(b) => b
    case None => EffectiveStyle(p) == Form
  }

  /** With neither style nor explode given, a parameter explodes exactly
      when it is a query or cookie parameter. */
  lemma DefaultExplode(p: Parameter)
    requires p.style.None? && p.explode.None?
    ensures EffectiveExplode(p) <==> p.location == Query || p.location == Cookie
  {
  }

  /** A valid path parameter is required and carries no query-only flags. */
  lemma ValidPathParameter(p: Parameter)
    requires Valid(p) && p.location == Path
    ensures p.required && p.allowEmptyValue.None? && p.allowReserved.None?
  {
  }

  /** `withExtensions($map)`: the extension merge, then the constructor again
      on the same fields. */
  function WithExtensionsOf(p: Parameter, m: Entries): (r: Result<Parameter, Invalid>)
    requires Valid(p)
    ensures r.Success? <==> ExtensionKeys(m)
    ensures r.Success? ==> Valid(r.value) && r.value == p.(extensions := r.value.extensions)
    ensures r.Success? && DistinctKeys(m) ==>
      forall k :: Get(r.value.extensions, k) == if k in Keys(m) then Get(m, k) else Get(p.extensions, k)
  {
    var merged :- WithExtensions(p.extensions, m);
    New(p.(extensions := merged))
  }

  /** `withExtension($name, $value)`: one assignment, then the constructor
      again on the same fields. */
  function WithExtensionOf(p: Parameter, name: string, v: Json): (r: Result<Parameter, Invalid>)
    requires Valid(p)
    ensures r.Success? <==> ExtensionName(name)
    ensures r.Success? ==> Valid(r.value) && r.value == p.(extensions := r.value.extensions)
    ensures r.Success? ==> Extension(r.value.extensions, name) == v
  {
    var ext :- WithExtension(p.extensions, name, v);
    New(p.(extensions := ext))
  }
}

/** The Header object (section 4.8.21 of the OpenAPI Specification): a
    parameter without name or location whose style is always `simple`. */
module Headers {
  import opened Wrappers
  import opened Json
  import opened Extensions
  import Parameters

  /** The constructor arguments of `Header`. */
  datatype Header = Header(
    description: Option<string>,
    required: bool,
    deprecated: bool,
    style: Option<Parameters.Style>,
    explode: Option<bool>,
    schema: Option<Json>,
    example: Json,
    examples: Option<Entries>,
    content: Option<Entries>,
    extensions: Entries)

  predicate Valid(h: Header) {
    && ExtensionKeys(h.extensions)
    && Parameters.OneExampleForm(h.example, h.examples)
    && Parameters.SchemaOrContent(h.schema, h.example, h.examples, h.content)
    && (h.content.Some? ==> |h.content.value| == 1)
    && (h.style.Some? ==> h.style.value == Parameters.Simple)
  }

  /** `new Header(...)`: the checks in the constructor's order. */
  function New(h: Header): (r: Result<Header, Invalid>)
    ensures r.Success? <==> Valid(h)
    ensures r.Success? ==> r.value == h
    ensures r.Failure? && r.error.BadExtensionKey? ==> r.error.key in Keys(h.extensions)
  {
    if FirstBadKey(h.extensions).Some? then Failure(BadExtensionKey(FirstBadKey(h.extensions).value))
    else if h.example != Null && h.examples.Some? then Failure(Violation("example"))
    else if (h.schema.Some? || h.example != Null || h.examples.Some?) && h.content.Some? then Failure(Violation("content"))
    else if h.content.Some? && |h.content.value| != 1 then Failure(Violation("content"))
    else if h.style.Some? && h.style.value != Parameters.Simple then Failure(Violation("style"))
    else Success(h)
  }

  /** `effectiveStyle()` of a header: always `simple`. */
  function EffectiveStyle(h: Header): (s: Parameters.Style)
    ensures s == Parameters.Simple
  {
    Parameters.Simple
  }

  /** `effectiveExplode()` of a header: `explode ?? false`. */
  function EffectiveExplode(h: Header): (b: bool)
    ensures b <==> h.explode == Some(true)
  {
    h.explode.GetOr(false)
  }

  /** `hasExamples()`: a non-empty example map or a non-null example. */
  predicate HasExamples(h: Header) {
    (h.examples.Some? && |h.examples.value| > 0) || h.example != Null
  }

  /** A valid header's explicit style, if any, is its effective style. */
  lemma StyleAgrees(h: Header)
    requires Valid(h)
    ensures h.style.Some? ==> h.style.value == EffectiveStyle(h)
  {
  }

  /** A valid header described by `content` has one media type and neither
      schema nor examples. */
  lemma ContentExcludes(h: Header)
    requires Valid(h) && h.content.Some?
    ensures |h.content.value| == 1 && h.schema.None? && !HasExamples(h)
  {
  }
}

=== FILE: parser.dfy ===
/** `DocumentParser`: walks the decoded document depth-first, replaces every
    `$ref` object by the walked target merged with its siblings, guards
    against deep nesting and reference cycles, and returns the normalized
    tree. */
module DocumentParser {
  import opened Wrappers
  import opened Text
  import opened Json
  import opened UriHelper
  import opened PathContexts
  import opened Refs
  import opened RefResolver

  /** The options the walk reads. The strictness mode is not read by the
      walk, and `maxRefDepth` is carried but never consulted. */
  datatype ParseOptions = ParseOptions(resolveExternalRefs: bool, maxRefDepth: int)

  const DefaultOptions := ParseOptions(true, 64)
  const DefaultMaxWalkDepth := 8192

  /** The ways the walk stops. `GuessKindTypeError` is the `TypeError` PHP
      raises under `strict_types` when the object loop hands an integer key
      to `guessKind(string $key, ...)`; it carries that key. */
  datatype ParseError =
    | TraversalDepthExceeded(pointer: string)
    | RefFailed(error: RefError)
    | GuessKindTypeError(key: int)

  datatype Parser = Parser(resolver: Resolver, maxWalkDepth: int)

  /** What the walk threads through: the reference chain being expanded (the
      keys of `$seen`, in insertion order) and the resolver's cache. */
  datatype State = State(seen: seq<string>, cache: Cache)

  const RefKey := StrKey("$ref")

  // ---------------------------------------------------------------------------
  // Helpers

  /** `array_key_exists('$ref', $node) && is_string($node['$ref'])`. */
  predicate IsRefNode(e: Entries) {
    Get(e, RefKey).Some? && Get(e, RefKey).value.Str?
  }

  /** `unset($seen[$key])` on the keys of `$seen`. */
  function Unmark(seen: seq<string>, key: string): (r: seq<string>)
    ensures key !in r
    ensures forall x :: x in r <==> x in seen && x != key
    ensures key !in seen ==> r == seen
    decreases |seen|
  {
    if |seen| == 0 then []
    else if seen[0] == key then Unmark(seen[1..], key)
    else [seen[0]] + Unmark(seen[1..], key)
  }

  lemma UnmarkLast(seen: seq<string>, key: string)
    requires key !in seen
    ensures Unmark(seen + [key], key) == seen
    decreases |seen|
  {
    if |seen| > 0 {
      assert (seen + [key])[1..] == seen[1..] + [key];
      UnmarkLast(seen[1..], key);
    } else {
      assert ([] + [key])[1..] == [];
    }
  }

  /** The chain key of a reference: its target document and pointer. */
  function ChainKey(p: Parser, baseUri: string, ref: string): (k: string)
    ensures k == MakeCacheKey(baseUri, ref, p.resolver.isDir)
  {
    var (target, pointer) := SplitRef(baseUri, ref, p.resolver.isDir);
    target + "#" + pointer
  }

  /** With external references disabled, only a reference into the current
      document (same target, or starting with `#`) is followed. */
  predicate Followed(p: Parser, opts: ParseOptions, baseUri: string, ref: string) {
    opts.resolveExternalRefs ||
    SplitRef(baseUri, ref, p.resolver.isDir).0 == baseUri || StartsWith(ref, "#")
  }

  /** What is left of the walk's depth budget; it shrinks on every descent. */
  function Fuel(p: Parser, depth: nat): nat {
    if depth <= p.maxWalkDepth then p.maxWalkDepth + 1 - depth else 0
  }

  // ---------------------------------------------------------------------------
  // mergeObjects

  /** `mergeObjects`: every key of `right` in order overrides `left`; two
      non-list arrays under the same key are merged deeply; lists, scalars
      and mixed pairs are replaced. */
  function MergeObjects(left: Entries, right: Entries): Entries
    decreases Arr(right), 1, 0
  {
    MergeFrom(left, right, 0)
  }

  function MergeFrom(left: Entries, right: Entries, i: nat): Entries
    requires i <= |right|
    decreases Arr(right), 0, |right| - i
  {
    if i == |right| then left
    else MergeFrom(Set(left, right[i].0, Merged(Get(left, right[i].0), right[i].1)), right, i + 1)
  }

  /** The value a key takes when `right` brings `v` and `left` held `held`. */
  function Merged(held: Option<Json>, v: Json): Json
    decreases v, 2, 0
  {
    if held.Some? && held.value.Arr? && v.Arr? && !IsList(held.value.entries) && !IsList(v.entries)
    then Arr(MergeObjects(held.value.entries, v.entries))
    else v
  }

  lemma {:induction false} MergeFromGet(left: Entries, right: Entries, i: nat, k: Key)
    requires i <= |right| && DistinctKeys(right)
    ensures k !in Keys(right[i..]) ==> Get(MergeFrom(left, right, i), k) == Get(left, k)
    ensures k in Keys(right[i..]) ==>
      Get(MergeFrom(left, right, i), k) == Some(Merged(Get(left, k), Get(right, k).value))
    decreases |right| - i
  {
    if i < |right| {
      var k0 := right[i].0;
      var next := Set(left, k0, Merged(Get(left, k0), right[i].1));
      MergeFromGet(next, right, i + 1, k);
      SetGet(left, k0, Merged(Get(left, k0), right[i].1), k);
      KeysFrom(right, i);
      if k == k0 {
        LaterKeysDiffer(right, i);
      }
    }
  }

  /** The keys from position `i` on: the key at `i`, then the rest. */
  lemma KeysFrom(e: Entries, i: nat)
    requires i < |e|
    ensures Keys(e[i..]) == [e[i].0] + Keys(e[i + 1..])
  {
    assert e[i..][1..] == e[i + 1..];
    KeysTail(e[i..]);
  }

  /** In an array with distinct keys, the key at `i` does not come back
      later, and reading it gives the entry at `i`. */
  lemma LaterKeysDiffer(e: Entries, i: nat)
    requires i < |e| && DistinctKeys(e)
    ensures e[i].0 !in Keys(e[i + 1..])
    ensures Get(e, e[i].0) == Some(e[i].1)
  {
  }

  /** The key-by-key meaning of `mergeObjects`: keys only in `left` keep
      their value, a key of `right` takes the merged value. */
  lemma MergeGet(left: Entries, right: Entries, k: Key)
    requires DistinctKeys(right)
    ensures k !in Keys(right) ==> Get(MergeObjects(left, right), k) == Get(left, k)
    ensures k in Keys(right) ==> Get(MergeObjects(left, right), k) == Some(Merged(Get(left, k), Get(right, k).value))
  {
    MergeFromGet(left, right, 0, k);
    assert right[0..] == right;
  }

  /** No siblings, nothing changes. */
  lemma MergeNothing(left: Entries)
    ensures MergeObjects(left, []) == left
  {
  }

  lemma {:induction false} MergeFromKeys(left: Entries, right: Entries, i: nat)
    requires i <= |right|
    ensures forall k :: k in Keys(MergeFrom(left, right, i)) <==> k in Keys(left) || k in Keys(right[i..])
    decreases |right| - i
  {
    if i < |right| {
      var k0 := right[i].0;
      var v0 := Merged(Get(left, k0), right[i].1);
      var next := Set(left, k0, v0);
      MergeFromKeys(next, right, i + 1);
      assert Keys(right[i..]) == [k0] + Keys(right[i + 1..]);
      forall k
        ensures k in Keys(next) <==> k in Keys(left) || k == k0
      {
        SetGet(left, k0, v0, k);
      }
    }
  }

  /** The merged object holds exactly the keys of both sides. */
  lemma MergeKeys(left: Entries, right: Entries)
    ensures forall k :: k in Keys(MergeObjects(left, right)) <==> k in Keys(left) || k in Keys(right)
  {
    MergeFromKeys(left, right, 0);
    assert right[0..] == right;
  }

  // ---------------------------------------------------------------------------
  // walkNode

  /** `walkNode`, returning the walked node and the state afterwards. The
      current document is `rootDoc`; `depth` counts descents (into children
      and into reference targets). */
  function WalkNode(p: Parser, opts: ParseOptions, node: Json, ctx: PathContext, depth: nat,
                    st: State, rootDoc: Entries): (r: Result<(Json, State), ParseError>)
    ensures depth > p.maxWalkDepth ==> r == Failure(TraversalDepthExceeded(ctx.Pointer()))
    ensures depth <= p.maxWalkDepth && !node.Arr? ==> r == Success((node, st))
    // a successful walk hands back the chain and the cache exactly as it found them
    ensures r.Success? ==> r.value.1 == st
    // an object (a non-list array that is not a reference) whose first key is
    // an integer stops on `guessKind` before any child is walked
    ensures (depth <= p.maxWalkDepth && node.Arr? && !IsRefNode(node.entries) && !IsList(node.entries) &&
             |node.entries| > 0 && node.entries[0].0.IntKey?) ==>
      r == Failure(GuessKindTypeError(node.entries[0].0.i))
    // an object walks through only when all its keys are strings
    ensures r.Success? && node.Arr? && !IsRefNode(node.entries) && !IsList(node.entries) ==>
      StringKeys(node.entries)
    decreases Fuel(p, depth), 1, 0
  {
    if depth > p.maxWalkDepth then Failure(TraversalDepthExceeded(ctx.Pointer()))
    else if !node.Arr? then Success((node, st))
    else if IsRefNode(node.entries) then WalkRef(p, opts, node.entries, ctx, depth, st, rootDoc)
    else
      match WalkEntries(p, opts, node.entries, IsList(node.entries), ctx, depth, st, rootDoc)
      case Failure(e) => Failure(e)
      case Success((out, st')) => Success((Arr(out), st'))
  }

  /** A resolution whose own key is already on the stack can only succeed
      from the cache, which it then leaves as it was. */
  lemma StackedSuccessIsCached(rv: Resolver, cache: Cache, ref: string, baseUri: string,
                               rootDoc: Option<Entries>, seen: seq<string>, key: string)
    requires key == MakeCacheKey(baseUri, ref, rv.isDir)
    ensures var out := Resolve(rv, cache, ref, baseUri, rootDoc, seen + [key]);
      out.0.Success? ==> out.1 == cache
  {
    assert key in seen + [key];
  }

  /** The reference branch of `walkNode`. A reference that is not followed
      comes back verbatim; a target already on the chain is a cycle; else
      the target is resolved, walked one level deeper in its own document
      and base, and merged with the siblings of `$ref`. */
  function WalkRef(p: Parser, opts: ParseOptions, node: Entries, ctx: PathContext, depth: nat,
                   st: State, rootDoc: Entries): (r: Result<(Json, State), ParseError>)
    requires depth <= p.maxWalkDepth && IsRefNode(node)
    ensures !Followed(p, opts, ctx.baseUri, Get(node, RefKey).value.s) ==> r == Success((Arr(node), st))
    ensures var ref := Get(node, RefKey).value.s;
      Followed(p, opts, ctx.baseUri, ref) && ChainKey(p, ctx.baseUri, ref) in st.seen ==>
        r == Failure(RefFailed(CircularReference(st.seen, ChainKey(p, ctx.baseUri, ref))))
    ensures r.Success? ==> r.value.1 == st
    decreases Fuel(p, depth), 0, 1
  {
    var ref := Get(node, RefKey).value.s;
    if !Followed(p, opts, ctx.baseUri, ref) then Success((Arr(node), st))
    else
      var chainKey := ChainKey(p, ctx.baseUri, ref);
      if chainKey in st.seen then Failure(RefFailed(CircularReference(st.seen, chainKey)))
      else FollowRef(p, opts, node, ref, chainKey, ctx, depth, st, rootDoc)
  }

  /** Following a reference not yet on the chain: mark it, resolve it with
      the chain as the resolver's stack, walk the target one level deeper
      in its own document and base, unmark it, and merge the siblings of
      `$ref` over the walked target. */
  function FollowRef(p: Parser, opts: ParseOptions, node: Entries, ref: string, chainKey: string,
                     ctx: PathContext, depth: nat, st: State, rootDoc: Entries): (r: Result<(Json, State), ParseError>)
    requires depth <= p.maxWalkDepth
    requires chainKey == ChainKey(p, ctx.baseUri, ref) && chainKey !in st.seen
    ensures r.Success? ==> r.value.1 == st
    decreases Fuel(p, depth), 0, 0
  {
    var marked := st.seen + [chainKey];
    var (res, cache') := Resolve(p.resolver, st.cache, ref, ctx.baseUri, Some(rootDoc), marked);
    match res
    case Failure(e) => Failure(RefFailed(e))
    case Success(resolution) =>
      StackedSuccessIsCached(p.resolver, st.cache, ref, ctx.baseUri, Some(rootDoc), st.seen, chainKey);
      var nextBase := resolution.baseUri.GetOr(ctx.baseUri);
      match WalkNode(p, opts, Arr(resolution.data), ctx.WithBaseUri(nextBase), depth + 1,
                     State(marked, cache'), resolution.data)
      case Failure(e) => Failure(e)
      case Success((resolved, st')) =>
        UnmarkLast(st.seen, chainKey);
        var siblings := Remove(node, RefKey);
        var after := State(Unmark(st'.seen, chainKey), st'.cache);
        if resolved.Arr? then Success((Arr(MergeObjects(resolved.entries, siblings)), after))
        else Success((resolved, after))
  }

  /** Every key of the array is a string. */
  predicate StringKeys(entries: Entries) {
    forall i :: 0 <= i < |entries| ==> entries[i].0.StrKey?
  }

  /** The two loops of `walkNode`, chosen by `list`: each child is walked one
      level deeper under its key pushed onto the path, in order. A list's
      children are appended at positions 0, 1, ... and an object's under
      their own keys; since a list's keys ARE 0, 1, ... and a PHP array's
      keys are distinct, both amount to keeping every key. The object loop
      also evaluates `guessKind($k, $kind)` as an argument of the child's
      walk; its parameter is declared `string`, so under `strict_types` an
      integer key raises a `TypeError` before that child is walked. */
  function WalkEntries(p: Parser, opts: ParseOptions, entries: Entries, list: bool, ctx: PathContext, depth: nat,
                       st: State, rootDoc: Entries): (r: Result<(Entries, State), ParseError>)
    requires depth <= p.maxWalkDepth
    ensures r.Success? ==> Keys(r.value.0) == Keys(entries)
    ensures r.Success? ==> r.value.1 == st
    ensures !list && |entries| > 0 && entries[0].0.IntKey? ==> r == Failure(GuessKindTypeError(entries[0].0.i))
    ensures r.Success? && !list ==> StringKeys(entries)
    decreases Fuel(p, depth), 0, |entries|
  {
    if |entries| == 0 then Success(([], st))
    else
      var (k, v) := entries[0];
      if !list && k.IntKey? then Failure(GuessKindTypeError(k.i))
      else
      match WalkNode(p, opts, v, ctx.Push(Name(KeyText(k))), depth + 1, st, rootDoc)
      case Failure(e) => Failure(e)
      case Success((v', st')) =>
        match WalkEntries(p, opts, entries[1..], list, ctx, depth, st', rootDoc)
        case Failure(e) => Failure(e)
        case Success((rest, st'')) =>
          KeysTail(entries);
          KeysCons((k, v'), rest);
          StringKeysCons(entries);
          Success(([(k, v')] + rest, st''))
  }

  lemma StringKeysCons(entries: Entries)
    requires |entries| > 0
    ensures StringKeys(entries) <==> entries[0].0.StrKey? && StringKeys(entries[1..])
  {
    if entries[0].0.StrKey? && StringKeys(entries[1..]) {
      forall i | 0 <= i < |entries|
        ensures entries[i].0.StrKey?
      {
        if i > 0 {
          assert entries[i] == entries[1..][i - 1];
        }
      }
    }
  }

  /** `parse`: the walk from the root context at depth 0 with nothing seen
      (so a negative `maxWalkDepth` fails at once);
      the node factory hands the array back as it is, so a parsed document
      is always an array. A document that is an object with an integer
      first key (a top-level map such as `{"200": ...}`, whose key PHP
      stores as the integer 200) fails on `guessKind`. */
  function Parse(p: Parser, opts: ParseOptions, rawDoc: Entries, baseUri: string, cache: Cache): (r: Result<Json, ParseError>)
    ensures r.Success? ==> r.value.Arr?
    // a negative depth limit rejects even the root
    ensures p.maxWalkDepth < 0 ==> r == Failure(TraversalDepthExceeded(""))
    ensures p.maxWalkDepth >= 0 && !IsRefNode(rawDoc) && !IsList(rawDoc) && |rawDoc| > 0 && rawDoc[0].0.IntKey? ==>
      r == Failure(GuessKindTypeError(rawDoc[0].0.i))
    ensures r.Success? && !IsRefNode(rawDoc) && !IsList(rawDoc) ==> StringKeys(rawDoc)
  {
    match WalkNode(p, opts, Arr(rawDoc), Root(baseUri), 0, State([], cache), rawDoc)
    case Failure(e) => Failure(e)
    case Success((data, _)) =>
      WalkKeepsArrays(p, opts, rawDoc, Root(baseUri), 0, State([], cache), rawDoc);
      Success(data)
  }

  // ---------------------------------------------------------------------------
  // Properties of the walk

  /** Walking an array gives an array: a `$ref` object comes back merged
      with its siblings or verbatim, and other arrays are rebuilt. */
  lemma {:induction false} WalkKeepsArrays(p: Parser, opts: ParseOptions, node: Entries, ctx: PathContext,
                                           depth: nat, st: State, rootDoc: Entries)
    requires WalkNode(p, opts, Arr(node), ctx, depth, st, rootDoc).Success?
    ensures WalkNode(p, opts, Arr(node), ctx, depth, st, rootDoc).value.0.Arr?
    decreases Fuel(p, depth), 1, 0
  {
    if depth <= p.maxWalkDepth && IsRefNode(node) {
      var ref := Get(node, RefKey).value.s;
      if Followed(p, opts, ctx.baseUri, ref) {
        var chainKey := ChainKey(p, ctx.baseUri, ref);
        if chainKey !in st.seen {
          assert WalkNode(p, opts, Arr(node), ctx, depth, st, rootDoc) ==
            FollowRef(p, opts, node, ref, chainKey, ctx, depth, st, rootDoc);
          FollowRefKeepsArrays(p, opts, node, ref, chainKey, ctx, depth, st, rootDoc);
        }
      }
    }
  }

  lemma {:induction false} FollowRefKeepsArrays(p: Parser, opts: ParseOptions, node: Entries, ref: string,
                                                chainKey: string, ctx: PathContext, depth: nat, st: State,
                                                rootDoc: Entries)
    requires depth <= p.maxWalkDepth
    requires chainKey == ChainKey(p, ctx.baseUri, ref) && chainKey !in st.seen
    requires FollowRef(p, opts, node, ref, chainKey, ctx, depth, st, rootDoc).Success?
    ensures FollowRef(p, opts, node, ref, chainKey, ctx, depth, st, rootDoc).value.0.Arr?
    decreases Fuel(p, depth), 0, 0
  {
    var marked := st.seen + [chainKey];
    var out := Resolve(p.resolver, st.cache, ref, ctx.baseUri, Some(rootDoc), marked);
    var resolution := out.0.value;
    var nextBase := resolution.baseUri.GetOr(ctx.baseUri);
    WalkKeepsArrays(p, opts, resolution.data, ctx.WithBaseUri(nextBase), depth + 1,
                    State(marked, out.1), resolution.data);
  }

  /** Every followed `$ref` whose target is not already in the cache fails as
      a circular reference: the walk records the chain key in `$seen` BEFORE
      passing `array_keys($seen)` to the resolver as its stack, and the
      resolver then finds that same key on the stack (or the stack already
      at its depth limit). */
  lemma EveryUncachedRefFails(p: Parser, opts: ParseOptions, node: Entries, ctx: PathContext,
                              depth: nat, st: State, rootDoc: Entries)
    requires depth <= p.maxWalkDepth && IsRefNode(node)
    requires Followed(p, opts, ctx.baseUri, Get(node, RefKey).value.s)
    requires MakeCacheKey(ctx.baseUri, Get(node, RefKey).value.s, p.resolver.isDir) !in st.cache
    ensures var r := WalkNode(p, opts, Arr(node), ctx, depth, st, rootDoc);
      r.Failure? && r.error.RefFailed? && r.error.error.CircularReference?
  {
    var ref := Get(node, RefKey).value.s;
    var chainKey := ChainKey(p, ctx.baseUri, ref);
    if chainKey !in st.seen {
      var marked := st.seen + [chainKey];
      assert chainKey in marked;
      StackedKeyIsCircular(p.resolver, st.cache, ref, ctx.baseUri, Some(rootDoc), marked);
      assert WalkNode(p, opts, Arr(node), ctx, depth, st, rootDoc) ==
        FollowRef(p, opts, node, ref, chainKey, ctx, depth, st, rootDoc);
    }
  }

  /** No `$ref` object anywhere in the tree. */
  predicate RefFree(j: Json)
    decreases j
  {
    j.Arr? ==> !IsRefNode(j.entries) && forall i :: 0 <= i < |j.entries| ==> RefFree(j.entries[i].1)
  }

  /** The tree nests at most `budget` arrays below this level. */
  predicate Fits(j: Json, budget: int)
    decreases j
  {
    budget >= 0 && (j.Arr? ==> forall i :: 0 <= i < |j.entries| ==> Fits(j.entries[i].1, budget - 1))
  }

  /** `guessKind` never meets an integer key: every array of the tree that
      is not a list has string keys only. */
  predicate KindSafe(j: Json)
    decreases j
  {
    j.Arr? ==>
      (IsList(j.entries) || StringKeys(j.entries)) && forall i :: 0 <= i < |j.entries| ==> KindSafe(j.entries[i].1)
  }

  /** The children of an array walked by the loop `list` picks are safe for
      `guessKind`: the object loop sees only string keys, and every child
      is itself safe. */
  predicate Tame(entries: Entries, list: bool) {
    (list || StringKeys(entries)) && forall i :: 0 <= i < |entries| ==> KindSafe(entries[i].1)
  }

  /** What walking a reference-free tree comes to: itself when it fits in
      `budget` and is safe for `guessKind`, else a failure, which is the
      traversal-depth error only for a tree too deep and the `guessKind`
      type error only for a tree holding an integer-keyed object. */
  predicate NodeOutcome(r: Result<(Json, State), ParseError>, node: Json, st: State, budget: int) {
    && (Fits(node, budget) && KindSafe(node) ==> r == Success((node, st)))
    && (!(Fits(node, budget) && KindSafe(node)) ==> r.Failure?)
    && (r.Failure? ==>
          (r.error.TraversalDepthExceeded? && !Fits(node, budget)) ||
          (r.error.GuessKindTypeError? && !KindSafe(node)))
  }

  /** A tree without references walks to itself exactly when it fits in the
      depth budget and holds no object with an integer key; otherwise the
      walk stops with a traversal-depth error (the tree is too deep) or the
      `guessKind` type error (it holds an integer-keyed object). */
  lemma {:induction false} RefFreeWalk(p: Parser, opts: ParseOptions, node: Json, ctx: PathContext,
                                       depth: nat, st: State, rootDoc: Entries)
    requires RefFree(node)
    ensures NodeOutcome(WalkNode(p, opts, node, ctx, depth, st, rootDoc), node, st, p.maxWalkDepth - depth)
    decreases Fuel(p, depth), 2
  {
    if depth <= p.maxWalkDepth && node.Arr? {
      RefFreeArr(p, opts, node.entries, ctx, depth, st, rootDoc);
    }
  }

  /** The array case of `RefFreeWalk`. */
  lemma {:induction false} RefFreeArr(p: Parser, opts: ParseOptions, entries: Entries, ctx: PathContext,
                                      depth: nat, st: State, rootDoc: Entries)
    requires depth <= p.maxWalkDepth && RefFree(Arr(entries))
    ensures NodeOutcome(WalkNode(p, opts, Arr(entries), ctx, depth, st, rootDoc), Arr(entries), st, p.maxWalkDepth - depth)
    decreases Fuel(p, depth), 1
  {
    RefFreeEntries(p, opts, entries, IsList(entries), ctx, depth, st, rootDoc);
    WalkPlainArray(p, opts, entries, ctx, depth, st, rootDoc);
    FitsArr(entries, p.maxWalkDepth - depth);
    SafeArr(entries);
  }

  /** An array that is not a `$ref` object is walked entry by entry. */
  lemma WalkPlainArray(p: Parser, opts: ParseOptions, entries: Entries, ctx: PathContext,
                       depth: nat, st: State, rootDoc: Entries)
    requires depth <= p.maxWalkDepth && !IsRefNode(entries)
    ensures var w := WalkEntries(p, opts, entries, IsList(entries), ctx, depth, st, rootDoc);
      WalkNode(p, opts, Arr(entries), ctx, depth, st, rootDoc) ==
        if w.Success? then Success((Arr(w.value.0), w.value.1)) else Failure(w.error)
  {
  }

  lemma FitsArr(entries: Entries, budget: int)
    ensures Fits(Arr(entries), budget) <==> budget >= 0 && AllFit(entries, budget - 1)
  {
  }

  lemma SafeArr(entries: Entries)
    ensures KindSafe(Arr(entries)) <==> Tame(entries, IsList(entries))
  {
  }

  /** Every child of the array fits in `budget`. */
  predicate AllFit(entries: Entries, budget: int) {
    forall i :: 0 <= i < |entries| ==> Fits(entries[i].1, budget)
  }

  lemma AllFitCons(entries: Entries, budget: int)
    requires |entries| > 0
    ensures AllFit(entries, budget) <==> Fits(entries[0].1, budget) && AllFit(entries[1..], budget)
  {
    if Fits(entries[0].1, budget) && AllFit(entries[1..], budget) {
      forall i | 0 <= i < |entries|
        ensures Fits(entries[i].1, budget)
      {
        if i > 0 {
          assert entries[i] == entries[1..][i - 1];
        }
      }
    }
  }

  lemma TameCons(entries: Entries, list: bool)
    requires |entries| > 0
    ensures Tame(entries, list) <==>
      (list || entries[0].0.StrKey?) && KindSafe(entries[0].1) && Tame(entries[1..], list)
  {
    StringKeysCons(entries);
    if KindSafe(entries[0].1) && Tame(entries[1..], list) {
      forall i | 0 <= i < |entries|
        ensures KindSafe(entries[i].1)
      {
        if i > 0 {
          assert entries[i] == entries[1..][i - 1];
        }
      }
    }
  }

  /** The loop stops at a child whose walk fails. */
  lemma EntriesHeadFails(p: Parser, opts: ParseOptions, entries: Entries, list: bool, ctx: PathContext,
                         depth: nat, st: State, rootDoc: Entries)
    requires depth <= p.maxWalkDepth && |entries| > 0 && (list || entries[0].0.StrKey?)
    requires WalkNode(p, opts, entries[0].1, ctx.Push(Name(KeyText(entries[0].0))), depth + 1, st, rootDoc).Failure?
    ensures WalkEntries(p, opts, entries, list, ctx, depth, st, rootDoc) ==
      Failure(WalkNode(p, opts, entries[0].1, ctx.Push(Name(KeyText(entries[0].0))), depth + 1, st, rootDoc).error)
  {
  }

  /** A child that walks to itself leaves the rest of the loop to the tail. */
  lemma EntriesHeadSame(p: Parser, opts: ParseOptions, entries: Entries, list: bool, ctx: PathContext,
                        depth: nat, st: State, rootDoc: Entries)
    requires depth <= p.maxWalkDepth && |entries| > 0 && (list || entries[0].0.StrKey?)
    requires WalkNode(p, opts, entries[0].1, ctx.Push(Name(KeyText(entries[0].0))), depth + 1, st, rootDoc) ==
      Success((entries[0].1, st))
    ensures var tail := WalkEntries(p, opts, entries[1..], list, ctx, depth, st, rootDoc);
      WalkEntries(p, opts, entries, list, ctx, depth, st, rootDoc) ==
        if tail.Success? then Success(([entries[0]] + tail.value.0, tail.value.1)) else tail
  {
  }

  /** A child and a tail that both walk to themselves: so does the whole. */
  lemma EntriesSame(p: Parser, opts: ParseOptions, entries: Entries, list: bool, ctx: PathContext,
                    depth: nat, st: State, rootDoc: Entries)
    requires depth <= p.maxWalkDepth && |entries| > 0 && (list || entries[0].0.StrKey?)
    requires WalkNode(p, opts, entries[0].1, ctx.Push(Name(KeyText(entries[0].0))), depth + 1, st, rootDoc) ==
      Success((entries[0].1, st))
    requires WalkEntries(p, opts, entries[1..], list, ctx, depth, st, rootDoc) == Success((entries[1..], st))
    ensures WalkEntries(p, opts, entries, list, ctx, depth, st, rootDoc) == Success((entries, st))
  {
    EntriesHeadSame(p, opts, entries, list, ctx, depth, st, rootDoc);
    HeadTail(entries);
  }

  /** What the loop over reference-free children comes to: the children
      themselves when they all fit in `budget` and are safe for `guessKind`,
      else a failure, which is the traversal-depth error only when some
      child is too deep and the type error only when the loop meets an
      integer key or some child holds an integer-keyed object. */
  predicate EntriesOutcome(r: Result<(Entries, State), ParseError>, entries: Entries, list: bool, st: State, budget: int) {
    && (AllFit(entries, budget) && Tame(entries, list) ==> r == Success((entries, st)))
    && (!(AllFit(entries, budget) && Tame(entries, list)) ==> r.Failure?)
    && (r.Failure? ==>
          (r.error.TraversalDepthExceeded? && !AllFit(entries, budget)) ||
          (r.error.GuessKindTypeError? && !Tame(entries, list)))
  }

  /** The child loop over reference-free entries gives them back unchanged
      exactly when all fit one level down and none meets `guessKind` with an
      integer key. */
  lemma {:induction false} RefFreeEntries(p: Parser, opts: ParseOptions, entries: Entries, list: bool, ctx: PathContext,
                                          depth: nat, st: State, rootDoc: Entries)
    requires depth <= p.maxWalkDepth
    requires AllRefFree(entries)
    ensures EntriesOutcome(WalkEntries(p, opts, entries, list, ctx, depth, st, rootDoc), entries, list, st, p.maxWalkDepth - depth - 1)
    decreases Fuel(p, depth), 0, |entries|
  {
    if |entries| > 0 {
      if !list && entries[0].0.IntKey? {
        TameCons(entries, list);
      } else {
        RefFreeTail(entries);
        RefFreeWalk(p, opts, entries[0].1, ctx.Push(Name(KeyText(entries[0].0))), depth + 1, st, rootDoc);
        RefFreeEntries(p, opts, entries[1..], list, ctx, depth, st, rootDoc);
        OutcomeCons(p, opts, entries, list, ctx, depth, st, rootDoc);
      }
    }
  }

  /** The loop's outcome from its first child's and its tail's. */
  lemma OutcomeCons(p: Parser, opts: ParseOptions, entries: Entries, list: bool, ctx: PathContext,
                    depth: nat, st: State, rootDoc: Entries)
    requires depth <= p.maxWalkDepth && |entries| > 0 && (list || entries[0].0.StrKey?)
    requires NodeOutcome(WalkNode(p, opts, entries[0].1, ctx.Push(Name(KeyText(entries[0].0))), depth + 1, st, rootDoc),
                         entries[0].1, st, p.maxWalkDepth - depth - 1)
    requires EntriesOutcome(WalkEntries(p, opts, entries[1..], list, ctx, depth, st, rootDoc), entries[1..], list, st,
                            p.maxWalkDepth - depth - 1)
    ensures EntriesOutcome(WalkEntries(p, opts, entries, list, ctx, depth, st, rootDoc), entries, list, st,
                           p.maxWalkDepth - depth - 1)
  {
    AllFitCons(entries, p.maxWalkDepth - depth - 1);
    TameCons(entries, list);
    if Fits(entries[0].1, p.maxWalkDepth - depth - 1) && KindSafe(entries[0].1) {
      OutcomeHeadGood(p, opts, entries, list, ctx, depth, st, rootDoc);
    } else {
      EntriesHeadFails(p, opts, entries, list, ctx, depth, st, rootDoc);
    }
  }

  /** A first child that walks to itself leaves the outcome to the tail. */
  lemma OutcomeHeadGood(p: Parser, opts: ParseOptions, entries: Entries, list: bool, ctx: PathContext,
                        depth: nat, st: State, rootDoc: Entries)
    requires depth <= p.maxWalkDepth && |entries| > 0 && (list || entries[0].0.StrKey?)
    requires WalkNode(p, opts, entries[0].1, ctx.Push(Name(KeyText(entries[0].0))), depth + 1, st, rootDoc) ==
      Success((entries[0].1, st))
    requires AllFit(entries, p.maxWalkDepth - depth - 1) <==> AllFit(entries[1..], p.maxWalkDepth - depth - 1)
    requires Tame(entries, list) <==> Tame(entries[1..], list)
    requires EntriesOutcome(WalkEntries(p, opts, entries[1..], list, ctx, depth, st, rootDoc), entries[1..], list, st,
                            p.maxWalkDepth - depth - 1)
    ensures EntriesOutcome(WalkEntries(p, opts, entries, list, ctx, depth, st, rootDoc), entries, list, st,
                           p.maxWalkDepth - depth - 1)
  {
    if AllFit(entries[1..], p.maxWalkDepth - depth - 1) && Tame(entries[1..], list) {
      EntriesSame(p, opts, entries, list, ctx, depth, st, rootDoc);
    } else {
      EntriesHeadSame(p, opts, entries, list, ctx, depth, st, rootDoc);
    }
  }

  /** No child of the array holds a `$ref` object. */
  predicate AllRefFree(entries: Entries) {
    forall i :: 0 <= i < |entries| ==> RefFree(entries[i].1)
  }

  lemma RefFreeTail(entries: Entries)
    requires |entries| > 0 && AllRefFree(entries)
    ensures RefFree(entries[0].1) && AllRefFree(entries[1..])
  {
    forall i | 0 <= i < |entries[1..]|
      ensures RefFree(entries[1..][i].1)
    {
      assert entries[1..][i] == entries[i + 1];
    }
  }

  /** The object `{200: ...}` (a `responses` map as PHP decodes it, the
      status key stored as an integer) cannot be parsed: the object loop
      hands the key 200 to `guessKind` and PHP raises a `TypeError`. */
  lemma IntegerKeyedDocumentFails(p: Parser, opts: ParseOptions, response: Json, baseUri: string, cache: Cache)
    requires p.maxWalkDepth >= 0
    ensures Parse(p, opts, [(IntKey(200), response)], baseUri, cache) == Failure(GuessKindTypeError(200))
  {
    assert Keys([(IntKey(200), response)]) == [IntKey(200)];
    assert !IsList([(IntKey(200), response)]);
  }

  /** A `$ref` whose target is already cached, with target data free of
      references and of integer-keyed objects and within the depth budget,
      becomes that data with the
      siblings of `$ref` merged on top. */
  lemma CachedRefMerges(p: Parser, opts: ParseOptions, node: Entries, ctx: PathContext,
                        depth: nat, st: State, rootDoc: Entries)
    requires depth < p.maxWalkDepth && IsRefNode(node)
    requires var ref := Get(node, RefKey).value.s;
      && Followed(p, opts, ctx.baseUri, ref)
      && ChainKey(p, ctx.baseUri, ref) !in st.seen
      && MakeCacheKey(ctx.baseUri, ref, p.resolver.isDir) in st.cache
    requires var data := st.cache[MakeCacheKey(ctx.baseUri, Get(node, RefKey).value.s, p.resolver.isDir)].data;
      RefFree(Arr(data)) && Fits(Arr(data), p.maxWalkDepth - depth - 1) && KindSafe(Arr(data))
    ensures var data := st.cache[MakeCacheKey(ctx.baseUri, Get(node, RefKey).value.s, p.resolver.isDir)].data;
      WalkNode(p, opts, Arr(node), ctx, depth, st, rootDoc) == Success((Arr(MergeObjects(data, Remove(node, RefKey))), st))
  {
    var ref := Get(node, RefKey).value.s;
    var chainKey := ChainKey(p, ctx.baseUri, ref);
    assert WalkNode(p, opts, Arr(node), ctx, depth, st, rootDoc) ==
      FollowRef(p, opts, node, ref, chainKey, ctx, depth, st, rootDoc);
    FollowCached(p, opts, node, ref, chainKey, ctx, depth, st, rootDoc);
  }

  lemma ResolveHit(rv: Resolver, cache: Cache, ref: string, baseUri: string,
                   rootDoc: Option<Entries>, stack: seq<string>, key: string)
    requires key == MakeCacheKey(baseUri, ref, rv.isDir) && key in cache
    ensures Resolve(rv, cache, ref, baseUri, rootDoc, stack) == (Success(cache[key]), cache)
  {
  }

  /** `FollowRef` once the resolver has answered from the cache and the
      target has walked without touching the state. */
  lemma FollowRefWalked(p: Parser, opts: ParseOptions, node: Entries, ref: string, chainKey: string,
                        ctx: PathContext, depth: nat, st: State, rootDoc: Entries, resolution: RefResolution, walked: Json)
    requires depth <= p.maxWalkDepth
    requires chainKey == ChainKey(p, ctx.baseUri, ref) && chainKey !in st.seen
    requires Resolve(p.resolver, st.cache, ref, ctx.baseUri, Some(rootDoc), st.seen + [chainKey]) == (Success(resolution), st.cache)
    requires WalkNode(p, opts, Arr(resolution.data), ctx.WithBaseUri(resolution.baseUri.GetOr(ctx.baseUri)), depth + 1,
                      State(st.seen + [chainKey], st.cache), resolution.data) == Success((walked, State(st.seen + [chainKey], st.cache)))
    ensures FollowRef(p, opts, node, ref, chainKey, ctx, depth, st, rootDoc) ==
      Success((if walked.Arr? then Arr(MergeObjects(walked.entries, Remove(node, RefKey))) else walked, st))
  {
    UnmarkLast(st.seen, chainKey);
  }

  /** `FollowRef` on a cached, reference-free target that fits the budget. */
  lemma FollowCached(p: Parser, opts: ParseOptions, node: Entries, ref: string, chainKey: string,
                     ctx: PathContext, depth: nat, st: State, rootDoc: Entries)
    requires depth < p.maxWalkDepth
    requires chainKey == ChainKey(p, ctx.baseUri, ref) && chainKey !in st.seen && chainKey in st.cache
    requires RefFree(Arr(st.cache[chainKey].data)) && Fits(Arr(st.cache[chainKey].data), p.maxWalkDepth - depth - 1)
    requires KindSafe(Arr(st.cache[chainKey].data))
    ensures FollowRef(p, opts, node, ref, chainKey, ctx, depth, st, rootDoc) ==
      Success((Arr(MergeObjects(st.cache[chainKey].data, Remove(node, RefKey))), st))
  {
    var marked := st.seen + [chainKey];
    var resolution := st.cache[chainKey];
    ResolveHit(p.resolver, st.cache, ref, ctx.baseUri, Some(rootDoc), marked, chainKey);
    var nextBase := resolution.baseUri.GetOr(ctx.baseUri);
    RefFreeWalk(p, opts, Arr(resolution.data), ctx.WithBaseUri(nextBase), depth + 1,
                State(marked, st.cache), resolution.data);
    FollowRefWalked(p, opts, node, ref, chainKey, ctx, depth, st, rootDoc, resolution, Arr(resolution.data));
  }
}

=== FILE: pathcontext.dfy ===
/** `PathContext`: where the parser stands in the document, as a base URI and
    the list of keys walked from the root, rendered as a JSON Pointer. */
module PathContexts {
  import opened Text
  import opened Json
  import opened UriHelper

  /** `push` takes a string or an integer key. */
  datatype Segment = Name(name: string) | Index(index: int)

  function SegmentText(s: Segment): string {
    match s
    case Name(n) => n
    case Index(i) => IntToString(i)
  }

  datatype PathContext = PathContext(baseUri: string, segments: seq<string>) {

    /** `pointer()`: empty at the root, else every segment escaped and
        prefixed with a slash. Reading the pointer's tokens back and
        unescaping them gives the segments again. */
    function Pointer(): (r: string)
      ensures r == "" <==> segments == []
      ensures r != "" ==> r[0] == '/' && Unescaped(Tokens(r)) == segments
    {
      if segments == [] then ""
      else
        var escaped := EscapedAll(segments);
        var r := "/" + Join(escaped, '/');
        PointerTokens(escaped);
        assert Unescaped(escaped) == segments;
        r
    }

    /** `push`: one more segment, same base. */
    function Push(seg: Segment): (c: PathContext)
      ensures c.baseUri == baseUri
      ensures c.segments == segments + [SegmentText(seg)]
    {
      PathContext(baseUri, segments + [SegmentText(seg)])
    }

    /** `withBaseUri`: same segments, another base. */
    function WithBaseUri(b: string): (c: PathContext)
      ensures c.baseUri == b && c.segments == segments
    {
      PathContext(b, segments)
    }
  }

  /** `PathContext::root`. */
  function Root(baseUri: string): (c: PathContext)
    ensures c.baseUri == baseUri && c.Pointer() == ""
  {
    PathContext(baseUri, [])
  }

  function EscapedAll(ss: seq<string>): (r: seq<string>)
    ensures |r| == |ss|
    ensures forall i :: 0 <= i < |ss| ==> r[i] == EscapeToken(ss[i])
  {
    seq(|ss|, i requires 0 <= i < |ss| => EscapeToken(ss[i]))
  }

  function Unescaped(ts: seq<string>): (r: seq<string>)
    ensures |r| == |ts|
    ensures forall i :: 0 <= i < |ts| ==> r[i] == UnescapeToken(ts[i])
  {
    seq(|ts|, i requires 0 <= i < |ts| => UnescapeToken(ts[i]))
  }

  /** The tokens of `"/" + implode('/', $escaped)` are the escaped segments. */
  lemma PointerTokens(escaped: seq<string>)
    requires |escaped| >= 1
    requires forall i :: 0 <= i < |escaped| ==> '/' !in escaped[i]
    ensures Tokens("/" + Join(escaped, '/')) == escaped
  {
    var parts := [""] + escaped;
    assert parts[1..] == escaped;
    assert Join(parts, '/') == "/" + Join(escaped, '/');
    SplitJoin(parts, '/');
  }

  /** The pointer of the context the walk builds while descending through
      keys locates, via `getByPointer`, exactly the node those keys name. */
  lemma PointerLocates(doc: Entries, baseUri: string, keys: seq<Key>)
    requires forall i :: 0 <= i < |keys| ==> WellKeyed(keys[i])
    requires At(Arr(doc), keys).Some?
    ensures var ctx := PathContext(baseUri, seq(|keys|, i requires 0 <= i < |keys| => KeyText(keys[i])));
      GetByPointer(doc, ctx.Pointer()) == At(Arr(doc), keys).value
  {
    var segs := seq(|keys|, i requires 0 <= i < |keys| => KeyText(keys[i]));
    var ctx := PathContext(baseUri, segs);
    FollowKeys(Arr(doc), keys);
    if keys != [] {
      var escaped := EscapedAll(segs);
      PointerTokens(escaped);
      assert escaped == KeyTokens(keys);
    }
  }
}

=== FILE: refs.dfy ===
/** The result of resolving a `$ref` (`RefResolution`) and the in-memory cache
    of such results (`InMemoryRefCache`). */
module Refs {
  import opened Wrappers
  import opened Text
  import opened Json

  /** What a `$ref` turned into: the reference as written, the base it was
      resolved in (nullable), the target document with its fragment, the
      pointer, and the array found there. */
  datatype RefResolution = RefResolution(
    originalRef: string,
    baseUri: Option<string>,
    resolvedUri: string,
    pointer: string,
    data: Entries)
  {
    /** `cacheKey()`: `(baseUri ?? resolvedUri) . '|' . originalRef`. When
        the base has no `|`, the key splits at its first `|` into the base and
        the reference. */
    function CacheKey(): (k: string)
      ensures StartsWith(k, baseUri.GetOr(resolvedUri))
      ensures |k| == |baseUri.GetOr(resolvedUri)| + 1 + |originalRef|
      ensures EndsWith(k, "|" + originalRef)
      ensures '|' !in baseUri.GetOr(resolvedUri) ==>
        IndexOf(k, '|') == Some(|baseUri.GetOr(resolvedUri)|) &&
        k[..|baseUri.GetOr(resolvedUri)|] == baseUri.GetOr(resolvedUri) &&
        k[|baseUri.GetOr(resolvedUri)| + 1..] == originalRef
    {
      var base := baseUri.GetOr(resolvedUri);
      var k := base + ("|" + originalRef);
      assert k[|base|..] == "|" + originalRef;
      assert k == base + ['|'] + originalRef;
      if '|' !in base then IndexOfAfter(base, '|', originalRef); k else k
    }
  }

  /** `InMemoryRefCache`: a map from keys to resolutions. */
  type Cache = map<string, RefResolution>

  /** `get`: the stored resolution, `null` when absent. */
  function CacheGet(c: Cache, key: string): (r: Option<RefResolution>)
    ensures r.Some? <==> key in c
    ensures r.Some? ==> r.value == c[key]
  {
    if key in c then Some(c[key]) else None
  }

  /** `put`: overwrites whatever the key held. */
  function CachePut(c: Cache, key: string, res: RefResolution): (r: Cache)
    ensures r.Keys == c.Keys + {key}
  {
    c[key := res]
  }

  /** `forget`: drops one key, absent or not. */
  function CacheForget(c: Cache, key: string): (r: Cache)
    ensures r.Keys == c.Keys - {key}
  {
    c - {key}
  }

  /** `clear`. */
  function CacheClear(c: Cache): (r: Cache)
    ensures r.Keys == {}
  {
    map[]
  }

  /** The cache behaves as a map: a read after a write sees the write on
      that key and the old contents elsewhere; a forgotten key reads as
      absent; a cleared cache holds nothing. */
  lemma CacheLaws(c: Cache, key: string, other: string, res: RefResolution)
    ensures CacheGet(CachePut(c, key, res), key) == Some(res)
    ensures other != key ==> CacheGet(CachePut(c, key, res), other) == CacheGet(c, other)
    ensures CacheGet(CacheForget(c, key), key) == None
    ensures other != key ==> CacheGet(CacheForget(c, key), other) == CacheGet(c, other)
    ensures CacheGet(CacheClear(c), other) == None
    ensures CacheForget(CachePut(c, key, res), key) == CacheForget(c, key)
  {
  }
}

=== FILE: resolver.dfy ===
/** `RefResolver::resolve`: a cache lookup, a depth and a cycle guard, then
    either a fragment of the current document or a fetched external document. */
module RefResolver {
  import opened Wrappers
  import opened Text
  import opened Json
  import opened UriHelper
  import opened Refs

  /** The exceptions `resolve` throws; a failing fetch stands for whatever
      the fetcher throws. */
  datatype RefError =
    | CircularReference(chain: seq<string>, next: string)
    | RefNotFound(ref: string, baseUri: string)
    | FetchFailed(uri: string)

  /** The resolver's collaborators. `fetch(uri, baseUri)` is the document
      loader (I/O: `None` when it throws), `isDir` the file-system query used
      by `resolveRelative`; `maxDepth` defaults to 64 in the source. */
  datatype Resolver = Resolver(
    fetch: (string, string) -> Option<Entries>,
    isDir: string -> bool,
    maxDepth: int)

  const DefaultMaxDepth := 64

  /** The array at `pointer` inside `doc`, if the pointer leads to an array. */
  function Target(doc: Entries, pointer: string): (r: Option<Entries>)
    ensures r.Some? <==> GetByPointer(doc, pointer).Arr?
    ensures r.Some? ==> GetByPointer(doc, pointer) == Arr(r.value)
    ensures pointer == "" ==> r == Some(doc)
  {
    var node := GetByPointer(doc, pointer);
    if node.Arr? then Some(node.entries) else None
  }

  /** `$targetUri . ($pointer !== '' ? '#' . $pointer : '')`. */
  function WithFragment(targetUri: string, pointer: string): (r: string)
    ensures pointer == "" ==> r == targetUri
    ensures pointer != "" ==> r == targetUri + "#" + pointer
  {
    if pointer != "" then targetUri + "#" + pointer else targetUri
  }

  /** How a lookup that passed the cache and both guards ends: a local target
      (the base document itself, with a root document at hand) succeeds
      exactly when its JSON Pointer locates an array there, and fails with
      `RefNotFound` otherwise; an external target fails with `FetchFailed`
      when the fetch fails, and otherwise succeeds exactly when the pointer
      locates an array in the fetched document, failing with `RefNotFound`
      when it does not. */
  predicate Settled(out: Result<RefResolution, RefError>, rv: Resolver, ref: string, baseUri: string,
                    rootDoc: Option<Entries>, target: string, pointer: string)
  {
    if target == baseUri && rootDoc.Some? then
      && (out.Success? <==> GetByPointer(rootDoc.value, pointer).Arr?)
      && (out.Failure? ==> out == Failure(RefNotFound(ref, baseUri)))
    else if rv.fetch(target, baseUri).None? then out == Failure(FetchFailed(target))
    else
      && (out.Success? <==> GetByPointer(rv.fetch(target, baseUri).value, pointer).Arr?)
      && (out.Failure? ==> out == Failure(RefNotFound(ref, baseUri)))
  }

  /** `resolve($ref, $baseUri, $rootDoc, $stack)`, returning the cache as it
      is afterwards. */
  function Resolve(rv: Resolver, cache: Cache, ref: string, baseUri: string,
                   rootDoc: Option<Entries>, stack: seq<string>): (out: (Result<RefResolution, RefError>, Cache))
    // a cached resolution wins over everything, and nothing changes
    ensures var key := MakeCacheKey(baseUri, ref, rv.isDir);
      key in cache ==> out == (Success(cache[key]), cache)
    // guards
    ensures var key := MakeCacheKey(baseUri, ref, rv.isDir);
      key !in cache && |stack| >= rv.maxDepth ==> out.0 == Failure(CircularReference(stack, ref))
    ensures var key := MakeCacheKey(baseUri, ref, rv.isDir);
      key !in cache && |stack| < rv.maxDepth && key in stack ==> out.0 == Failure(CircularReference(stack, key))
    // past the guards: the located array, or the error that says why not
    ensures var key := MakeCacheKey(baseUri, ref, rv.isDir);
      var (target, pointer) := SplitRef(baseUri, ref, rv.isDir);
      key !in cache && |stack| < rv.maxDepth && key !in stack ==>
        Settled(out.0, rv, ref, baseUri, rootDoc, target, pointer)
    // a failure leaves the cache alone
    ensures out.0.Failure? ==> out.1 == cache
    // a fresh success is stored under the key and describes the reference
    ensures MakeCacheKey(baseUri, ref, rv.isDir) !in cache && out.0.Success? ==>
      var (target, pointer) := SplitRef(baseUri, ref, rv.isDir);
      var res := out.0.value;
      && out.1 == cache[MakeCacheKey(baseUri, ref, rv.isDir) := res]
      && res.originalRef == ref
      && res.pointer == pointer
      && res.resolvedUri == WithFragment(target, pointer)
      && res.baseUri == Some(if target == baseUri && rootDoc.Some? then baseUri else target)
  {
    var key := MakeCacheKey(baseUri, ref, rv.isDir);
    if key in cache then (Success(cache[key]), cache)
    else if |stack| >= rv.maxDepth then (Failure(CircularReference(stack, ref)), cache)
    else
      var (target, pointer) := SplitRef(baseUri, ref, rv.isDir);
      var chainKey := target + "#" + pointer;
      if chainKey in stack then (Failure(CircularReference(stack, chainKey)), cache)
      else if target == baseUri && rootDoc.Some? then
        match Target(rootDoc.value, pointer)
        case None => (Failure(RefNotFound(ref, baseUri)), cache)
        case Some(node) =>
          var res := RefResolution(ref, Some(baseUri), WithFragment(target, pointer), pointer, node);
          (Success(res), cache[key := res])
      else
        match rv.fetch(target, baseUri)
        case None => (Failure(FetchFailed(target)), cache)
        case Some(doc) =>
          match Target(doc, pointer)
          case None => (Failure(RefNotFound(ref, baseUri)), cache)
          case Some(node) =>
            var res := RefResolution(ref, Some(target), WithFragment(target, pointer), pointer, node);
            (Success(res), cache[key := res])
  }

  /** The data of a successful resolution is the array its JSON Pointer locates, in
      the current document for a local target and in the fetched document
      otherwise. */
  lemma ResolvedData(rv: Resolver, cache: Cache, ref: string, baseUri: string,
                     rootDoc: Option<Entries>, stack: seq<string>)
    requires MakeCacheKey(baseUri, ref, rv.isDir) !in cache
    requires Resolve(rv, cache, ref, baseUri, rootDoc, stack).0.Success?
    ensures var (target, pointer) := SplitRef(baseUri, ref, rv.isDir);
      var data := Resolve(rv, cache, ref, baseUri, rootDoc, stack).0.value.data;
      if target == baseUri && rootDoc.Some? then GetByPointer(rootDoc.value, pointer) == Arr(data)
      else rv.fetch(target, baseUri).Some? && GetByPointer(rv.fetch(target, baseUri).value, pointer) == Arr(data)
  {
  }

  /** A reference into the current document never consults the fetcher:
      two resolvers that differ only in their fetcher agree on it. */
  lemma LocalIgnoresFetcher(rv1: Resolver, rv2: Resolver, cache: Cache, ref: string, baseUri: string,
                            rootDoc: Entries, stack: seq<string>)
    requires rv1.isDir == rv2.isDir && rv1.maxDepth == rv2.maxDepth
    requires SplitRef(baseUri, ref, rv1.isDir).0 == baseUri
    ensures Resolve(rv1, cache, ref, baseUri, Some(rootDoc), stack) == Resolve(rv2, cache, ref, baseUri, Some(rootDoc), stack)
  {
  }

  /** Resolving the same reference again, whatever the stack and document,
      answers from the cache with the same resolution. */
  lemma ResolveTwice(rv: Resolver, cache: Cache, ref: string, baseUri: string,
                     rootDoc: Option<Entries>, stack: seq<string>,
                     rootDoc': Option<Entries>, stack': seq<string>)
    requires Resolve(rv, cache, ref, baseUri, rootDoc, stack).0.Success?
    ensures var (r1, c1) := Resolve(rv, cache, ref, baseUri, rootDoc, stack);
      Resolve(rv, c1, ref, baseUri, rootDoc', stack') == (r1, c1)
  {
  }

  /** The cycle guard's chain key is the cache key: a reference whose key is
      already on the stack, and not cached, always fails as circular. */
  lemma StackedKeyIsCircular(rv: Resolver, cache: Cache, ref: string, baseUri: string,
                             rootDoc: Option<Entries>, stack: seq<string>)
    requires MakeCacheKey(baseUri, ref, rv.isDir) !in cache
    requires MakeCacheKey(baseUri, ref, rv.isDir) in stack
    ensures Resolve(rv, cache, ref, baseUri, rootDoc, stack).0.Failure?
    ensures Resolve(rv, cache, ref, baseUri, rootDoc, stack).0.error.CircularReference?
  {
  }
}

=== FILE: rules.dfy ===
/** Four validation rules that work on strings: path-template variables must
    be declared as required path parameters, keys of `paths` must start with
    a slash, response keys must be `default` or an HTTP status code, and
    operation ids must be unique across a validation run. */
module Rules {
  import opened Wrappers
  import opened Text
  import opened Json
  import opened Validation

  /** A parameter as the rules read it: a named declaration, or an entry
      without a `name` property (a reference), which is skipped. */
  datatype ParamDecl = Declared(name: string, location: string, required: bool) | Unnamed

  datatype Meta = Meta(location: string, required: bool)

  /** The parts of an Operation the rules look at. `responses` holds the keys
      of the response map, `None` when there is no map. */
  datatype Operation = Operation(
    operationId: Option<string>,
    parameters: seq<ParamDecl>,
    responses: Option<seq<Key>>)

  /** The parts of a Path Item the rules look at. */
  datatype PathItem = PathItem(
    parameters: seq<ParamDecl>,
    get: Option<Operation>, put: Option<Operation>, post: Option<Operation>,
    delete: Option<Operation>, options: Option<Operation>, head: Option<Operation>,
    patch: Option<Operation>, trace: Option<Operation>)

  /** The node a rule is applied to; anything that is neither a Path Item
      nor an Operation is `OtherNode`. */
  datatype Node = PathItemNode(item: PathItem) | OperationNode(op: Operation) | OtherNode

  function Present(o: Option<Operation>): (r: seq<Operation>)
    ensures |r| <= 1
    ensures forall x :: x in r <==> o == Some(x)
  {
    if o.Some? then [o.value] else []
  }

  /** The operations present, in the order get, put, post, delete, options,
      head, patch, trace. */
  function Operations(p: PathItem): (ops: seq<Operation>)
    ensures |ops| <= 8
    ensures forall x :: x in ops <==>
      Some(x) in [p.get, p.put, p.post, p.delete, p.options, p.head, p.patch, p.trace]
  {
    Present(p.get) + Present(p.put) + Present(p.post) + Present(p.delete) +
    Present(p.options) + Present(p.head) + Present(p.patch) + Present(p.trace)
  }

  // ---------------------------------------------------------------------------
  // The path key inside a pointer

  const PathsPrefix := "#/paths/"

  /** The first token after `#/paths/`, unescaped `~1` first and `~0` second;
      `None` outside `#/paths/`. */
  function PathSegment(pointer: string): (r: Option<string>)
    ensures r.Some? <==> StartsWith(pointer, PathsPrefix)
  {
    if !StartsWith(pointer, PathsPrefix) then None
    else Some(UnescapeToken(Before(pointer[|PathsPrefix|..], '/')))
  }

  /** `PathTemplateParametersRule::extractPathFromPointer`: an empty key
      counts as absent. */
  function TemplatePath(pointer: string): (r: Option<string>)
    ensures r.Some? ==> r.value != "" && PathSegment(pointer) == r
    ensures r.None? <==> PathSegment(pointer).None? || PathSegment(pointer) == Some("")
  {
    match PathSegment(pointer)
    case None => None
    case Some(p) => if p == "" then None else Some(p)
  }

  /** `PathsKeyFormatRule::extractPathFromPointer`: `?: null` makes both
      `""` and `"0"` absent, since both are falsy in PHP. */
  function KeyPath(pointer: string): (r: Option<string>)
    ensures r.Some? ==> r.value != "" && r.value != "0" && PathSegment(pointer) == r
    ensures r.None? <==> PathSegment(pointer).None? || PathSegment(pointer) == Some("") || PathSegment(pointer) == Some("0")
  {
    match PathSegment(pointer)
    case None => None
    case Some(p) => if p == "" || p == "0" then None else Some(p)
  }

  lemma BeforeStop(p: string, c: char, rest: string)
    requires c !in p
    requires rest == [] || rest[0] == c
    ensures Before(p + rest, c) == p
  {
    var s := p + rest;
    var r := Before(s, c);
    if rest == [] {
      assert s == p;
    } else {
      assert s[|p|] == c;
      assert c in s;
      assert s[|r|] == c;
      assert forall i :: 0 <= i < |p| ==> s[i] == p[i];
    }
  }

  lemma ChildOfPathsPointer(ctx: Context, key: string, more: seq<string>)
    requires ctx.pointer == "#/paths"
    ensures Descend(ctx.Child(key), more).pointer == PathsPrefix + (EscapeToken(key) + Slashed(more))
  {
    var child := ctx.Child(key);
    ChildAppends(ctx, key);
    DescendAppends(child, more);
    PathsSlash();
    Regroup(ctx.pointer, EscapeToken(key), Slashed(more));
  }

  lemma PathsSlash()
    ensures "#/paths" + "/" == PathsPrefix
  {
  }

  lemma Regroup(a: string, b: string, c: string)
    ensures a + ("/" + b) + c == (a + "/") + (b + c)
  {
  }

  /** The context a validator reaches below `#/paths` through `child($key)`
      and any further children names `key` again. */
  lemma SegmentOfChild(ctx: Context, key: string, more: seq<string>)
    requires ctx.pointer == "#/paths"
    ensures PathSegment(Descend(ctx.Child(key), more).pointer) == Some(key)
  {
    var escaped := EscapeToken(key);
    var tail := Slashed(more);
    ChildOfPathsPointer(ctx, key, more);
    var ptr := Descend(ctx.Child(key), more).pointer;
    assert tail == [] || tail[0] == '/';
    assert ptr[..|PathsPrefix|] == PathsPrefix;
    assert ptr[|PathsPrefix|..] == escaped + tail;
    BeforeStop(escaped, '/', tail);
  }

  // ---------------------------------------------------------------------------
  // Template variables

  /** The character class `[A-Za-z0-9_.\-]`. */
  predicate IsVarChar(c: char) {
    ('A' <= c <= 'Z') || ('a' <= c <= 'z') || ('0' <= c <= '9') || c == '_' || c == '.' || c == '-'
  }

  /** `{name}` occupies `s[i..j + 1]`: an opening brace, one or more name
      characters and a closing brace. */
  predicate MatchAt(s: string, i: int, j: int) {
    0 <= i && i + 1 < j < |s| && s[i] == '{' && s[j] == '}' &&
    forall k :: i < k < j ==> IsVarChar(s[k])
  }

  /** The end of the run of name characters starting at `i`. */
  function RunEnd(s: string, i: nat): (j: nat)
    requires i <= |s|
    ensures i <= j <= |s|
    ensures forall k :: i <= k < j ==> IsVarChar(s[k])
    ensures j < |s| ==> !IsVarChar(s[j])
    decreases |s| - i
  {
    if i < |s| && IsVarChar(s[i]) then RunEnd(s, i + 1) else i
  }

  /** `preg_match_all('/\{([A-Za-z0-9_.\-]+)\}/')` from position `i`: the
      captured names, leftmost first, matches not overlapping. */
  function Scan(s: string, i: nat): (vs: seq<string>)
    requires i <= |s|
    decreases |s| - i
  {
    if i == |s| then []
    else if s[i] == '{' then
      var j := RunEnd(s, i + 1);
      if j > i + 1 && j < |s| && s[j] == '}' then [s[i + 1..j]] + Scan(s, j + 1) else Scan(s, i + 1)
    else Scan(s, i + 1)
  }

  /** Every name found is the inside of a `{name}` at or after `i`. */
  lemma {:induction false} ScanSound(s: string, i: nat, v: string)
    requires i <= |s|
    requires v in Scan(s, i)
    ensures exists a, b :: i <= a && MatchAt(s, a, b) && v == s[a + 1..b]
    decreases |s| - i
  {
    if s[i] == '{' {
      var j := RunEnd(s, i + 1);
      if j > i + 1 && j < |s| && s[j] == '}' {
        if v == s[i + 1..j] {
          assert MatchAt(s, i, j);
        } else {
          ScanSound(s, j + 1, v);
        }
      } else {
        ScanSound(s, i + 1, v);
      }
    } else {
      ScanSound(s, i + 1, v);
    }
  }

  /** Every `{name}` at or after `i` is found: a match never starts inside
      an earlier one, because names hold no `{`. */
  lemma {:induction false} ScanComplete(s: string, i: nat, a: int, b: int)
    requires i <= |s|
    requires i <= a && MatchAt(s, a, b)
    ensures s[a + 1..b] in Scan(s, i)
    decreases |s| - i
  {
    if i == a {
      var j := RunEnd(s, i + 1);
      assert j == b;
    } else if s[i] == '{' {
      var j := RunEnd(s, i + 1);
      if j > i + 1 && j < |s| && s[j] == '}' {
        assert a > j;
        ScanComplete(s, j + 1, a, b);
      } else {
        ScanComplete(s, i + 1, a, b);
      }
    } else {
      ScanComplete(s, i + 1, a, b);
    }
  }

  /** `array_values(array_unique(...))`: first occurrences, in order. */
  function Dedup(vs: seq<string>): (r: seq<string>)
    ensures Distinct(r)
    ensures forall v :: v in r <==> v in vs
    decreases |vs|
  {
    if vs == [] then []
    else
      var init := vs[..|vs| - 1];
      var last := vs[|vs| - 1];
      assert vs == init + [last];
      var d := Dedup(init);
      if last in d then d else d + [last]
  }

  /** `extractTemplateVars`. */
  function TemplateVars(path: string): (r: seq<string>)
    ensures Distinct(r)
  {
    Dedup(Scan(path, 0))
  }

  /** A name is a template variable exactly when `{name}` occurs in the path. */
  lemma TemplateVarsIff(path: string, v: string)
    ensures v in TemplateVars(path) <==> exists a, b :: MatchAt(path, a, b) && v == path[a + 1..b]
  {
    if v in TemplateVars(path) {
      ScanSound(path, 0, v);
    }
    if exists a, b :: MatchAt(path, a, b) && v == path[a + 1..b] {
      var a, b :| MatchAt(path, a, b) && v == path[a + 1..b];
      ScanComplete(path, 0, a, b);
    }
  }

  /** A template variable name: one or more characters of the class. */
  predicate IsVarName(v: string) {
    |v| > 0 && forall k :: 0 <= k < |v| ==> IsVarChar(v[k])
  }

  /** The path `/{n0}/{n1}/...` built from a list of names. */
  function Template(names: seq<string>): string
    decreases |names|
  {
    if names == [] then "" else "/{" + names[0] + "}" + Template(names[1..])
  }

  /** The run of name characters from `i` stops at the first other character. */
  lemma {:induction false} RunEndStops(s: string, i: nat, j: nat)
    requires i <= j < |s|
    requires forall k :: i <= k < j ==> IsVarChar(s[k])
    requires !IsVarChar(s[j])
    ensures RunEnd(s, i) == j
    decreases j - i
  {
    if i < j {
      RunEndStops(s, i + 1, j);
    }
  }

  /** The run of name characters looks only at the text from `i` on. */
  lemma {:induction false} RunEndShift(x: string, y: string, i: nat)
    requires i <= |y|
    ensures RunEnd(x + y, |x| + i) == |x| + RunEnd(y, i)
    decreases |y| - i
  {
    if i < |y| {
      assert (x + y)[|x| + i] == y[i];
      RunEndShift(x, y, i + 1);
    }
  }

  /** A `{name}` opens at `i` and closes at `j`, as the scan sees it. */
  predicate OpensAt(s: string, i: nat, j: nat)
    requires i < |s|
  {
    s[i] == '{' && j == RunEnd(s, i + 1) && j > i + 1 && j < |s| && s[j] == '}'
  }

  /** The scan looks only at the text from `i` on. */
  lemma {:induction false} ScanShift(x: string, y: string, i: nat)
    requires i <= |y|
    ensures Scan(x + y, |x| + i) == Scan(y, i)
    decreases |y| - i
  {
    if i < |y| {
      var j := if y[i] == '{' then RunEnd(y, i + 1) else i;
      if OpensAt(y, i, j) {
        ScanShift(x, y, j + 1);
        ScanShiftMatch(x, y, i, j);
      } else {
        ScanShift(x, y, i + 1);
        ScanShiftSkip(x, y, i);
      }
    }
  }

  lemma ScanShiftMatch(x: string, y: string, i: nat, j: nat)
    requires i < |y| && OpensAt(y, i, j)
    requires Scan(x + y, |x| + j + 1) == Scan(y, j + 1)
    ensures Scan(x + y, |x| + i) == Scan(y, i)
  {
    ScanOpensShifted(x, y, i, j);
    ScanOpens(y, i, j);
  }

  lemma ScanOpensShifted(x: string, y: string, i: nat, j: nat)
    requires i < |y| && OpensAt(y, i, j)
    ensures Scan(x + y, |x| + i) == [y[i + 1..j]] + Scan(x + y, |x| + j + 1)
  {
    OpensShift(x, y, i, j);
    InsideShift(x, y, i, j);
  }

  /** The opening `{name}` found at `i` of `y` is found at `|x| + i` of
      `x + y`, and the scan there takes it. */
  lemma OpensShift(x: string, y: string, i: nat, j: nat)
    requires i < |y| && OpensAt(y, i, j)
    ensures OpensAt(x + y, |x| + i, |x| + j)
    ensures Scan(x + y, |x| + i) == [(x + y)[|x| + i + 1..|x| + j]] + Scan(x + y, |x| + j + 1)
  {
    RunEndShift(x, y, i + 1);
    assert (x + y)[|x| + i] == y[i] && (x + y)[|x| + j] == y[j];
  }

  lemma ScanOpens(s: string, i: nat, j: nat)
    requires i < |s| && OpensAt(s, i, j)
    ensures Scan(s, i) == [s[i + 1..j]] + Scan(s, j + 1)
  {
  }

  lemma InsideShift(x: string, y: string, i: nat, j: nat)
    requires i < j <= |y|
    ensures (x + y)[|x| + i + 1..|x| + j] == y[i + 1..j]
  {
  }

  lemma ScanShiftSkip(x: string, y: string, i: nat)
    requires i < |y| && !OpensAt(y, i, if y[i] == '{' then RunEnd(y, i + 1) else i)
    requires Scan(x + y, |x| + i + 1) == Scan(y, i + 1)
    ensures Scan(x + y, |x| + i) == Scan(y, i)
  {
    var s := x + y;
    RunEndShift(x, y, i + 1);
    assert s[|x| + i] == y[i];
    if y[i] == '{' {
      var j := RunEnd(y, i + 1);
      if j < |y| {
        assert s[|x| + j] == y[j];
      }
    }
  }

  /** One `/{name}` in front of the text contributes exactly the name. */
  lemma ScanBraced(name: string, rest: string)
    requires IsVarName(name)
    ensures Scan("/{" + name + "}" + rest, 0) == [name] + Scan(rest, 0)
  {
    var x := "/{" + name + "}";
    var s := x + rest;
    var j := 2 + |name|;
    assert s[0] == '/' && s[1] == '{' && s[j] == '}';
    assert forall k :: 2 <= k < j ==> s[k] == name[k - 2];
    RunEndStops(s, 2, j);
    assert s[2..j] == name;
    ScanShift(x, rest, 0);
    assert |x| == j + 1;
  }

  /** Scanning a path built from names gives the names back, in order. */
  lemma {:induction false} ScanTemplate(names: seq<string>)
    requires forall i :: 0 <= i < |names| ==> IsVarName(names[i])
    ensures Scan(Template(names), 0) == names
    decreases |names|
  {
    if names != [] {
      ScanTemplate(names[1..]);
      ScanBraced(names[0], Template(names[1..]));
      assert names == [names[0]] + names[1..];
    }
  }

  /** `/{a}/{b}/{a}` declares `a` and `b`, in that order, once each. */
  lemma TemplateVarsExample(a: string, b: string)
    requires IsVarName(a) && IsVarName(b) && a != b
    ensures TemplateVars(Template([a, b, a])) == [a, b]
  {
    var names := [a, b, a];
    ScanTemplate(names);
    assert [a][..0] == [];
    assert Dedup([a]) == [a];
    assert [a, b][..1] == [a];
    assert Dedup([a, b]) == [a, b];
    assert names[..2] == [a, b];
  }

  // ---------------------------------------------------------------------------
  // Parameters

  /** `collectParameters`: named declarations keyed by name, a later one
      replacing an earlier one. */
  function Collect(ps: seq<ParamDecl>): (m: map<string, Meta>)
    ensures forall i :: 0 <= i < |ps| && ps[i].Declared? ==> ps[i].name in m
    ensures forall n :: n in m ==> exists i :: 0 <= i < |ps| && ps[i].Declared? && ps[i].name == n
    ensures |ps| > 0 && ps[|ps| - 1].Declared? ==>
      m[ps[|ps| - 1].name] == Meta(ps[|ps| - 1].location, ps[|ps| - 1].required)
    decreases |ps|
  {
    if ps == [] then map[]
    else
      var init := ps[..|ps| - 1];
      var last := ps[|ps| - 1];
      assert forall i :: 0 <= i < |init| ==> ps[i] == init[i];
      var m := Collect(init);
      match last
      case Unnamed => m
      case Declared(name, location, required) => m[name := Meta(location, required)]
  }

  /** A declaration is final when no later entry declares the same name. */
  lemma {:induction false} CollectLast(ps: seq<ParamDecl>, i: nat)
    requires i < |ps| && ps[i].Declared?
    requires forall j :: i < j < |ps| ==> !(ps[j].Declared? && ps[j].name == ps[i].name)
    ensures Collect(ps)[ps[i].name] == Meta(ps[i].location, ps[i].required)
    decreases |ps|
  {
    if i < |ps| - 1 {
      var init := ps[..|ps| - 1];
      CollectLast(init, i);
    }
  }

  /** `mergeParams($a, $b)`: every name of both, `b` winning. */
  function MergeParams(a: map<string, Meta>, b: map<string, Meta>): (m: map<string, Meta>)
    ensures m.Keys == a.Keys + b.Keys
    ensures forall n :: n in b ==> m[n] == b[n]
    ensures forall n :: n in a && n !in b ==> m[n] == a[n]
  {
    a + b
  }

  /** A variable is properly declared: `in: path` and `required: true`. */
  predicate Declares(m: map<string, Meta>, v: string) {
    v in m && m[v].location == "path" && m[v].required
  }

  const MissingCode := "path.params.missing"
  const InvalidCode := "path.params.invalid"

  /** The check of one variable against the merged declarations. */
  function VarIssue(pointer: string, v: string, m: map<string, Meta>): (r: Option<Issue>)
    ensures r.None? <==> Declares(m, v)
    ensures r.Some? ==> r.value.pointer == pointer && r.value.severity == Error
    ensures r.Some? ==> (r.value.code == MissingCode <==> v !in m)
    ensures r.Some? ==> (r.value.code == InvalidCode <==> v in m)
  {
    if v !in m then
      Some(ErrorAt(pointer, MissingCode, "Path variable '" + v + "' must be declared as in=path parameter."))
    else if !Declares(m, v) then
      Some(ErrorAt(pointer, InvalidCode, "Path parameter '" + v + "' must have in='path' and required=true."))
    else None
  }

  /** How many of the variables `m` does not declare properly. */
  function Undeclared(m: map<string, Meta>, vars: seq<string>): (n: nat)
    ensures n <= |vars|
    decreases |vars|
  {
    if vars == [] then 0
    else (if Declares(m, vars[0]) then 0 else 1) + Undeclared(m, vars[1..])
  }

  /** What the inner loop owes for `vars` against `m`: one issue per variable
      not properly declared, and every issue is the issue of one of them. */
  ghost predicate VarsReported(r: seq<Issue>, pointer: string, vars: seq<string>, m: map<string, Meta>) {
    && |r| == Undeclared(m, vars)
    && forall e :: e in r <==> IssueOf(e, pointer, vars, m)
  }

  /** `e` is the issue of one of the variables against `m`. */
  ghost predicate IssueOf(e: Issue, pointer: string, vars: seq<string>, m: map<string, Meta>) {
    exists i :: 0 <= i < |vars| && VarIssue(pointer, vars[i], m) == Some(e)
  }

  /** The inner loop over the template variables. */
  function CheckVars(pointer: string, vars: seq<string>, m: map<string, Meta>): (r: seq<Issue>)
    ensures |r| <= |vars|
    ensures r == [] <==> forall i :: 0 <= i < |vars| ==> Declares(m, vars[i])
    ensures forall e :: e in r ==> e.pointer == pointer && e.severity == Error
    ensures VarsReported(r, pointer, vars, m)
    decreases |vars|
  {
    if vars == [] then []
    else
      var rest := CheckVars(pointer, vars[1..], m);
      assert forall i :: 1 <= i < |vars| ==> vars[i] == vars[1..][i - 1];
      VarsReportedCons(rest, pointer, vars, m);
      match VarIssue(pointer, vars[0], m)
      case None => rest
      case Some(e) => [e] + rest
  }

  /** One turn of the inner loop: the first variable's issue, if any, then
      the rest's. */
  lemma VarsReportedCons(rest: seq<Issue>, pointer: string, vars: seq<string>, m: map<string, Meta>)
    requires vars != [] && VarsReported(rest, pointer, vars[1..], m)
    ensures var r := match VarIssue(pointer, vars[0], m) case None => rest case Some(e) => [e] + rest;
      VarsReported(r, pointer, vars, m)
  {
    forall e
      ensures IssueOf(e, pointer, vars, m) <==>
        VarIssue(pointer, vars[0], m) == Some(e) || IssueOf(e, pointer, vars[1..], m)
    {
      if exists i :: 0 <= i < |vars| && VarIssue(pointer, vars[i], m) == Some(e) {
        var i :| 0 <= i < |vars| && VarIssue(pointer, vars[i], m) == Some(e);
        if i > 0 {
          assert vars[1..][i - 1] == vars[i];
        }
      }
      if exists j :: 0 <= j < |vars[1..]| && VarIssue(pointer, vars[1..][j], m) == Some(e) {
        var j :| 0 <= j < |vars[1..]| && VarIssue(pointer, vars[1..][j], m) == Some(e);
        assert vars[1..][j] == vars[j + 1];
      }
    }
  }

  /** How many (operation, variable) pairs lack a proper declaration, the
      operation's own declarations merged over the Path Item's. */
  function OpsUndeclared(pathParams: map<string, Meta>, ops: seq<Operation>, vars: seq<string>): nat
    decreases |ops|
  {
    if ops == [] then 0
    else Undeclared(MergeParams(pathParams, Collect(ops[0].parameters)), vars) + OpsUndeclared(pathParams, ops[1..], vars)
  }

  /** What the outer loop owes: one issue per (operation, variable) pair
      lacking a proper declaration, and every issue is the issue of such a
      pair. */
  ghost predicate OpsReported(r: seq<Issue>, pointer: string, vars: seq<string>, pathParams: map<string, Meta>,
                        ops: seq<Operation>) {
    && |r| == OpsUndeclared(pathParams, ops, vars)
    && forall e :: e in r <==>
         exists k :: 0 <= k < |ops| && IssueOf(e, pointer, vars, MergeParams(pathParams, Collect(ops[k].parameters)))
  }

  /** With no template variables there is nothing to report. */
  lemma {:induction false} NoVarsNoIssues(pointer: string, pathParams: map<string, Meta>, ops: seq<Operation>)
    ensures OpsReported([], pointer, [], pathParams, ops)
    decreases |ops|
  {
    if ops != [] {
      NoVarsNoIssues(pointer, pathParams, ops[1..]);
    }
  }

  /** The outer loop over the operations present. */
  function CheckOps(pointer: string, vars: seq<string>, pathParams: map<string, Meta>, ops: seq<Operation>): (r: seq<Issue>)
    ensures |r| <= |ops| * |vars|
    ensures r == [] <==> OpsDeclare(pathParams, ops, vars)
    ensures forall e :: e in r ==> e.pointer == pointer && e.severity == Error
    ensures OpsReported(r, pointer, vars, pathParams, ops)
    decreases |ops|, 1
  {
    if ops == [] then []
    else
      CheckOpsCons(pointer, vars, pathParams, ops);
      CheckOpsReported(pointer, vars, pathParams, ops);
      CheckVars(pointer, vars, MergeParams(pathParams, Collect(ops[0].parameters))) +
        CheckOps(pointer, vars, pathParams, ops[1..])
  }

  /** One turn of the outer loop: the first operation's issues, then the rest's. */
  lemma CheckOpsCons(pointer: string, vars: seq<string>, pathParams: map<string, Meta>, ops: seq<Operation>)
    requires ops != []
    ensures var r := CheckVars(pointer, vars, MergeParams(pathParams, Collect(ops[0].parameters))) +
        CheckOps(pointer, vars, pathParams, ops[1..]);
      && |r| <= |ops| * |vars|
      && (r == [] <==> OpsDeclare(pathParams, ops, vars))
      && (forall e :: e in r ==> e.pointer == pointer && e.severity == Error)
    decreases |ops|, 0
  {
    OpsDeclareCons(pathParams, ops, vars);
    MulStep(|ops|, |vars|);
  }

  lemma CheckOpsReported(pointer: string, vars: seq<string>, pathParams: map<string, Meta>, ops: seq<Operation>)
    requires ops != []
    ensures OpsReported(CheckVars(pointer, vars, MergeParams(pathParams, Collect(ops[0].parameters))) +
                        CheckOps(pointer, vars, pathParams, ops[1..]), pointer, vars, pathParams, ops)
    decreases |ops|, 0
  {
    OpsReportedCons(CheckVars(pointer, vars, MergeParams(pathParams, Collect(ops[0].parameters))),
                    CheckOps(pointer, vars, pathParams, ops[1..]), pointer, vars, pathParams, ops);
  }

  lemma OpsReportedCons(head: seq<Issue>, rest: seq<Issue>, pointer: string, vars: seq<string>,
                        pathParams: map<string, Meta>, ops: seq<Operation>)
    requires ops != []
    requires VarsReported(head, pointer, vars, MergeParams(pathParams, Collect(ops[0].parameters)))
    requires OpsReported(rest, pointer, vars, pathParams, ops[1..])
    ensures OpsReported(head + rest, pointer, vars, pathParams, ops)
  {
    forall e | e in head + rest
      ensures exists k :: 0 <= k < |ops| && IssueOf(e, pointer, vars, MergeParams(pathParams, Collect(ops[k].parameters)))
    {
      OneOfOps(e, head, rest, pointer, vars, pathParams, ops);
    }
    forall e, k | 0 <= k < |ops| && IssueOf(e, pointer, vars, MergeParams(pathParams, Collect(ops[k].parameters)))
      ensures e in head + rest
    {
      if k > 0 {
        assert ops[1..][k - 1] == ops[k];
        assert e in rest;
      }
    }
  }

  /** An issue of the concatenation is an issue of some operation. */
  lemma OneOfOps(e: Issue, head: seq<Issue>, rest: seq<Issue>, pointer: string, vars: seq<string>,
                 pathParams: map<string, Meta>, ops: seq<Operation>)
    requires ops != [] && e in head + rest
    requires VarsReported(head, pointer, vars, MergeParams(pathParams, Collect(ops[0].parameters)))
    requires OpsReported(rest, pointer, vars, pathParams, ops[1..])
    ensures exists k :: 0 <= k < |ops| && IssueOf(e, pointer, vars, MergeParams(pathParams, Collect(ops[k].parameters)))
  {
    if e in head {
      assert IssueOf(e, pointer, vars, MergeParams(pathParams, Collect(ops[0].parameters)));
    } else {
      assert e in rest;
      var k :| 0 <= k < |ops[1..]| && IssueOf(e, pointer, vars, MergeParams(pathParams, Collect(ops[1..][k].parameters)));
      assert ops[1..][k] == ops[k + 1];
      assert IssueOf(e, pointer, vars, MergeParams(pathParams, Collect(ops[k + 1].parameters)));
    }
  }

  /** Every variable is declared for every operation. */
  predicate OpsDeclare(pathParams: map<string, Meta>, ops: seq<Operation>, vars: seq<string>) {
    forall k, i :: 0 <= k < |ops| && 0 <= i < |vars| ==>
      Declares(MergeParams(pathParams, Collect(ops[k].parameters)), vars[i])
  }

  lemma OpsDeclareCons(pathParams: map<string, Meta>, ops: seq<Operation>, vars: seq<string>)
    requires ops != []
    ensures OpsDeclare(pathParams, ops, vars) <==>
      (forall i :: 0 <= i < |vars| ==> Declares(MergeParams(pathParams, Collect(ops[0].parameters)), vars[i]))
      && OpsDeclare(pathParams, ops[1..], vars)
  {
    var head := MergeParams(pathParams, Collect(ops[0].parameters));
    if (forall i :: 0 <= i < |vars| ==> Declares(head, vars[i])) && OpsDeclare(pathParams, ops[1..], vars) {
      forall k, i | 0 <= k < |ops| && 0 <= i < |vars|
        ensures Declares(MergeParams(pathParams, Collect(ops[k].parameters)), vars[i])
      {
        if k > 0 {
          assert ops[k] == ops[1..][k - 1];
        }
      }
    }
    if OpsDeclare(pathParams, ops, vars) {
      forall k, i | 0 <= k < |ops| - 1 && 0 <= i < |vars|
        ensures Declares(MergeParams(pathParams, Collect(ops[1..][k].parameters)), vars[i])
      {
        assert ops[1..][k] == ops[k + 1];
      }
    }
  }

  lemma MulStep(a: nat, b: nat)
    requires a > 0
    ensures a * b == b + (a - 1) * b
  {
  }

  /** `PathTemplateParametersRule::validate`. */
  function PathTemplateIssues(node: Node, ctx: Context): (r: seq<Issue>)
    ensures !node.PathItemNode? ==> r == []
    ensures TemplatePath(ctx.pointer).None? ==> r == []
    ensures node.PathItemNode? && TemplatePath(ctx.pointer).Some? ==>
      var vars := TemplateVars(TemplatePath(ctx.pointer).value);
      var ops := Operations(node.item);
      && |r| <= |ops| * |vars|
      && (r == [] <==> forall k, i :: 0 <= k < |ops| && 0 <= i < |vars| ==>
            Declares(MergeParams(Collect(node.item.parameters), Collect(ops[k].parameters)), vars[i]))
      // one issue per present operation and badly declared variable, with that variable's code
      && OpsReported(r, ctx.pointer, vars, Collect(node.item.parameters), ops)
    ensures forall e :: e in r ==> e.pointer == ctx.pointer && e.severity == Error
  {
    if !node.PathItemNode? then []
    else match TemplatePath(ctx.pointer)
      case None => []
      case Some(path) =>
        var vars := TemplateVars(path);
        if vars == [] then
          NoVarsNoIssues(ctx.pointer, Collect(node.item.parameters), Operations(node.item));
          []
        else CheckOps(ctx.pointer, vars, Collect(node.item.parameters), Operations(node.item))
  }

  /** A path whose variables are all declared on the Path Item as required
      path parameters passes, whatever its operations declare under other
      names. */
  lemma DeclaredOnPathItemPasses(item: PathItem, ctx: Context)
    requires TemplatePath(ctx.pointer).Some?
    requires forall v :: v in TemplateVars(TemplatePath(ctx.pointer).value) ==>
      Declares(Collect(item.parameters), v) &&
      forall o :: o in Operations(item) ==> v !in Collect(o.parameters)
    ensures PathTemplateIssues(PathItemNode(item), ctx) == []
  {
    var vars := TemplateVars(TemplatePath(ctx.pointer).value);
    var ops := Operations(item);
    forall k, i | 0 <= k < |ops| && 0 <= i < |vars|
      ensures Declares(MergeParams(Collect(item.parameters), Collect(ops[k].parameters)), vars[i])
    {
      assert vars[i] in vars;
      assert ops[k] in ops;
    }
  }

  // ---------------------------------------------------------------------------
  // PathsKeyFormatRule

  const KeyCode := "paths.key.invalid"

  /** `PathsKeyFormatRule::validate`. */
  function PathsKeyIssues(node: Node, ctx: Context): (r: seq<Issue>)
    ensures |r| <= 1
    ensures !node.PathItemNode? || !StartsWith(ctx.pointer, PathsPrefix) ==> r == []
    ensures r != [] <==> node.PathItemNode? && KeyPath(ctx.pointer).Some? && KeyPath(ctx.pointer).value[0] != '/'
    ensures r != [] ==> r[0].pointer == ctx.pointer && r[0].code == KeyCode && r[0].severity == Error
  {
    if !node.PathItemNode? then []
    else match KeyPath(ctx.pointer)
      case None => []
      case Some(p) =>
        if p == "" || p[0] != '/' then
          [ErrorAt(ctx.pointer, KeyCode, "Path template key must start with '/'. Found: '" + p + "'")]
        else []
  }

  /** For the Path Item under `paths[key]`, reached by `child`, the rule
      reports exactly the keys that do not start with a slash, except `"0"`
      and `""`, which PHP's `?:` treats as absent. */
  lemma PathsKeyOfChild(item: PathItem, ctx: Context, key: string)
    requires ctx.pointer == "#/paths"
    ensures PathsKeyIssues(PathItemNode(item), ctx.Child(key)) != [] <==>
      key != "" && key != "0" && key[0] != '/'
  {
    SegmentOfChild(ctx, key, []);
    assert Descend(ctx.Child(key), []) == ctx.Child(key);
  }

  // ---------------------------------------------------------------------------
  // ResponsesStatusCodeRule

  const StatusCode := "responses.status.invalid"

  /** `preg_match('/^(?:[1-5][0-9]{2})$/')`. PCRE's `$` also matches before
      a final newline, so a fourth character `\n` is accepted. */
  predicate StatusOk(code: string) {
    (|code| == 3 || (|code| == 4 && code[3] == '\n')) &&
    '1' <= code[0] <= '5' && IsDigit(code[1]) && IsDigit(code[2])
  }

  /** The pattern accepts three digits whose value is 100 to 599, optionally
      followed by a newline. */
  lemma StatusOkRange(code: string)
    ensures StatusOk(code) <==>
      (|code| == 3 || (|code| == 4 && code[3] == '\n')) &&
      AllDigits(code[..3]) && 100 <= ParseNat(code[..3]) <= 599
  {
    if |code| == 3 || (|code| == 4 && code[3] == '\n') {
      var t := code[..3];
      if AllDigits(t) {
        assert t[..2][..1] == t[..1];
        assert ParseNat(t[..1]) == DigitValue(t[0]);
        assert ParseNat(t[..2]) == DigitValue(t[0]) * 10 + DigitValue(t[1]);
        assert ParseNat(t) == (DigitValue(t[0]) * 10 + DigitValue(t[1])) * 10 + DigitValue(t[2]);
      }
    }
  }

  lemma {:induction false} NatToStringLength(n: nat)
    ensures n < 10 ==> |NatToString(n)| == 1
    ensures 10 <= n < 100 ==> |NatToString(n)| == 2
    ensures 100 <= n < 1000 ==> |NatToString(n)| == 3
    ensures n >= 1000 ==> |NatToString(n)| >= 4
    decreases n
  {
    if n >= 10 {
      NatToStringLength(n / 10);
    }
  }

  /** An integer key, as PHP stores `200:`, passes exactly when it lies
      between 100 and 599. */
  lemma IntStatusAccepted(n: int)
    ensures StatusOk(KeyText(IntKey(n))) <==> 100 <= n <= 599
  {
    var s := KeyText(IntKey(n));
    if n >= 0 {
      NatToStringLength(n);
      ParseNatToString(n);
      StatusOkRange(s);
      if |s| >= 3 {
        assert s[..3] == s || |s| >= 4;
      }
      if 100 <= n <= 599 {
        assert s[..3] == s;
      }
    } else {
      assert s[0] == '-';
    }
  }

  /** `2XX` is flagged, as is `600`; `200` and `default` are not. */
  lemma StatusExamples()
    ensures StatusOk("200") && StatusOk("599") && StatusOk("200\n")
    ensures !StatusOk("2XX") && !StatusOk("600") && !StatusOk("20") && !StatusOk("default")
  {
  }

  /** A key is flagged unless it is `default` or a status code. */
  predicate Rejected(k: Key) {
    KeyText(k) != "default" && !StatusOk(KeyText(k))
  }

  function StatusIssue(pointer: string, k: Key): (e: Issue)
    ensures e.pointer == pointer && e.code == StatusCode && e.severity == Error
  {
    ErrorAt(pointer, StatusCode, "Invalid response status code key '" + KeyText(k) + "'. Expected 'default' or 3-digit HTTP code 100-599.")
  }

  /** The loop over the response keys, in map order. */
  function StatusIssues(pointer: string, keys: seq<Key>): (r: seq<Issue>)
    ensures |r| <= |keys|
    ensures r == [] <==> forall i :: 0 <= i < |keys| ==> !Rejected(keys[i])
    ensures forall e :: e in r ==> e.pointer == pointer && e.code == StatusCode
    ensures forall k :: k in keys && Rejected(k) ==> StatusIssue(pointer, k) in r
    decreases |keys|
  {
    if keys == [] then []
    else
      var rest := StatusIssues(pointer, keys[1..]);
      assert forall i :: 1 <= i < |keys| ==> keys[i] == keys[1..][i - 1];
      assert forall k :: k in keys ==> k == keys[0] || k in keys[1..];
      if Rejected(keys[0]) then [StatusIssue(pointer, keys[0])] + rest else rest
  }

  /** Each rejected key is reported once: the number of reports is the
      number of rejected keys. */
  lemma {:induction false} StatusIssuesCount(pointer: string, keys: seq<Key>)
    ensures |StatusIssues(pointer, keys)| == |RejectedKeys(keys)|
    decreases |keys|
  {
    if keys != [] {
      StatusIssuesCount(pointer, keys[1..]);
    }
  }

  function RejectedKeys(keys: seq<Key>): (r: seq<Key>)
    ensures forall k :: k in r <==> k in keys && Rejected(k)
    decreases |keys|
  {
    if keys == [] then []
    else
      assert forall k :: k in keys <==> k == keys[0] || k in keys[1..];
      (if Rejected(keys[0]) then [keys[0]] else []) + RejectedKeys(keys[1..])
  }

  /** `ResponsesStatusCodeRule::validate`. */
  function ResponsesIssues(node: Node, ctx: Context): (r: seq<Issue>)
    ensures !node.OperationNode? || node.op.responses.None? ==> r == []
    ensures node.OperationNode? && node.op.responses.Some? ==>
      (r == [] <==> forall i :: 0 <= i < |node.op.responses.value| ==> !Rejected(node.op.responses.value[i]))
    ensures forall e :: e in r ==> e.pointer == ctx.pointer && e.code == StatusCode
    // one report per rejected key
    ensures node.OperationNode? && node.op.responses.Some? ==>
      && |r| == |RejectedKeys(node.op.responses.value)|
      && forall k :: k in node.op.responses.value && Rejected(k) ==> StatusIssue(ctx.pointer, k) in r
  {
    if !node.OperationNode? then []
    else match node.op.responses
      case None => []
      case Some(keys) =>
        StatusIssuesCount(ctx.pointer, keys);
        StatusIssues(ctx.pointer, keys)
  }

  // ---------------------------------------------------------------------------
  // UniqueOperationIdRule

  const DuplicateCode := "operation.operationId.duplicate"

  /** The rule's `seen` property: operation id to the pointer of its first
      use. */
  type Seen = map<string, string>

  /** The id the rule tracks for a node: a non-empty operation id. */
  function TrackedId(node: Node): (r: Option<string>)
    ensures r.Some? ==> r.value != "" && node.OperationNode? && node.op.operationId == r
    ensures node.OperationNode? && node.op.operationId.Some? && node.op.operationId.value != "" ==> r.Some?
  {
    if node.OperationNode? && node.op.operationId.Some? && node.op.operationId.value != ""
    then node.op.operationId else None
  }

  /** `UniqueOperationIdRule::validate`, returning the rule's state after
      the call. */
  function UniqueIdIssues(seen: Seen, node: Node, pointer: string): (out: (seq<Issue>, Seen))
    ensures TrackedId(node).None? ==> out == ([], seen)
    ensures TrackedId(node).Some? && TrackedId(node).value in seen ==>
      && |out.0| == 1 && out.0[0].code == DuplicateCode && out.0[0].pointer == pointer
      && out.1 == seen
    ensures TrackedId(node).Some? && TrackedId(node).value !in seen ==>
      out.0 == [] && out.1 == seen[TrackedId(node).value := pointer]
  {
    match TrackedId(node)
    case None => ([], seen)
    case Some(id) =>
      if id in seen then
        ([ErrorAt(pointer, DuplicateCode, "operationId '" + id + "' must be unique (already used at " + seen[id] + ").")], seen)
      else ([], seen[id := pointer])
  }

  /** One call of `validate`: the node and the context's pointer. */
  datatype Visit = Visit(node: Node, pointer: string)

  /** A run of the same rule instance over visits, in order: the reports of
      each call and the final state. */
  function Run(seen: Seen, visits: seq<Visit>): (out: (seq<seq<Issue>>, Seen))
    ensures |out.0| == |visits|
    decreases |visits|
  {
    if visits == [] then ([], seen)
    else
      var (reports, s) := Run(seen, visits[..|visits| - 1]);
      var last := visits[|visits| - 1];
      var (e, s') := UniqueIdIssues(s, last.node, last.pointer);
      (reports + [e], s')
  }

  /** The state after a run knows the ids it started with and every tracked
      id visited; an id it started with keeps its pointer. */
  lemma {:induction false} RunSeen(seen: Seen, visits: seq<Visit>)
    ensures forall id :: id in Run(seen, visits).1 <==>
      id in seen || exists j :: 0 <= j < |visits| && TrackedId(visits[j].node) == Some(id)
    ensures forall id :: id in seen ==> Run(seen, visits).1[id] == seen[id]
    decreases |visits|
  {
    if visits != [] {
      var init := visits[..|visits| - 1];
      RunSeen(seen, init);
      assert forall j :: 0 <= j < |init| ==> init[j] == visits[j];
      forall id | id in Run(seen, visits).1
        ensures id in seen || exists j :: 0 <= j < |visits| && TrackedId(visits[j].node) == Some(id)
      {
        if id !in Run(seen, init).1 {
          assert TrackedId(visits[|visits| - 1].node) == Some(id);
        }
      }
    }
  }

  /** Call `k` of a run reports a duplicate exactly when its id was known
      at the start or used by an earlier call; otherwise it reports nothing. */
  lemma {:induction false} RunReports(seen: Seen, visits: seq<Visit>, k: nat)
    requires k < |visits|
    ensures var id := TrackedId(visits[k].node);
      |Run(seen, visits).0[k]| == (if id.Some? && (id.value in seen ||
        exists j :: 0 <= j < k && TrackedId(visits[j].node) == id) then 1 else 0)
    decreases |visits|
  {
    var init := visits[..|visits| - 1];
    assert forall j :: 0 <= j < |init| ==> init[j] == visits[j];
    if k < |visits| - 1 {
      RunReports(seen, init, k);
    } else {
      RunSeen(seen, init);
    }
  }
}

=== FILE: schema.dfy ===
/** The Schema object (section 4.8.24 of the OpenAPI Specification): the
    list and type invariants its constructor checks, boolean schemas, and
    the bag of keywords it does not know. The many sub-schema fields are
    not kept: the constructor checks nothing about them. */
module Schemas {
  import opened Wrappers
  import opened Json
  import opened Extensions

  /** `bool|array $raw`: a boolean schema or a keyword array. */
  datatype Raw = BoolSchema(b: bool) | Keywords(entries: Entries)

  /** `string|array|null $type`. */
  datatype TypeDecl = NoType | TypeName(name: string) | TypeNames(names: Entries)

  datatype Schema = Schema(
    raw: Raw,
    schemaType: TypeDecl,
    enumValues: Entries,
    constValue: Json,
    required: Entries,
    examples: Entries,
    extraKeywords: Entries,
    extensions: Entries)

  /** A PHP list whose every element is a non-empty string. */
  predicate NameList(e: Entries) {
    ArrayIsList(e) && forall i :: 0 <= i < |e| ==> e[i].1.Str? && e[i].1.s != ""
  }

  predicate ValidType(t: TypeDecl) {
    match t
    case NoType => true
    case TypeName(n) => n != ""
    case TypeNames(ns) => NameList(ns)
  }

  predicate Valid(s: Schema) {
    && ArrayIsList(s.enumValues)
    && NameList(s.required)
    && ArrayIsList(s.examples)
    && ValidType(s.schemaType)
    && ExtensionKeys(s.extensions)
  }

  /** The `foreach` over a list of names from position `i` on: the first
      element that is not a non-empty string, if any. */
  function FirstBadName(e: Entries, i: nat): (r: Option<nat>)
    requires i <= |e|
    ensures r.None? <==> forall j :: i <= j < |e| ==> e[j].1.Str? && e[j].1.s != ""
    ensures r.Some? ==> i <= r.value < |e| && !(e[r.value].1.Str? && e[r.value].1.s != "")
    decreases |e| - i
  {
    if i == |e| then None
    else if !(e[i].1.Str? && e[i].1.s != "") then Some(i)
    else FirstBadName(e, i + 1)
  }

  /** `new Schema(...)`: enum, required, examples, type, then extension
      keys. The `raw` check of the source cannot fail on the typed
      argument. */
  function New(s: Schema): (r: Result<Schema, Invalid>)
    ensures r.Success? <==> Valid(s)
    ensures r.Success? ==> r.value == s
  {
    if !ArrayIsList(s.enumValues) then Failure(Violation("enum"))
    else if !ArrayIsList(s.required) then Failure(Violation("required"))
    else if FirstBadName(s.required, 0).Some? then Failure(Violation("required"))
    else if !ArrayIsList(s.examples) then Failure(Violation("examples"))
    else if s.schemaType.TypeNames? && !ArrayIsList(s.schemaType.names) then Failure(Violation("type"))
    else if s.schemaType.TypeNames? && FirstBadName(s.schemaType.names, 0).Some? then Failure(Violation("type"))
    else if s.schemaType == TypeName("") then Failure(Violation("type"))
    else if FirstBadKey(s.extensions).Some? then Failure(BadExtensionKey(FirstBadKey(s.extensions).value))
    else Success(s)
  }

  /** `isBooleanSchema()`. */
  predicate IsBooleanSchema(s: Schema) {
    s.raw.BoolSchema?
  }

  /** `hasExtra($keyword)`: `array_key_exists`, so a keyword stored with a
      `null` value is present. */
  predicate HasExtra(s: Schema, keyword: string) {
    ToKey(keyword) in Keys(s.extraKeywords)
  }

  /** `extra($keyword)`: `extraKeywords[$keyword] ?? null`. */
  function Extra(s: Schema, keyword: string): (v: Json)
    ensures !HasExtra(s, keyword) ==> v == Null
    ensures HasExtra(s, keyword) ==> Get(s.extraKeywords, ToKey(keyword)) == Some(v)
  {
    Get(s.extraKeywords, ToKey(keyword)).GetOr(Null)
  }

  /** `extra` cannot tell an absent keyword from one stored as `null`;
      `hasExtra` can. */
  lemma NullExtraIsPresent(s: Schema, keyword: string)
    requires s.extraKeywords == [(ToKey(keyword), Null)]
    ensures HasExtra(s, keyword) && Extra(s, keyword) == Null
    ensures !HasExtra(s.(extraKeywords := []), keyword) && Extra(s.(extraKeywords := []), keyword) == Null
  {
    assert Keys(s.extraKeywords) == [ToKey(keyword)];
  }

  /** Every type name of a valid schema is a non-empty string, whichever
      form `type` takes. */
  lemma TypeNamesNonEmpty(s: Schema)
    requires Valid(s)
    ensures s.schemaType.TypeName? ==> s.schemaType.name != ""
    ensures s.schemaType.TypeNames? ==>
      forall i :: 0 <= i < |s.schemaType.names| ==>
        s.schemaType.names[i].0 == IntKey(i) && s.schemaType.names[i].1.Str? && s.schemaType.names[i].1.s != ""
  {
  }

  /** The required property names of a valid schema sit at keys 0..n-1 and
      are non-empty strings. */
  lemma RequiredIsNameList(s: Schema)
    requires Valid(s)
    ensures forall i :: 0 <= i < |s.required| ==> s.required[i].0 == IntKey(i) && s.required[i].1.Str? && s.required[i].1.s != ""
  {
  }
}

=== FILE: security.dfy ===
/** The Security Scheme object (section 4.8.27 of the OpenAPI Specification):
    which fields each scheme type requires and which it forbids. The flows of
    an OAuth2 scheme are kept only as far as `OAuthFlows::hasAny` needs. */
module SecuritySchemes {
  import opened Wrappers
  import opened Json
  import opened Extensions
  import opened Parameters

  datatype SchemeType = ApiKey | Http | MutualTLS | OAuth2 | OpenIdConnect

  /** `OAuthFlows`: each flow object is kept as its decoded array. */
  datatype OAuthFlows = OAuthFlows(
    implicit: Option<Json>,
    password: Option<Json>,
    clientCredentials: Option<Json>,
    authorizationCode: Option<Json>,
    deviceAuthorization: Option<Json>,
    extensions: Entries)

  /** `OAuthFlows::hasAny()`. */
  predicate HasAnyFlow(f: OAuthFlows) {
    f.implicit.Some? || f.password.Some? || f.clientCredentials.Some? ||
    f.authorizationCode.Some? || f.deviceAuthorization.Some?
  }

  /** The constructor arguments of `SecurityScheme`. */
  datatype SecurityScheme = SecurityScheme(
    kind: SchemeType,
    description: Option<string>,
    name: Option<string>,
    location: Option<ParameterIn>,
    scheme: Option<string>,
    bearerFormat: Option<string>,
    flows: Option<OAuthFlows>,
    openIdConnectUrl: Option<string>,
    oauth2MetadataUrl: Option<string>,
    deprecated: bool,
    extensions: Entries)

  predicate NonEmpty(s: Option<string>) {
    s.Some? && s.value != ""
  }

  /** The per-type rules of the constructor's `switch`. */
  predicate FieldsFit(s: SecurityScheme) {
    match s.kind
    case ApiKey =>
      && NonEmpty(s.name) && s.location.Some? && s.location.value in {Query, Header, Cookie}
      && s.scheme.None? && s.bearerFormat.None? && s.flows.None? && s.openIdConnectUrl.None?
    case Http =>
      && NonEmpty(s.scheme)
      && s.name.None? && s.location.None? && s.flows.None? && s.openIdConnectUrl.None?
    case MutualTLS =>
      && s.name.None? && s.location.None? && s.scheme.None? && s.bearerFormat.None?
      && s.flows.None? && s.openIdConnectUrl.None?
    case OAuth2 =>
      && s.flows.Some? && HasAnyFlow(s.flows.value)
      && s.name.None? && s.location.None? && s.scheme.None? && s.bearerFormat.None? && s.openIdConnectUrl.None?
    case OpenIdConnect =>
      && NonEmpty(s.openIdConnectUrl)
      && s.name.None? && s.location.None? && s.scheme.None? && s.bearerFormat.None? && s.flows.None?
      && s.oauth2MetadataUrl.None?
  }

  predicate Valid(s: SecurityScheme) {
    ExtensionKeys(s.extensions) && FieldsFit(s)
  }

  /** The apiKey branch, in the constructor's order. */
  function CheckApiKey(s: SecurityScheme): (r: Option<Invalid>)
    requires s.kind == ApiKey
    ensures r.None? <==> FieldsFit(s)
  {
    if !NonEmpty(s.name) then Some(Violation("name"))
    else if s.location.None? then Some(Violation("in"))
    else if s.location.value !in {Query, Header, Cookie} then Some(Violation("in"))
    else if s.scheme.Some? || s.bearerFormat.Some? || s.flows.Some? || s.openIdConnectUrl.Some? then Some(Violation("apiKey"))
    else None
  }

  /** The http branch. */
  function CheckHttp(s: SecurityScheme): (r: Option<Invalid>)
    requires s.kind == Http
    ensures r.None? <==> FieldsFit(s)
  {
    if !NonEmpty(s.scheme) then Some(Violation("scheme"))
    else if s.name.Some? || s.location.Some? || s.flows.Some? || s.openIdConnectUrl.Some? then Some(Violation("http"))
    else None
  }

  /** The oauth2 branch. */
  function CheckOAuth2(s: SecurityScheme): (r: Option<Invalid>)
    requires s.kind == OAuth2
    ensures r.None? <==> FieldsFit(s)
  {
    if s.flows.None? || !HasAnyFlow(s.flows.value) then Some(Violation("flows"))
    else if s.name.Some? || s.location.Some? || s.scheme.Some? || s.bearerFormat.Some? || s.openIdConnectUrl.Some? then Some(Violation("oauth2"))
    else None
  }

  /** The openIdConnect branch. */
  function CheckOpenIdConnect(s: SecurityScheme): (r: Option<Invalid>)
    requires s.kind == OpenIdConnect
    ensures r.None? <==> FieldsFit(s)
  {
    if !NonEmpty(s.openIdConnectUrl) then Some(Violation("openIdConnectUrl"))
    else if s.name.Some? || s.location.Some? || s.scheme.Some? || s.bearerFormat.Some? || s.flows.Some? then Some(Violation("openIdConnect"))
    else if s.oauth2MetadataUrl.Some? then Some(Violation("oauth2MetadataUrl"))
    else None
  }

  /** `new SecurityScheme(...)`: extension keys first, then the branch of
      the scheme's type. */
  function New(s: SecurityScheme): (r: Result<SecurityScheme, Invalid>)
    ensures r.Success? <==> Valid(s)
    ensures r.Success? ==> r.value == s
    ensures r.Failure? && r.error.BadExtensionKey? ==> r.error.key in Keys(s.extensions)
  {
    if FirstBadKey(s.extensions).Some? then Failure(BadExtensionKey(FirstBadKey(s.extensions).value))
    else
      var check := match s.kind
        case ApiKey => CheckApiKey(s)
        case Http => CheckHttp(s)
        case MutualTLS =>
          if s.name.Some? || s.location.Some? || s.scheme.Some? || s.bearerFormat.Some? ||
             s.flows.Some? || s.openIdConnectUrl.Some?
          then Some(Violation("mutualTLS")) else None
        case OAuth2 => CheckOAuth2(s)
        case OpenIdConnect => CheckOpenIdConnect(s);
      if check.Some? then Failure(check.value) else Success(s)
  }

  /** `hasDescription()`. */
  predicate HasDescription(s: SecurityScheme) {
    NonEmpty(s.description)
  }

  /** In a valid scheme each type-specific field is present exactly for its
      own type; `bearerFormat` may appear only on http schemes. */
  lemma FieldsByType(s: SecurityScheme)
    requires Valid(s)
    ensures s.name.Some? <==> s.kind == ApiKey
    ensures s.location.Some? <==> s.kind == ApiKey
    ensures s.scheme.Some? <==> s.kind == Http
    ensures s.flows.Some? <==> s.kind == OAuth2
    ensures s.openIdConnectUrl.Some? <==> s.kind == OpenIdConnect
    ensures s.bearerFormat.Some? ==> s.kind == Http
    ensures s.oauth2MetadataUrl.Some? ==> s.kind != OpenIdConnect
  {
  }

  /** An apiKey scheme is never passed in the path, and every oauth2 scheme
      has at least one flow. */
  lemma RequiredParts(s: SecurityScheme)
    requires Valid(s)
    ensures s.kind == ApiKey ==> s.location.value != Path && s.name.value != ""
    ensures s.kind == OAuth2 ==> HasAnyFlow(s.flows.value)
  {
  }
}

/** The Security Requirement object (section 4.8.30 of the OpenAPI
    Specification): scheme names mapped to lists of scope names. */
module SecurityRequirements {
  import opened Wrappers
  import opened Text
  import opened Json
  import opened Extensions

  datatype SecurityRequirement = SecurityRequirement(requirements: Entries, extensions: Entries)

  /** A scope list: a PHP list, possibly empty, of non-empty strings. */
  predicate ScopeList(j: Json) {
    j.Arr? && ArrayIsList(j.entries) &&
    forall i :: 0 <= i < |j.entries| ==> j.entries[i].1.Str? && j.entries[i].1.s != ""
  }

  predicate SchemeKey(k: Key) {
    k.StrKey? && k.s != ""
  }

  predicate Valid(r: SecurityRequirement) {
    && (forall i :: 0 <= i < |r.requirements| ==> SchemeKey(r.requirements[i].0) && ScopeList(r.requirements[i].1))
    && ExtensionKeys(r.extensions)
  }

  /** The constructor's loop over the requirements from position `i` on. */
  function CheckFrom(req: Entries, i: nat): (r: Option<Invalid>)
    requires i <= |req|
    ensures r.None? <==> forall j :: i <= j < |req| ==> SchemeKey(req[j].0) && ScopeList(req[j].1)
    decreases |req| - i
  {
    if i == |req| then None
    else if !SchemeKey(req[i].0) then Some(Violation("scheme"))
    else if !(req[i].1.Arr? && ArrayIsList(req[i].1.entries)) then Some(Violation("scopes"))
    else if !ScopeList(req[i].1) then Some(Violation("scope"))
    else CheckFrom(req, i + 1)
  }

  /** `new SecurityRequirement(...)`: the requirements first, then the
      extension keys. */
  function New(s: SecurityRequirement): (r: Result<SecurityRequirement, Invalid>)
    ensures r.Success? <==> Valid(s)
    ensures r.Success? ==> r.value == s
  {
    match CheckFrom(s.requirements, 0)
    case Some(e) => Failure(e)
    case None =>
      if FirstBadKey(s.extensions).Some? then Failure(BadExtensionKey(FirstBadKey(s.extensions).value))
      else Success(s)
  }

  /** `hasAny()`. */
  predicate HasAny(s: SecurityRequirement) {
    s.requirements != []
  }

  /** `has($schemeName)`. */
  predicate Has(s: SecurityRequirement, name: string) {
    ToKey(name) in Keys(s.requirements)
  }

  /** `scopes($schemeName)`: the scope list, or `[]` when the scheme is not
      named. */
  function Scopes(s: SecurityRequirement, name: string): (j: Json)
    ensures !Has(s, name) ==> j == Arr([])
    ensures Has(s, name) ==> Get(s.requirements, ToKey(name)) == Some(j)
  {
    Get(s.requirements, ToKey(name)).GetOr(Arr([]))
  }

  /** `schemeNames()`: the keys in order, as strings. */
  function SchemeNames(s: SecurityRequirement): (names: seq<string>)
    ensures |names| == |s.requirements|
    ensures forall i :: 0 <= i < |names| && WellKeyed(s.requirements[i].0) ==> ToKey(names[i]) == s.requirements[i].0
  {
    var names := seq(|s.requirements|, i requires 0 <= i < |s.requirements| => KeyText(s.requirements[i].0));
    KeyTextsRoundTrip(s.requirements, names);
    names
  }

  lemma KeyTextsRoundTrip(e: Entries, names: seq<string>)
    requires |names| == |e| && forall i :: 0 <= i < |e| ==> names[i] == KeyText(e[i].0)
    ensures forall i :: 0 <= i < |e| && WellKeyed(e[i].0) ==> ToKey(names[i]) == e[i].0
  {
    forall i | 0 <= i < |e| && WellKeyed(e[i].0)
      ensures ToKey(names[i]) == e[i].0
    {
      KeyRoundTrip(e[i].0);
    }
  }

  /** Whatever name is asked for, a valid requirement answers with a list of
      non-empty scope names. */
  lemma ScopesAreLists(s: SecurityRequirement, name: string)
    requires Valid(s)
    ensures ScopeList(Scopes(s, name))
  {
    if Has(s, name) {
      var i := Find(s.requirements, ToKey(name)).value;
      assert Get(s.requirements, ToKey(name)) == Some(s.requirements[i].1);
    } else {
      assert ArrayIsList([]);
    }
  }

  /** Every listed scheme name is non-empty and is one `has` recognises; a
      requirement lists some scheme exactly when `hasAny` holds. */
  lemma SchemeNamesAreKeys(s: SecurityRequirement)
    requires Valid(s)
    requires forall i :: 0 <= i < |s.requirements| ==> WellKeyed(s.requirements[i].0)
    ensures forall i :: 0 <= i < |SchemeNames(s)| ==> SchemeNames(s)[i] != "" && Has(s, SchemeNames(s)[i])
    ensures HasAny(s) <==> |SchemeNames(s)| > 0
  {
    forall i | 0 <= i < |SchemeNames(s)|
      ensures SchemeNames(s)[i] != "" && Has(s, SchemeNames(s)[i])
    {
      assert Keys(s.requirements)[i] == s.requirements[i].0;
    }
  }
}

=== FILE: serializer.dfy ===
/** `DefaultSerializer::toArray` and its `pruneEmpty` pass: drops `null`s and
    meaningless empty arrays from a normalized document while keeping the
    empty scope lists of security requirements, which OpenAPI gives meaning. */
module Serializer {
  import opened Wrappers
  import opened Text
  import opened Json

  /** A value of the profile's `extra` flag dictionary. */
  datatype Flag = BoolFlag(b: bool) | IntFlag(i: int) | StrFlag(s: string)

  /** PHP's truthiness for the three flag types. */
  predicate Truthy(f: Flag) {
    match f
    case BoolFlag(b) => b
    case IntFlag(i) => i != 0
    case StrFlag(s) => s != "" && s != "0"
  }

  /** `FeatureSet::extraFlag($name, $default)`. */
  function ExtraFlag(extra: map<string, Flag>, name: string, default: Flag): (f: Flag)
    ensures name !in extra ==> f == default
    ensures name in extra ==> f == extra[name]
  {
    if name in extra then extra[name] else default
  }

  /** `extraFlag('preserveEmpty.' . $key, false)` is truthy. */
  predicate Preserved(extra: map<string, Flag>, key: string) {
    Truthy(ExtraFlag(extra, "preserveEmpty." + key, BoolFlag(false)))
  }

  const Requirements := StrKey("requirements")

  /** A value that counts as empty next to `requirements`: `null` or `[]`. */
  predicate Blank(j: Json) {
    j == Null || j == Arr([])
  }

  /** The lift of step 0: an object holding an array under `requirements`
      and nothing else that is not blank. */
  predicate Lifts(e: Entries) {
    !ArrayIsList(e) && Get(e, Requirements).Some? && Get(e, Requirements).value.Arr? &&
    forall i :: 0 <= i < |e| && e[i].0 != Requirements ==> Blank(e[i].1)
  }

  /** Whether a pruned child stays, given the flags, the parent's shape, the
      scope mode and the path of the PARENT (not including the child's key). */
  predicate Kept(extra: map<string, Flag>, key: string, v: Json, parentIsList: bool,
                 path: seq<string>, preserveScopes: bool) {
    if Preserved(extra, key) then true
    else if v == Null then false
    else if v == Arr([]) then
      !(parentIsList && !preserveScopes) &&
      (preserveScopes || "requirements" in path || "security" in path)
    else true
  }

  /** `pruneEmpty($value, $profile, $path, $preserveScopes)`. */
  function PruneEmpty(value: Json, extra: map<string, Flag>, path: seq<string>, preserveScopes: bool): (r: Json)
    ensures !value.Arr? ==> r == value
    ensures value.Arr? ==> r.Arr?
    ensures value.Arr? && !Lifts(value.entries) ==>
      && (forall i :: 0 <= i < |r.entries| ==> r.entries[i].0 in Keys(value.entries))
      && (forall i :: 0 <= i < |r.entries| ==>
            Kept(extra, KeyText(r.entries[i].0), r.entries[i].1, ArrayIsList(value.entries), path, preserveScopes))
      && FromInput(r.entries, value.entries, 0, extra, path, preserveScopes)
      && Survives(r.entries, value.entries, 0, extra, path, preserveScopes, ArrayIsList(value.entries))
    decreases value, 2, 0
  {
    if !value.Arr? then value
    else if Lifts(value.entries) then
      var j := Find(value.entries, Requirements).value;
      PruneEmpty(value.entries[j].1, extra, path, true)
    else
      Arr(PruneFrom(value.entries, 0, extra, path, preserveScopes, ArrayIsList(value.entries)))
  }

  /** Step 0 of `pruneEmpty`: a wrapper holding an array under
      `requirements` and only blank members besides is replaced by that
      array, pruned in scope mode under the same path. */
  lemma PruneLift(value: Json, extra: map<string, Flag>, path: seq<string>, preserveScopes: bool)
    requires value.Arr? && Lifts(value.entries)
    ensures PruneEmpty(value, extra, path, preserveScopes) ==
      PruneEmpty(Get(value.entries, Requirements).value, extra, path, true)
  {
    var j := Find(value.entries, Requirements).value;
    assert Get(value.entries, Requirements) == Some(value.entries[j].1);
  }

  /** A child as the loop leaves it: an array is pruned under the path
      extended with the child's key, anything else is unchanged. */
  function PruneChild(kv: (Key, Json), extra: map<string, Flag>, path: seq<string>, preserveScopes: bool): (r: Json)
    ensures !kv.1.Arr? ==> r == kv.1
    ensures kv.1.Arr? ==> r.Arr?
    decreases kv.1, 3
  {
    if kv.1.Arr? then PruneEmpty(kv.1, extra, path + [KeyText(kv.0)], preserveScopes) else kv.1
  }

  /** The entries of `e[i..]` with their values pruned, in order. */
  function Pruned(e: Entries, i: nat, extra: map<string, Flag>, path: seq<string>, preserveScopes: bool): (r: Entries)
    requires i <= |e|
    ensures |r| == |e| - i
    ensures forall j :: 0 <= j < |r| ==> r[j] == (e[i + j].0, PruneChild(e[i + j], extra, path, preserveScopes))
    decreases Arr(e), 0, |e| - i
  {
    if i == |e| then []
    else [(e[i].0, PruneChild(e[i], extra, path, preserveScopes))] + Pruned(e, i + 1, extra, path, preserveScopes)
  }

  /** Every entry of `r` is an entry of `e[i..]` with its value pruned. */
  predicate FromInput(r: Entries, e: Entries, i: nat, extra: map<string, Flag>, path: seq<string>, preserveScopes: bool)
    requires i <= |e|
    decreases Arr(e), 0, |e| - i + 1
  {
    forall j :: 0 <= j < |r| ==> r[j] in Pruned(e, i, extra, path, preserveScopes)
  }

  /** Every entry of `e[i..]` whose pruned value passes the keep test is in `r`. */
  predicate Survives(r: Entries, e: Entries, i: nat, extra: map<string, Flag>, path: seq<string>,
                     preserveScopes: bool, parentIsList: bool)
    requires i <= |e|
    decreases Arr(e), 0, |e| - i + 1
  {
    forall x ::
      (x in Pruned(e, i, extra, path, preserveScopes) &&
       Kept(extra, KeyText(x.0), x.1, parentIsList, path, preserveScopes)) ==> x in r
  }

  /** The loop of `pruneEmpty` from position `i` on: each child is pruned
      under the path extended with its key, then kept or dropped. Every
      survivor is a pruned input entry that passes the keep test, and every
      pruned input entry that passes it survives. */
  function PruneFrom(e: Entries, i: nat, extra: map<string, Flag>, path: seq<string>,
                     preserveScopes: bool, parentIsList: bool): (r: Entries)
    requires i <= |e|
    ensures forall j :: 0 <= j < |r| ==> r[j].0 in Keys(e[i..])
    ensures forall j :: 0 <= j < |r| ==> Kept(extra, KeyText(r[j].0), r[j].1, parentIsList, path, preserveScopes)
    ensures FromInput(r, e, i, extra, path, preserveScopes)
    ensures Survives(r, e, i, extra, path, preserveScopes, parentIsList)
    decreases Arr(e), 1, |e| - i
  {
    if i == |e| then []
    else
      var v' := PruneChild(e[i], extra, path, preserveScopes);
      var rest := PruneFrom(e, i + 1, extra, path, preserveScopes, parentIsList);
      var r := if Kept(extra, KeyText(e[i].0), v', parentIsList, path, preserveScopes) then [(e[i].0, v')] + rest else rest;
      PruneFromCons(e, i, extra, path, preserveScopes, parentIsList, rest, r);
      r
  }

  /** One turn of the loop of `pruneEmpty` keeps the survivors exactly the
      pruned entries that pass the keep test. */
  lemma PruneFromCons(e: Entries, i: nat, extra: map<string, Flag>, path: seq<string>,
                      preserveScopes: bool, parentIsList: bool, rest: Entries, r: Entries)
    requires i < |e|
    requires forall j :: 0 <= j < |rest| ==> rest[j].0 in Keys(e[i + 1..])
    requires forall j :: 0 <= j < |rest| ==> Kept(extra, KeyText(rest[j].0), rest[j].1, parentIsList, path, preserveScopes)
    requires FromInput(rest, e, i + 1, extra, path, preserveScopes)
    requires Survives(rest, e, i + 1, extra, path, preserveScopes, parentIsList)
    requires var v' := PruneChild(e[i], extra, path, preserveScopes);
      r == if Kept(extra, KeyText(e[i].0), v', parentIsList, path, preserveScopes) then [(e[i].0, v')] + rest else rest
    ensures forall j :: 0 <= j < |r| ==> r[j].0 in Keys(e[i..])
    ensures forall j :: 0 <= j < |r| ==> Kept(extra, KeyText(r[j].0), r[j].1, parentIsList, path, preserveScopes)
    ensures FromInput(r, e, i, extra, path, preserveScopes)
    ensures Survives(r, e, i, extra, path, preserveScopes, parentIsList)
    decreases Arr(e), 0, |e| - i + 3
  {
    KeptCons(e, i, extra, path, preserveScopes, parentIsList, PruneChild(e[i], extra, path, preserveScopes), rest, r);
    FromInputCons(e, i, extra, path, preserveScopes, rest, r);
    SurvivesCons(e, i, extra, path, preserveScopes, parentIsList, rest, r);
  }

  /** A turn keeps the survivors' keys among the input's and their values
      passing the keep test. */
  lemma KeptCons(e: Entries, i: nat, extra: map<string, Flag>, path: seq<string>,
                 preserveScopes: bool, parentIsList: bool, v': Json, rest: Entries, r: Entries)
    requires i < |e|
    requires forall j :: 0 <= j < |rest| ==> rest[j].0 in Keys(e[i + 1..])
    requires forall j :: 0 <= j < |rest| ==> Kept(extra, KeyText(rest[j].0), rest[j].1, parentIsList, path, preserveScopes)
    requires r == if Kept(extra, KeyText(e[i].0), v', parentIsList, path, preserveScopes) then [(e[i].0, v')] + rest else rest
    ensures forall j :: 0 <= j < |r| ==> r[j].0 in Keys(e[i..])
    ensures forall j :: 0 <= j < |r| ==> Kept(extra, KeyText(r[j].0), r[j].1, parentIsList, path, preserveScopes)
  {
    assert Keys(e[i..]) == [e[i].0] + Keys(e[i + 1..]);
    if r != rest {
      assert forall j :: 1 <= j < |r| ==> r[j] == rest[j - 1];
    }
  }

  /** A turn drops an entry only when its pruned value fails the keep test. */
  lemma SurvivesCons(e: Entries, i: nat, extra: map<string, Flag>, path: seq<string>,
                     preserveScopes: bool, parentIsList: bool, rest: Entries, r: Entries)
    requires i < |e|
    requires Survives(rest, e, i + 1, extra, path, preserveScopes, parentIsList)
    requires var v' := PruneChild(e[i], extra, path, preserveScopes);
      r == if Kept(extra, KeyText(e[i].0), v', parentIsList, path, preserveScopes) then [(e[i].0, v')] + rest else rest
    ensures Survives(r, e, i, extra, path, preserveScopes, parentIsList)
    decreases Arr(e), 0, |e| - i + 2
  {
    var x0 := (e[i].0, PruneChild(e[i], extra, path, preserveScopes));
    PrunedCons(e, i, extra, path, preserveScopes);
    assert forall x :: x in rest ==> x in r;
  }

  /** The entry a turn adds, if any, is the pruned entry at `i`. */
  lemma FromInputCons(e: Entries, i: nat, extra: map<string, Flag>, path: seq<string>,
                      preserveScopes: bool, rest: Entries, r: Entries)
    requires i < |e|
    requires FromInput(rest, e, i + 1, extra, path, preserveScopes)
    requires r == rest || r == [(e[i].0, PruneChild(e[i], extra, path, preserveScopes))] + rest
    ensures FromInput(r, e, i, extra, path, preserveScopes)
    decreases Arr(e), 0, |e| - i + 2
  {
    PrunedCons(e, i, extra, path, preserveScopes);
    assert forall x :: x in r ==> x in rest || x == (e[i].0, PruneChild(e[i], extra, path, preserveScopes));
  }

  /** `Pruned` from `i` is the pruned entry at `i`, then the rest. */
  lemma PrunedCons(e: Entries, i: nat, extra: map<string, Flag>, path: seq<string>, preserveScopes: bool)
    requires i < |e|
    ensures Pruned(e, i, extra, path, preserveScopes) ==
      [(e[i].0, PruneChild(e[i], extra, path, preserveScopes))] + Pruned(e, i + 1, extra, path, preserveScopes)
    decreases Arr(e), 0, |e| - i + 1
  {
  }

  /** `toArray` after normalization: pruning is on unless the `pruneEmpty`
      flag is set to something falsy. The normalizer itself is not modelled;
      its output is the argument. */
  function ToArray(normalized: Json, extra: map<string, Flag>): (r: Json)
    ensures "pruneEmpty" !in extra ==> r == PruneEmpty(normalized, extra, [], false)
    ensures "pruneEmpty" in extra && !Truthy(extra["pruneEmpty"]) ==> r == normalized
    ensures "pruneEmpty" in extra && Truthy(extra["pruneEmpty"]) ==> r == PruneEmpty(normalized, extra, [], false)
  {
    if Truthy(ExtraFlag(extra, "pruneEmpty", BoolFlag(true))) then PruneEmpty(normalized, extra, [], false)
    else normalized
  }

  // ---------------------------------------------------------------------------
  // Properties

  /** `a` is `b` with some elements left out, the rest in their order. */
  predicate Subsequence<T(==)>(a: seq<T>, b: seq<T>)
    decreases |b|
  {
    if a == [] then true
    else if b == [] then false
    else (a[0] == b[0] && Subsequence(a[1..], b[1..])) || Subsequence(a, b[1..])
  }

  /** The loop appends in input order: the survivors' keys are the input's
      keys with the dropped ones left out. */
  lemma {:induction false} PruneKeepsOrder(e: Entries, i: nat, extra: map<string, Flag>, path: seq<string>,
                                           preserveScopes: bool, parentIsList: bool)
    requires i <= |e|
    ensures Subsequence(Keys(PruneFrom(e, i, extra, path, preserveScopes, parentIsList)), Keys(e[i..]))
    decreases |e| - i
  {
    if i < |e| {
      var r := PruneFrom(e, i, extra, path, preserveScopes, parentIsList);
      var rest := PruneFrom(e, i + 1, extra, path, preserveScopes, parentIsList);
      PruneKeepsOrder(e, i + 1, extra, path, preserveScopes, parentIsList);
      PruneFromStep(e, i, extra, path, preserveScopes, parentIsList);
      SuffixCons(e, i);
      KeysCons(e[i], e[i + 1..]);
      if r == rest {
        SubsequenceSkip(e[i].0, Keys(rest), Keys(e[i + 1..]));
      } else {
        KeysCons(r[0], rest);
        SubsequenceCons(e[i].0, Keys(rest), Keys(e[i + 1..]));
      }
    }
  }

  lemma SubsequenceCons<T>(x: T, a: seq<T>, b: seq<T>)
    requires Subsequence(a, b)
    ensures Subsequence([x] + a, [x] + b)
  {
    assert ([x] + a)[1..] == a && ([x] + b)[1..] == b;
  }

  lemma SubsequenceSkip<T>(x: T, a: seq<T>, b: seq<T>)
    requires Subsequence(a, b)
    ensures Subsequence(a, [x] + b)
  {
    assert ([x] + b)[1..] == b;
  }

  /** No `null` anywhere in the tree. */
  predicate NullFree(j: Json)
    decreases j
  {
    j != Null && (j.Arr? ==> forall i :: 0 <= i < |j.entries| ==> NullFree(j.entries[i].1))
  }

  predicate AllNullFree(e: Entries) {
    forall i :: 0 <= i < |e| ==> NullFree(e[i].1)
  }

  /** With no `preserveEmpty.*` flag set, pruning removes every `null` from a
      tree whose root is not itself `null`. */
  lemma {:induction false} PruneRemovesNulls(value: Json, extra: map<string, Flag>, path: seq<string>, preserveScopes: bool)
    requires forall name :: name in extra ==> !StartsWith(name, "preserveEmpty.")
    requires value != Null
    ensures NullFree(PruneEmpty(value, extra, path, preserveScopes))
    decreases value, 1, 0
  {
    if value.Arr? {
      if Lifts(value.entries) {
        var j := Find(value.entries, Requirements).value;
        PruneRemovesNulls(value.entries[j].1, extra, path, true);
      } else {
        var out := PruneFrom(value.entries, 0, extra, path, preserveScopes, ArrayIsList(value.entries));
        assert PruneEmpty(value, extra, path, preserveScopes) == Arr(out);
        PruneFromRemovesNulls(value.entries, 0, extra, path, preserveScopes, ArrayIsList(value.entries));
        assert AllNullFree(out);
      }
    }
  }

  lemma {:induction false} PruneFromRemovesNulls(e: Entries, i: nat, extra: map<string, Flag>, path: seq<string>,
                                                 preserveScopes: bool, parentIsList: bool)
    requires forall name :: name in extra ==> !StartsWith(name, "preserveEmpty.")
    requires i <= |e|
    ensures AllNullFree(PruneFrom(e, i, extra, path, preserveScopes, parentIsList))
    decreases Arr(e), 0, |e| - i
  {
    if i < |e| {
      var keyText := KeyText(e[i].0);
      assert !Preserved(extra, keyText) by {
        NotPreserved(extra, keyText);
      }
      assert e[i].1.Arr? ==> NullFree(PruneEmpty(e[i].1, extra, path + [keyText], preserveScopes)) by {
        if e[i].1.Arr? {
          PruneRemovesNulls(e[i].1, extra, path + [keyText], preserveScopes);
        }
      }
      assert AllNullFree(PruneFrom(e, i + 1, extra, path, preserveScopes, parentIsList)) by {
        PruneFromRemovesNulls(e, i + 1, extra, path, preserveScopes, parentIsList);
      }
      NullFreeStep(e, i, extra, path, preserveScopes, parentIsList);
    }
  }

  /** One turn of the loop keeps the output free of `null`s. */
  lemma NullFreeStep(e: Entries, i: nat, extra: map<string, Flag>, path: seq<string>,
                     preserveScopes: bool, parentIsList: bool)
    requires i < |e| && !Preserved(extra, KeyText(e[i].0))
    requires e[i].1.Arr? ==> NullFree(PruneEmpty(e[i].1, extra, path + [KeyText(e[i].0)], preserveScopes))
    requires AllNullFree(PruneFrom(e, i + 1, extra, path, preserveScopes, parentIsList))
    ensures AllNullFree(PruneFrom(e, i, extra, path, preserveScopes, parentIsList))
  {
    var (k, v) := e[i];
    PruneFromStep(e, i, extra, path, preserveScopes, parentIsList);
    var v' := if v.Arr? then PruneEmpty(v, extra, path + [KeyText(k)], preserveScopes) else v;
    if Kept(extra, KeyText(k), v', parentIsList, path, preserveScopes) {
      NullFreeCons(k, v', PruneFrom(e, i + 1, extra, path, preserveScopes, parentIsList));
    }
  }

  /** Without `preserveEmpty.*` flags nothing is preserved. */
  lemma NotPreserved(extra: map<string, Flag>, key: string)
    requires forall name :: name in extra ==> !StartsWith(name, "preserveEmpty.")
    ensures !Preserved(extra, key)
  {
    assert StartsWith("preserveEmpty." + key, "preserveEmpty.");
  }

  lemma NullFreeCons(k: Key, v: Json, rest: Entries)
    requires AllNullFree(rest) && v != Null && (v.Arr? ==> NullFree(v))
    ensures AllNullFree([(k, v)] + rest)
  {
    assert forall i :: 1 <= i < |rest| + 1 ==> ([(k, v)] + rest)[i] == rest[i - 1];
  }

  /** One turn of the loop of `pruneEmpty`. */
  lemma PruneFromStep(e: Entries, i: nat, extra: map<string, Flag>, path: seq<string>,
                      preserveScopes: bool, parentIsList: bool)
    requires i < |e|
    ensures var v' := if e[i].1.Arr? then PruneEmpty(e[i].1, extra, path + [KeyText(e[i].0)], preserveScopes) else e[i].1;
      var rest := PruneFrom(e, i + 1, extra, path, preserveScopes, parentIsList);
      PruneFrom(e, i, extra, path, preserveScopes, parentIsList) ==
        if Kept(extra, KeyText(e[i].0), v', parentIsList, path, preserveScopes) then [(e[i].0, v')] + rest else rest
  {
  }

  /** An empty array prunes to itself. */
  lemma PruneEmptyArray(extra: map<string, Flag>, path: seq<string>, preserveScopes: bool)
    ensures PruneEmpty(Arr([]), extra, path, preserveScopes) == Arr([])
  {
    assert !Lifts([]);
  }

  /** A one-member object that does not lift, whose member prunes to itself
      and is kept, prunes to itself. */
  lemma PruneOne(k: Key, v: Json, extra: map<string, Flag>, path: seq<string>, preserveScopes: bool)
    requires v.Arr? && !Lifts([(k, v)])
    requires PruneEmpty(v, extra, path + [KeyText(k)], preserveScopes) == v
    requires Kept(extra, KeyText(k), v, ArrayIsList([(k, v)]), path, preserveScopes)
    ensures PruneEmpty(Arr([(k, v)]), extra, path, preserveScopes) == Arr([(k, v)])
  {
    var e := [(k, v)];
    assert PruneFrom(e, 0, extra, path, preserveScopes, ArrayIsList(e)) == e by {
      PruneFromStep(e, 0, extra, path, preserveScopes, ArrayIsList(e));
      assert PruneFrom(e, 1, extra, path, preserveScopes, ArrayIsList(e)) == [];
    }
  }

  /** An empty scope list inside `security` survives: a requirement
      `{scheme: []}`, such as `{"api_key": []}`, is kept whole. */
  lemma SecurityScopesKept(scheme: string)
    requires scheme != "requirements"
    ensures var doc := Arr([(StrKey("security"), Arr([(IntKey(0), Arr([(StrKey(scheme), Arr([]))]))]))]);
      PruneEmpty(doc, map[], [], false) == doc
  {
    ListLevelKept(scheme);
    SecurityLevelKept(Arr([(IntKey(0), Arr([(StrKey(scheme), Arr([]))]))]));
  }

  /** A non-empty array under a top-level `security` key that prunes to
      itself keeps the whole document unchanged. */
  lemma SecurityLevelKept(list: Json)
    requires list.Arr? && list != Arr([])
    requires PruneEmpty(list, map[], ["security"], false) == list
    ensures PruneEmpty(Arr([(StrKey("security"), list)]), map[], [], false) == Arr([(StrKey("security"), list)])
  {
    SecurityPaths();
    NotLiftsOne(StrKey("security"), list);
    PruneOne(StrKey("security"), list, map[], [], false);
  }

  /** The requirement `{scheme: []}` at `security/0` prunes to itself. */
  lemma ScopesLevelKept(scheme: string)
    requires scheme != "requirements"
    ensures PruneEmpty(Arr([(StrKey(scheme), Arr([]))]), map[], ["security", "0"], false) ==
      Arr([(StrKey(scheme), Arr([]))])
  {
    PruneEmptyArray(map[], ["security", "0", scheme], false);
    NotLiftsOne(StrKey(scheme), Arr([]));
    PruneOne(StrKey(scheme), Arr([]), map[], ["security", "0"], false);
  }

  /** The requirement list under `security` prunes to itself. */
  lemma ListLevelKept(scheme: string)
    requires scheme != "requirements"
    ensures var list := Arr([(IntKey(0), Arr([(StrKey(scheme), Arr([]))]))]);
      PruneEmpty(list, map[], ["security"], false) == list
  {
    var scopes := Arr([(StrKey(scheme), Arr([]))]);
    ScopesLevelKept(scheme);
    SecurityPaths();
    NotLiftsOne(IntKey(0), scopes);
    PruneOne(IntKey(0), scopes, map[], ["security"], false);
  }

  /** The paths below `security` and below its first list element. */
  lemma SecurityPaths()
    ensures [] + [KeyText(StrKey("security"))] == ["security"]
    ensures ["security"] + [KeyText(IntKey(0))] == ["security", "0"]
  {
    assert KeyText(IntKey(0)) == "0";
  }

  /** A one-member object lifts only when its member is `requirements`. */
  lemma NotLiftsOne(k: Key, v: Json)
    requires k != Requirements
    ensures !Lifts([(k, v)])
  {
    assert Get([(k, v)], Requirements) == None;
  }

  /** The same empty list directly under a top-level `security` key is
      dropped: the path checked is the parent's, which is still empty. */
  lemma TopLevelEmptySecurityDropped()
    ensures PruneEmpty(Arr([(StrKey("security"), Arr([]))]), map[], [], false) == Arr([])
  {
    var doc := Arr([(StrKey("security"), Arr([]))]);
    assert PruneEmpty(Arr([]), map[], ["security"], false) == Arr([]);
    assert !ArrayIsList(doc.entries);
    assert !Lifts(doc.entries);
    assert !Kept(map[], "security", Arr([]), false, [], false);
    assert PruneFrom(doc.entries, 1, map[], [], false, false) == [];
  }

  /** A wrapper `{requirements: R}` whose other members are blank is replaced
      by `R` pruned in scope mode, where empty scope lists are kept. */
  lemma RequirementsLift(scopes: Entries, extra: map<string, Flag>, path: seq<string>)
    requires scopes != [] && !ArrayIsList(scopes) && Requirements !in Keys(scopes)
    requires forall i :: 0 <= i < |scopes| ==> scopes[i].1 == Arr([])
    requires forall i :: 0 <= i < |scopes| ==> !Preserved(extra, KeyText(scopes[i].0))
    ensures PruneEmpty(Arr([(Requirements, Arr(scopes)), (StrKey("description"), Null)]), extra, path, false) == Arr(scopes)
  {
    var e := [(Requirements, Arr(scopes)), (StrKey("description"), Null)];
    assert !ArrayIsList(e) by {
      assert e[0].0 != IntKey(0);
    }
    assert Get(e, Requirements) == Some(Arr(scopes));
    assert Lifts(e);
    assert PruneEmpty(Arr(e), extra, path, false) == PruneEmpty(Arr(scopes), extra, path, true);
    assert !Lifts(scopes);
    KeptScopes(scopes, 0, extra, path);
    assert scopes[0..] == scopes;
  }

  lemma {:induction false} KeptScopes(scopes: Entries, i: nat, extra: map<string, Flag>, path: seq<string>)
    requires i <= |scopes| && !ArrayIsList(scopes)
    requires forall i :: 0 <= i < |scopes| ==> scopes[i].1 == Arr([])
    requires forall i :: 0 <= i < |scopes| ==> !Preserved(extra, KeyText(scopes[i].0))
    ensures PruneFrom(scopes, i, extra, path, true, false) == scopes[i..]
    decreases |scopes| - i
  {
    if i < |scopes| {
      PruneEmptyArray(extra, path + [KeyText(scopes[i].0)], true);
      KeptScopes(scopes, i + 1, extra, path);
      PruneFromStep(scopes, i, extra, path, true, false);
      SuffixCons(scopes, i);
    }
  }
}

=== FILE: text.dfy ===
/** String primitives the PHP code leans on (`strpos`, `strrpos`, `explode`,
    `implode`, `str_replace`, `rtrim`, decimal conversion), written once and
    shared by every other module, together with JSON Pointer token escaping
    (section 3 of RFC 6901) and its inverse. */
module Text {
  import opened Wrappers

  // ---------------------------------------------------------------------------
  // Searching

  /** `strpos($s, $c)`: index of the first occurrence of `c`. */
  function IndexOf(s: string, c: char): (r: Option<nat>)
    ensures r.None? <==> c !in s
    ensures r.Some? ==> r.value < |s| && s[r.value] == c && c !in s[..r.value]
  {
    if |s| == 0 then None
    else if s[0] == c then Some(0)
    else
      match IndexOf(s[1..], c)
      case None => None
      case Some(i) => Some(i + 1)
  }

  /** `strrpos($s, $c)`: index of the last occurrence of `c`. */
  function LastIndexOf(s: string, c: char): (r: Option<nat>)
    ensures r.None? <==> c !in s
    ensures r.Some? ==> r.value < |s| && s[r.value] == c && c !in s[r.value + 1..]
  {
    if |s| == 0 then None
    else if s[|s| - 1] == c then Some(|s| - 1)
    else LastIndexOf(s[..|s| - 1], c)
  }

  predicate StartsWith(s: string, prefix: string) {
    |prefix| <= |s| && s[..|prefix|] == prefix
  }

  predicate EndsWith(s: string, suffix: string) {
    |suffix| <= |s| && s[|s| - |suffix|..] == suffix
  }

  /** `str_contains($s, $sub)`. */
  predicate Contains(s: string, sub: string)
    decreases |s|
  {
    StartsWith(s, sub) || (|s| > 0 && Contains(s[1..], sub))
  }

  /** The text before the first occurrence of `c` (all of `s` when absent). */
  function Before(s: string, c: char): (r: string)
    ensures c !in r && StartsWith(s, r)
    ensures c in s ==> |r| < |s| && s[|r|] == c
  {
    match IndexOf(s, c)
    case None => s
    case Some(i) => s[..i]
  }

  // ---------------------------------------------------------------------------
  // explode / implode

  /** `implode($c, $parts)`. */
  function Join(parts: seq<string>, c: char): string
    decreases |parts|
  {
    if |parts| == 0 then ""
    else if |parts| == 1 then parts[0]
    else parts[0] + [c] + Join(parts[1..], c)
  }

  /** `explode($c, $s)`: never empty, no piece contains the separator, and
      gluing the pieces back together gives `s`. */
  function Split(s: string, c: char): (r: seq<string>)
    ensures |r| >= 1
    ensures forall i :: 0 <= i < |r| ==> c !in r[i]
    ensures Join(r, c) == s
    decreases |s|
  {
    match IndexOf(s, c)
    case None => [s]
    case Some(i) =>
      var rest := Split(s[i + 1..], c);
      var r := [s[..i]] + rest;
      assert r[1..] == rest;
      assert s == s[..i] + [c] + s[i + 1..];
      r
  }

  /** Splitting a join of separator-free pieces recovers the pieces. */
  lemma {:induction false} SplitJoin(parts: seq<string>, c: char)
    requires |parts| >= 1
    requires forall i :: 0 <= i < |parts| ==> c !in parts[i]
    ensures Split(Join(parts, c), c) == parts
    decreases |parts|
  {
    if |parts| == 1 {
      assert IndexOf(parts[0], c).None?;
    } else {
      var s := Join(parts, c);
      var rest := Join(parts[1..], c);
      assert s == parts[0] + [c] + rest;
      assert s[|parts[0]|] == c;
      assert s[..|parts[0]|] == parts[0];
      IndexOfAfter(parts[0], c, rest);
      assert s[|parts[0]| + 1..] == rest;
      SplitJoin(parts[1..], c);
      assert Split(s, c) == [parts[0]] + parts[1..];
    }
  }

  lemma {:induction false} IndexOfAfter(p: string, c: char, rest: string)
    requires c !in p
    ensures IndexOf(p + [c] + rest, c) == Some(|p|)
    decreases |p|
  {
    if |p| == 0 {
      assert (p + [c] + rest)[0] == c;
    } else {
      var s := p + [c] + rest;
      assert s[0] == p[0];
      assert s[1..] == p[1..] + [c] + rest;
      IndexOfAfter(p[1..], c, rest);
    }
  }

  /** `rtrim($s, $chars)`. */
  function RTrim(s: string, chars: set<char>): (r: string)
    ensures StartsWith(s, r)
    ensures |r| > 0 ==> r[|r| - 1] !in chars
    ensures forall i :: |r| <= i < |s| ==> s[i] in chars
    decreases |s|
  {
    if |s| > 0 && s[|s| - 1] in chars then RTrim(s[..|s| - 1], chars) else s
  }

  // ---------------------------------------------------------------------------
  // str_replace

  /** `str_replace($pat, $rep, $s)` for one pattern: scans left to right and
      replaces each non-overlapping occurrence. */
  function Replace(s: string, pat: string, rep: string): string
    requires |pat| > 0
    decreases |s|
  {
    if |s| < |pat| then s
    else if s[..|pat|] == pat then rep + Replace(s[|pat|..], pat, rep)
    else [s[0]] + Replace(s[1..], pat, rep)
  }

  lemma ReplaceHead(x: string, pat: string, rep: string)
    requires |pat| > 0
    ensures Replace(pat + x, pat, rep) == rep + Replace(x, pat, rep)
  {
    assert (pat + x)[..|pat|] == pat;
    assert (pat + x)[|pat|..] == x;
  }

  lemma ReplaceCons(c: char, x: string, pat: string, rep: string)
    requires |pat| > 0 && c != pat[0]
    ensures Replace([c] + x, pat, rep) == [c] + Replace(x, pat, rep)
  {
    var s := [c] + x;
    assert s[1..] == x;
    if |s| >= |pat| {
      assert s[..|pat|][0] == c;
    } else {
      assert |x| < |pat|;
      assert Replace(x, pat, rep) == x;
    }
  }

  // ---------------------------------------------------------------------------
  // JSON Pointer tokens (RFC 6901, section 3 and section 4)

  /** `str_replace(['~', '/'], ['~0', '~1'], $s)`: applies the two replacements
      one after the other, as PHP does with array arguments. */
  function EscapeToken(s: string): (r: string)
    ensures '/' !in r
    ensures UnescapeToken(r) == s
  {
    EscapeSteps(s);
    Replace(Replace(s, "~", "~0"), "/", "~1")
  }

  /** `str_replace(['~1', '~0'], ['/', '~'], $t)`: `~1` first, then `~0`. */
  function UnescapeToken(t: string): string {
    Replace(Replace(t, "~1", "/"), "~0", "~")
  }

  /** The escaped form, character by character. */
  function Escaped(s: string): string
    decreases |s|
  {
    if |s| == 0 then ""
    else (if s[0] == '~' then "~0" else if s[0] == '/' then "~1" else [s[0]]) + Escaped(s[1..])
  }

  /** Every `~` doubled into `~0`, everything else kept. */
  function TildeEscaped(s: string): string
    decreases |s|
  {
    if |s| == 0 then ""
    else (if s[0] == '~' then "~0" else [s[0]]) + TildeEscaped(s[1..])
  }

  lemma {:induction false} TildeStep(s: string)
    ensures Replace(s, "~", "~0") == TildeEscaped(s)
    decreases |s|
  {
    if |s| > 0 {
      TildeStep(s[1..]);
      assert s == [s[0]] + s[1..];
      if s[0] == '~' {
        ReplaceHead(s[1..], "~", "~0");
      } else {
        ReplaceCons(s[0], s[1..], "~", "~0");
      }
    }
  }

  lemma {:induction false} SlashStep(s: string)
    ensures Replace(TildeEscaped(s), "/", "~1") == Escaped(s)
    ensures '/' !in Escaped(s)
    decreases |s|
  {
    if |s| > 0 {
      SlashStep(s[1..]);
      var rest := TildeEscaped(s[1..]);
      if s[0] == '~' {
        assert TildeEscaped(s) == ['~'] + (['0'] + rest);
        ReplaceCons('~', ['0'] + rest, "/", "~1");
        ReplaceCons('0', rest, "/", "~1");
      } else if s[0] == '/' {
        assert TildeEscaped(s) == "/" + rest;
        ReplaceHead(rest, "/", "~1");
      } else {
        assert TildeEscaped(s) == [s[0]] + rest;
        ReplaceCons(s[0], rest, "/", "~1");
      }
    }
  }

  /** With no `/` in the input, undoing `~1` leaves only the `~0` pairs. */
  lemma {:induction false} UnslashStep(s: string)
    ensures Replace(Escaped(s), "~1", "/") == SlashKept(s)
    decreases |s|
  {
    if |s| > 0 {
      UnslashStep(s[1..]);
      var rest := Escaped(s[1..]);
      if s[0] == '/' {
        assert Escaped(s) == "~1" + rest;
        ReplaceHead(rest, "~1", "/");
      } else if s[0] == '~' {
        assert Escaped(s) == ['~'] + (['0'] + rest);
        assert (['~'] + (['0'] + rest))[..2] == "~0";
        assert (['~'] + (['0'] + rest))[1..] == ['0'] + rest;
        ReplaceCons('0', rest, "~1", "/");
      } else {
        assert Escaped(s) == [s[0]] + rest;
        ReplaceCons(s[0], rest, "~1", "/");
      }
    }
  }

  /** `~` doubled into `~0`, `/` kept: the state between the two undo steps. */
  function SlashKept(s: string): string
    decreases |s|
  {
    if |s| == 0 then ""
    else (if s[0] == '~' then "~0" else [s[0]]) + SlashKept(s[1..])
  }

  lemma {:induction false} UntildeStep(s: string)
    ensures Replace(SlashKept(s), "~0", "~") == s
    decreases |s|
  {
    if |s| > 0 {
      UntildeStep(s[1..]);
      var rest := SlashKept(s[1..]);
      if s[0] == '~' {
        assert SlashKept(s) == "~0" + rest;
        ReplaceHead(rest, "~0", "~");
      } else {
        assert SlashKept(s) == [s[0]] + rest;
        ReplaceCons(s[0], rest, "~0", "~");
      }
      assert s == [s[0]] + s[1..];
    }
  }

  lemma EscapeSteps(s: string)
    ensures '/' !in Replace(Replace(s, "~", "~0"), "/", "~1")
    ensures UnescapeToken(Replace(Replace(s, "~", "~0"), "/", "~1")) == s
  {
    TildeStep(s);
    SlashStep(s);
    UnslashStep(s);
    UntildeStep(s);
  }

  // ---------------------------------------------------------------------------
  // Decimal numbers

  predicate IsDigit(c: char) {
    '0' <= c <= '9'
  }

  /** `ctype_digit($s)`: non-empty and only ASCII digits. */
  predicate AllDigits(s: string) {
    |s| > 0 && forall i :: 0 <= i < |s| ==> IsDigit(s[i])
  }

  function DigitChar(d: nat): (c: char)
    requires d < 10
    ensures IsDigit(c)
  {
    ['0', '1', '2', '3', '4', '5', '6', '7', '8', '9'][d]
  }

  function DigitValue(c: char): (d: nat)
    requires IsDigit(c)
    ensures d < 10 && DigitChar(d) == c
  {
    (c as int - '0' as int) as nat
  }

  /** The decimal rendering of a natural number, without leading zeros. */
  function NatToString(n: nat): (r: string)
    ensures AllDigits(r)
    ensures r[0] == '0' ==> n == 0 && r == "0"
    decreases n
  {
    if n < 10 then [DigitChar(n)] else NatToString(n / 10) + [DigitChar(n % 10)]
  }

  /** `(int)$s` on a digit string. */
  function ParseNat(s: string): nat
    requires forall i :: 0 <= i < |s| ==> IsDigit(s[i])
    decreases |s|
  {
    if |s| == 0 then 0 else ParseNat(s[..|s| - 1]) * 10 + DigitValue(s[|s| - 1])
  }

  lemma {:induction false} ParseNatToString(n: nat)
    ensures ParseNat(NatToString(n)) == n
    decreases n
  {
    if n >= 10 {
      ParseNatToString(n / 10);
      var s := NatToString(n);
      assert s[..|s| - 1] == NatToString(n / 10);
    }
  }

  /** `(string)$i` for a PHP integer. */
  function IntToString(i: int): string {
    if i < 0 then "-" + NatToString(-i) else NatToString(i)
  }

  /** A string PHP turns into an integer when it is used as an array key:
      a decimal integer without leading zeros or `+`, and not `-0`. */
  predicate IsCanonicalInt(s: string) {
    || (AllDigits(s) && (s[0] != '0' || s == "0"))
    || (|s| >= 2 && s[0] == '-' && AllDigits(s[1..]) && s[1] != '0')
  }

  function ParseInt(s: string): int
    requires IsCanonicalInt(s)
  {
    if s[0] == '-' then 0 - ParseNat(s[1..]) else ParseNat(s) as int
  }

  /** Rendering an integer and coercing the text back as a key gives the
      integer again. */
  lemma IntToStringRoundTrip(i: int)
    ensures IsCanonicalInt(IntToString(i))
    ensures ParseInt(IntToString(i)) == i
  {
    if i < 0 {
      ParseNatToString(-i);
      var s := IntToString(i);
      assert s[1..] == NatToString(-i);
    } else {
      ParseNatToString(i);
    }
  }
}

=== FILE: uri.dfy ===
/** `UriHelper`: splitting a `$ref` into a target document and a JSON Pointer,
    resolving a relative reference against a base URI, normalizing paths, and
    following a JSON Pointer (RFC 6901) into a decoded document. */
module UriHelper {
  import opened Wrappers
  import opened Text
  import opened Json

  // ---------------------------------------------------------------------------
  // parse_url

  /** The components of `parse_url` that the resolver reads; an absent
      component reads as the empty string, as with `$parts['x'] ?? ''`. */
  datatype UrlParts = UrlParts(scheme: string, host: string, port: Option<nat>, path: string)

  const NoParts := UrlParts("", "", None, "")

  predicate IsLetter(c: char) {
    'a' <= c <= 'z' || 'A' <= c <= 'Z'
  }

  /** A scheme name as section 3.1 of RFC 3986 defines it. */
  predicate IsScheme(s: string) {
    |s| > 0 && IsLetter(s[0]) &&
    forall i :: 0 <= i < |s| ==> IsLetter(s[i]) || IsDigit(s[i]) || s[i] in {'+', '-', '.'}
  }

  /** The host and optional port of an authority. A port that is not a
      decimal number makes `parse_url` fail. */
  function SplitAuthority(authority: string): Option<(string, Option<nat>)> {
    match LastIndexOf(authority, ':')
    case None => Some((authority, None))
    case Some(j) =>
      var portText := authority[j + 1..];
      if portText == "" then Some((authority[..j], None))
      else if AllDigits(portText) then Some((authority[..j], Some(ParseNat(portText))))
      else None
  }

  /** `parse_url` for the shapes a base URI takes here: `scheme://authority/path`,
      `scheme:path` and a bare path. Query and fragment are cut off first. */
  function ParseUrl(s: string): (r: Option<UrlParts>)
    ensures r.Some? ==> '#' !in r.value.path && '?' !in r.value.path
    ensures r.Some? && r.value.scheme == "" ==> r.value.path == Before(Before(s, '#'), '?')
  {
    var body := Before(Before(s, '#'), '?');
    match IndexOf(body, ':')
    case Some(i) =>
      if !IsScheme(body[..i]) then Some(UrlParts("", "", None, body))
      else
        var rest := body[i + 1..];
        if StartsWith(rest, "//") then
          var authority := Before(rest[2..], '/');
          var path := rest[2 + |authority|..];
          match SplitAuthority(authority)
          case None => None
          case Some(hp) => Some(UrlParts(body[..i], hp.0, hp.1, path))
        else Some(UrlParts(body[..i], "", None, rest))
    case None => Some(UrlParts("", "", None, body))
  }

  lemma BeforeAbsent(s: string, c: char)
    requires c !in s
    ensures Before(s, c) == s
  {
  }

  /** Parsing `scheme://host/path` gives the three parts back. */
  lemma ParseUrlCompose(scheme: string, host: string, path: string)
    requires IsScheme(scheme)
    requires '/' !in host && ':' !in host && '?' !in host && '#' !in host
    requires StartsWith(path, "/") && '?' !in path && '#' !in path
    ensures ParseUrl(scheme + "://" + host + path) == Some(UrlParts(scheme, host, None, path))
  {
    ComposedBody(scheme, host, path);
    ComposedScheme(scheme, host, path);
    ComposedRest(scheme, host, path);
    ComposedAuthority(host, path);
  }

  lemma ComposedRest(scheme: string, host: string, path: string)
    ensures var rest := (scheme + "://" + host + path)[|scheme| + 1..];
      && rest == "//" + (host + path)
      && StartsWith(rest, "//")
      && rest[2..] == host + path
      && rest[2 + |host|..] == path
  {
    var rest := (scheme + "://" + host + path)[|scheme| + 1..];
    assert rest == "//" + (host + path);
  }

  lemma ComposedBody(scheme: string, host: string, path: string)
    requires ':' !in scheme && '?' !in scheme && '#' !in scheme
    requires '?' !in host && '#' !in host && '?' !in path && '#' !in path
    ensures Before(Before(scheme + "://" + host + path, '#'), '?') == scheme + "://" + host + path
  {
    var s := scheme + "://" + host + path;
    assert '#' !in s && '?' !in s;
    BeforeAbsent(s, '#');
    BeforeAbsent(s, '?');
  }

  lemma ComposedScheme(scheme: string, host: string, path: string)
    requires ':' !in scheme
    ensures IndexOf(scheme + "://" + host + path, ':') == Some(|scheme|)
    ensures (scheme + "://" + host + path)[..|scheme|] == scheme
  {
    var s := scheme + "://" + host + path;
    assert s == scheme + [':'] + ("//" + host + path);
    IndexOfAfter(scheme, ':', "//" + host + path);
  }

  lemma ComposedAuthority(host: string, path: string)
    requires '/' !in host && ':' !in host
    requires StartsWith(path, "/")
    ensures Before(host + path, '/') == host
    ensures SplitAuthority(host) == Some((host, None))
  {
    assert host + path == host + ['/'] + path[1..];
    IndexOfAfter(host, '/', path[1..]);
  }

  // ---------------------------------------------------------------------------
  // normalizePath

  /** One turn of the `normalizePath` loop: empty and `.` segments are
      skipped (but an empty FIRST segment marks the root), `..` pops a real
      segment and never the root marker, anything else is pushed. */
  function Step(stack: seq<string>, seg: string): seq<string> {
    if seg == "" || seg == "." then
      if seg == "" && stack == [] then [""] else stack
    else if seg == ".." then
      if stack != [] && stack[|stack| - 1] != "" then stack[..|stack| - 1] else stack
    else stack + [seg]
  }

  function Fold(stack: seq<string>, segs: seq<string>): seq<string>
    decreases |segs|
  {
    if |segs| == 0 then stack else Fold(Step(stack, segs[0]), segs[1..])
  }

  /** A stack the loop can leave behind: no dot segments, no separator inside a
      segment, and an empty segment only at the bottom, as the root marker. */
  predicate Clean(stack: seq<string>) {
    forall i :: 0 <= i < |stack| ==>
      '/' !in stack[i] && stack[i] != "." && stack[i] != ".." && (stack[i] == "" ==> i == 0)
  }

  lemma {:induction false} FoldClean(stack: seq<string>, segs: seq<string>)
    requires Clean(stack)
    requires forall i :: 0 <= i < |segs| ==> '/' !in segs[i]
    ensures Clean(Fold(stack, segs))
    ensures stack != [] && stack[0] == "" ==> Fold(stack, segs) != [] && Fold(stack, segs)[0] == ""
    ensures stack == [] && segs != [] && segs[0] == "" ==> Fold(stack, segs) != [] && Fold(stack, segs)[0] == ""
    decreases |segs|
  {
    if |segs| > 0 {
      var next := Step(stack, segs[0]);
      assert Clean(next);
      FoldClean(next, segs[1..]);
    }
  }

  /** A clean stack is replayed unchanged: the loop is the identity on it. */
  lemma {:induction false} FoldReplays(stack: seq<string>, segs: seq<string>)
    requires Clean(stack + segs)
    ensures Fold(stack, segs) == stack + segs
    decreases |segs|
  {
    if |segs| > 0 {
      var s := stack + segs;
      assert segs[0] == s[|stack|];
      assert Step(stack, segs[0]) == stack + [segs[0]];
      assert (stack + [segs[0]]) + segs[1..] == s;
      FoldReplays(stack + [segs[0]], segs[1..]);
    }
  }

  /** The first piece of `explode('/', $s)` is empty exactly when `$s` starts
      with a slash. */
  lemma SplitHead(s: string)
    ensures s != "" ==> (Split(s, '/')[0] == "" <==> StartsWith(s, "/"))
  {
    var r := Split(s, '/');
    if s == "" {
    } else if |r| > 1 {
      assert s == r[0] + ['/'] + Join(r[1..], '/');
      if r[0] != "" {
        assert s[0] == r[0][0];
      }
    } else {
      assert s == r[0];
      assert s[0] in r[0];
    }
  }

  /** `normalizePath`: the result is never empty, has no dot segments and no
      empty segment past the leading one, and a rooted path stays rooted. */
  function NormalizePath(path: string): (r: string)
    ensures r != ""
    ensures r == "/" || Clean(Split(r, '/'))
    ensures StartsWith(path, "/") ==> StartsWith(r, "/")
  {
    var segs := Split(path, '/');
    var stack := Fold([], segs);
    FoldClean([], segs);
    SplitHead(path);
    var joined := Join(stack, '/');
    if joined == "" then "/"
    else
      SplitJoin(stack, '/');
      assert StartsWith(path, "/") ==> StartsWith(joined, "/") by {
        if StartsWith(path, "/") && |stack| > 1 {
          assert joined == stack[0] + ['/'] + Join(stack[1..], '/');
        }
      }
      joined
  }

  /** Normalizing twice is normalizing once. */
  lemma NormalizeIdempotent(path: string)
    ensures NormalizePath(NormalizePath(path)) == NormalizePath(path)
  {
    var r := NormalizePath(path);
    if r == "/" {
      assert Join(["", ""], '/') == "/";
      SplitJoin(["", ""], '/');
    } else {
      var s := Split(r, '/');
      FoldReplays([], s);
      assert [] + s == s;
    }
  }

  // ---------------------------------------------------------------------------
  // resolveRelative

  /** The directory part of a URL path: `$path` when it is empty or ends in a
      slash, else everything up to its last slash. With no slash at all,
      `(int)strrpos(...)` is 0 and the first character is kept. */
  function DirOf(path: string): (r: string)
    ensures StartsWith(path, r)
    ensures '/' in path ==> EndsWith(r, "/") && '/' !in path[|r|..]
    ensures path == "" ==> r == ""
    ensures '/' !in path && path != "" ==> r == path[..1]
  {
    assert EndsWith(path, "/") ==> path[|path| - 1] in path;
    if path == "" || EndsWith(path, "/") then path
    else
      match LastIndexOf(path, '/')
      case None => path[..1]
      case Some(p) => path[..p + 1]
  }

  /** The directory of a scheme-less base: the base itself when the file
      system reports a directory (trailing separators trimmed), else up to
      its last slash; nothing for an empty base or one with `://`. */
  function BaseDir(baseUri: string, isDir: string -> bool): (r: string)
    ensures r != "" ==> EndsWith(r, "/")
    ensures !isDir(baseUri) ==> StartsWith(baseUri, r)
    ensures baseUri == "" || Contains(baseUri, "://") ==> r == ""
    ensures baseUri != "" && !Contains(baseUri, "://") && isDir(baseUri) ==>
      r == RTrim(baseUri, {'/', '\\'}) + "/"
    // otherwise: through the last slash, or nothing without one
    ensures baseUri != "" && !Contains(baseUri, "://") && !isDir(baseUri) ==>
      ('/' in baseUri <==> r != "") && '/' !in baseUri[|r|..]
  {
    if baseUri == "" || Contains(baseUri, "://") then ""
    else if isDir(baseUri) then RTrim(baseUri, {'/', '\\'}) + "/"
    else
      match LastIndexOf(baseUri, '/')
      case None => ""
      case Some(p) => baseUri[..p + 1]
  }

  /** The fragment of a reference, `#` included (empty when there is none). */
  function Fragment(ref: string): (f: string)
    ensures ref == Before(ref, '#') + f
    ensures f == "" || f[0] == '#'
  {
    ref[|Before(ref, '#')|..]
  }

  lemma Glue(a: string, b: string, c: string)
    ensures StartsWith(a + b + c, a) && EndsWith(a + b + c, c)
  {
    assert (a + b + c)[..|a|] == a;
    assert (a + b + c)[|a + b|..] == c;
  }

  /** `':' . (string)$parts['port']`, or nothing without a port. */
  function PortText(port: Option<nat>): string {
    if port.Some? then ":" + NatToString(port.value) else ""
  }

  /** The http(s) branch: scheme, host and port of the base, then the
      normalized join of the base directory and the reference. */
  function ResolveHttp(parts: UrlParts, pathPart: string, fragment: string): (r: string)
    ensures StartsWith(r, parts.scheme + "://" + parts.host)
    ensures EndsWith(r, fragment)
    ensures r == parts.scheme + "://" + parts.host + PortText(parts.port) +
      NormalizePath(DirOf(parts.path) + pathPart) + fragment
  {
    var prefix := parts.scheme + "://" + parts.host;
    var r := prefix + PortText(parts.port) + NormalizePath(DirOf(parts.path) + pathPart) + fragment;
    assert r[..|prefix|] == prefix;
    assert r[|r| - |fragment|..] == fragment;
    r
  }

  /** The file branch: always rooted, an empty directory reads as `/`. */
  function ResolveFile(parts: UrlParts, pathPart: string, fragment: string): (r: string)
    ensures StartsWith(r, "file://")
    ensures EndsWith(r, fragment)
    ensures r == "file://" +
      NormalizePath((if DirOf(parts.path) != "" then DirOf(parts.path) else "/") + pathPart) + fragment
  {
    var dir := DirOf(parts.path);
    var joined := NormalizePath((if dir != "" then dir else "/") + pathPart);
    Glue("file://", joined, fragment);
    "file://" + joined + fragment
  }

  /** `resolveRelative`. `isDir` stands for the file-system query `is_dir`.
      The fragment of `ref` is always carried over verbatim; a pure fragment
      stays in the base document; an http(s) base keeps its scheme, host and
      port; a file base stays a rooted file URI; an unknown scheme gives the
      reference back untouched. */
  function ResolveRelative(baseUri: string, ref: string, isDir: string -> bool): (r: string)
    ensures EndsWith(r, Fragment(ref))
    ensures Before(ref, '#') == "" ==> r == baseUri + ref
    ensures Before(ref, '#') != "" && UrlScheme(baseUri) in {"http", "https"} ==>
      StartsWith(r, UrlScheme(baseUri) + "://" + ParseUrl(baseUri).GetOr(NoParts).host)
    ensures Before(ref, '#') != "" && UrlScheme(baseUri) == "file" ==> StartsWith(r, "file://")
    ensures Before(ref, '#') != "" && UrlScheme(baseUri) !in {"http", "https", "file", ""} ==> r == ref
    // the joins: the base query is never carried over
    ensures var parts := ParseUrl(baseUri).GetOr(NoParts);
      Before(ref, '#') != "" && parts.scheme in {"http", "https"} ==>
        r == parts.scheme + "://" + parts.host + PortText(parts.port) +
          NormalizePath(DirOf(parts.path) + Before(ref, '#')) + Fragment(ref)
    ensures var parts := ParseUrl(baseUri).GetOr(NoParts);
      Before(ref, '#') != "" && parts.scheme == "file" ==>
        r == "file://" + NormalizePath((if DirOf(parts.path) != "" then DirOf(parts.path) else "/") +
          Before(ref, '#')) + Fragment(ref)
    ensures Before(ref, '#') != "" && UrlScheme(baseUri) == "" ==>
      r == NormalizePath(BaseDir(baseUri, isDir) + Before(ref, '#')) + Fragment(ref)
  {
    var pathPart := Before(ref, '#');
    var fragment := Fragment(ref);
    if pathPart == "" then baseUri + fragment
    else
      var parts := ParseUrl(baseUri).GetOr(NoParts);
      if parts.scheme == "http" || parts.scheme == "https" then ResolveHttp(parts, pathPart, fragment)
      else if parts.scheme == "file" then ResolveFile(parts, pathPart, fragment)
      else if parts.scheme == "" then
        var joined := NormalizePath(BaseDir(baseUri, isDir) + pathPart);
        Glue("", joined, fragment);
        joined + fragment
      else
        assert EndsWith(ref, fragment) by {
          assert ref[|ref| - |fragment|..] == fragment;
        }
        ref
  }

  /** The scheme `resolveRelative` dispatches on (empty when `parse_url` fails). */
  function UrlScheme(baseUri: string): string {
    ParseUrl(baseUri).GetOr(NoParts).scheme
  }

  // ---------------------------------------------------------------------------
  // splitRef / makeCacheKey

  /** `splitRef`: the target document and the JSON Pointer of a reference.
      The pointer is the text after the first `#` (empty without one); a
      pure fragment targets the base document itself; otherwise the target is
      the resolved URI cut at its first `#`. */
  function SplitRef(baseUri: string, ref: string, isDir: string -> bool): (r: (string, string))
    ensures '#' in ref ==> ref == Before(ref, '#') + "#" + r.1
    ensures '#' !in ref ==> r.1 == ""
    ensures Before(ref, '#') == "" ==> r.0 == baseUri
    ensures Before(ref, '#') != "" ==>
      '#' !in r.0 && StartsWith(ResolveRelative(baseUri, Before(ref, '#'), isDir), r.0)
    ensures Before(ref, '#') != "" ==> r.0 == Before(ResolveRelative(baseUri, Before(ref, '#'), isDir), '#')
  {
    var pathPart := Before(ref, '#');
    var pointer := if '#' in ref then ref[|pathPart| + 1..] else "";
    assert '#' in ref ==> ref == pathPart + "#" + pointer by {
      if '#' in ref {
        assert ref == ref[..|pathPart|] + [ref[|pathPart|]] + ref[|pathPart| + 1..];
      }
    }
    if pathPart == "" then (baseUri, pointer)
    else (Before(ResolveRelative(baseUri, pathPart, isDir), '#'), pointer)
  }

  /** `makeCacheKey`: the target document and the pointer glued with `#`. */
  function MakeCacheKey(baseUri: string, ref: string, isDir: string -> bool): (key: string)
    ensures var (t, p) := SplitRef(baseUri, ref, isDir); key == t + "#" + p
  {
    var (t, p) := SplitRef(baseUri, ref, isDir);
    t + "#" + p
  }

  /** The key of a pure fragment is the base URI followed by the reference. */
  lemma LocalCacheKey(baseUri: string, ref: string, isDir: string -> bool)
    requires StartsWith(ref, "#")
    ensures MakeCacheKey(baseUri, ref, isDir) == baseUri + ref
  {
    assert ref[0] == '#';
    assert Before(ref, '#') == "";
  }

  /** Keys of targets without `#` identify the (target, pointer) pair:
      splitting a key at its first `#` gives both parts back. */
  lemma CacheKeyInjective(t1: string, p1: string, t2: string, p2: string)
    requires '#' !in t1 && '#' !in t2
    requires t1 + "#" + p1 == t2 + "#" + p2
    ensures t1 == t2 && p1 == p2
  {
    IndexOfAfter(t1, '#', p1);
    IndexOfAfter(t2, '#', p2);
    assert t1 + "#" + p1 == t1 + ['#'] + p1;
    assert t2 + "#" + p2 == t2 + ['#'] + p2;
    var k := t1 + "#" + p1;
    assert t1 == k[..|t1|] && t2 == k[..|t2|];
    assert p1 == k[|t1| + 1..] && p2 == k[|t2| + 1..];
  }

  // ---------------------------------------------------------------------------
  // Resolving against a base: the joins at work

  /** A path segment `normalizePath` pushes unchanged; it holds no separator,
      query or fragment mark. */
  predicate Plain(s: string) {
    s != "" && s != "." && s != ".." && '/' !in s && '#' !in s && '?' !in s
  }

  /** The directory of `dir + file` for a slash-free file name is `dir`. */
  lemma DirOfFile(dir: string, file: string)
    requires EndsWith(dir, "/") && file != "" && '/' !in file
    ensures DirOf(dir + file) == dir
  {
    var p := dir + file;
    assert p[|dir| - 1] == '/';
    assert p[|dir| - 1] in p;
    var r := DirOf(p);
    assert forall k :: |r| <= k < |p| ==> p[k] != '/' by {
      forall k | |r| <= k < |p| ensures p[k] != '/' {
        assert p[k] == p[|r|..][k - |r|];
      }
    }
    assert forall k :: |dir| <= k < |p| ==> p[k] != '/' by {
      forall k | |dir| <= k < |p| ensures p[k] != '/' {
        assert p[k] == file[k - |dir|];
      }
    }
    assert p[|r| - 1] == '/';
    assert r == p[..|r|];
  }

  lemma JoinCons(head: string, rest: seq<string>)
    requires |rest| >= 1
    ensures Join([head] + rest, '/') == head + "/" + Join(rest, '/')
  {
    assert ([head] + rest)[1..] == rest;
  }

  /** Joining a rooted list of segments, written out. */
  lemma JoinRooted3(a: string, b: string)
    ensures Join(["", a, b], '/') == "/" + a + "/" + b
  {
    JoinCons(a, [b]);
    assert [a] + [b] == [a, b];
    JoinCons("", [a, b]);
    assert [""] + [a, b] == ["", a, b];
  }

  lemma JoinRooted4(a: string, b: string, c: string)
    ensures Join(["", a, b, c], '/') == "/" + a + "/" + b + "/" + c
  {
    JoinCons(b, [c]);
    assert [b] + [c] == [b, c];
    JoinCons(a, [b, c]);
    assert [a] + [b, c] == [a, b, c];
    JoinCons("", [a, b, c]);
    assert [""] + [a, b, c] == ["", a, b, c];
  }

  lemma JoinRooted5(a: string, b: string, c: string, d: string)
    ensures Join(["", a, b, c, d], '/') == "/" + a + "/" + b + "/" + c + "/" + d
  {
    JoinCons(c, [d]);
    assert [c] + [d] == [c, d];
    JoinCons(b, [c, d]);
    assert [b] + [c, d] == [b, c, d];
    JoinCons(a, [b, c, d]);
    assert [a] + [b, c, d] == [a, b, c, d];
    JoinCons("", [a, b, c, d]);
    assert [""] + [a, b, c, d] == ["", a, b, c, d];
  }

  /** One turn of the loop, then the rest. */
  lemma FoldCons(stack: seq<string>, seg: string, rest: seq<string>)
    ensures Fold(stack, [seg] + rest) == Fold(Step(stack, seg), rest)
  {
    assert ([seg] + rest)[0] == seg && ([seg] + rest)[1..] == rest;
  }

  /** `normalizePath` of a joined segment list is the join of what the loop
      leaves on the stack. */
  lemma NormalizeJoined(segs: seq<string>)
    requires |segs| >= 1
    requires forall i :: 0 <= i < |segs| ==> '/' !in segs[i]
    requires Join(Fold([], segs), '/') != ""
    ensures NormalizePath(Join(segs, '/')) == Join(Fold([], segs), '/')
  {
    SplitJoin(segs, '/');
  }

  /** `..` pops the directory it follows. */
  lemma NormalizeParent(a: string, b: string, g: string)
    requires Plain(a) && Plain(b) && Plain(g)
    ensures NormalizePath("/" + a + "/" + b + "/" + ".." + "/" + g) == "/" + a + "/" + g
  {
    var segs := ["", a, b, "..", g];
    JoinRooted5(a, b, "..", g);
    FoldCons([], "", [a, b, "..", g]);
    FoldCons([""], a, [b, "..", g]);
    assert Step([""], a) == ["", a];
    FoldCons(["", a], b, ["..", g]);
    assert Step(["", a], b) == ["", a, b];
    FoldCons(["", a, b], "..", [g]);
    assert Step(["", a, b], "..") == ["", a, b][..2] == ["", a];
    FoldCons(["", a], g, []);
    assert Step(["", a], g) == ["", a, g];
    assert Fold([], segs) == ["", a, g];
    JoinRooted3(a, g);
    NormalizeJoined(segs);
  }

  /** `.` is dropped. */
  lemma NormalizeCurrent(a: string, g: string)
    requires Plain(a) && Plain(g)
    ensures NormalizePath("/" + a + "/" + "." + "/" + g) == "/" + a + "/" + g
  {
    var segs := ["", a, ".", g];
    JoinRooted4(a, ".", g);
    FoldCons([], "", [a, ".", g]);
    FoldCons([""], a, [".", g]);
    assert Step([""], a) == ["", a];
    FoldCons(["", a], ".", [g]);
    FoldCons(["", a], g, []);
    assert Step(["", a], g) == ["", a, g];
    assert Fold([], segs) == ["", a, g];
    JoinRooted3(a, g);
    NormalizeJoined(segs);
  }

  /** A path of plain segments is already normal. */
  lemma NormalizePlain(a: string, g: string)
    requires Plain(a) && Plain(g)
    ensures NormalizePath("/" + a + "/" + g) == "/" + a + "/" + g
  {
    var segs := ["", a, g];
    JoinRooted3(a, g);
    FoldCons([], "", [a, g]);
    FoldCons([""], a, [g]);
    assert Step([""], a) == ["", a];
    FoldCons(["", a], g, []);
    assert Step(["", a], g) == ["", a, g];
    assert Fold([], segs) == ["", a, g];
    NormalizeJoined(segs);
  }

  /** A `#`-free reference has no fragment and is its own path part. */
  lemma NoFragment(ref: string)
    requires '#' !in ref
    ensures Before(ref, '#') == ref && Fragment(ref) == ""
  {
  }

  /** A reference with a fragment splits at its first `#`. */
  lemma WithFragment(pathPart: string, pointer: string)
    requires '#' !in pathPart
    ensures Before(pathPart + "#" + pointer, '#') == pathPart
    ensures Fragment(pathPart + "#" + pointer) == "#" + pointer
  {
    var ref := pathPart + "#" + pointer;
    assert ref == pathPart + ['#'] + pointer;
    IndexOfAfter(pathPart, '#', pointer);
    assert ref[..|pathPart|] == pathPart;
    assert ref[|pathPart|..] == "#" + pointer;
  }

  /** A file base with a rooted path: the path part of the reference is
      joined onto the directory of that path. */
  lemma ResolveFileAt(path: string, ref: string, isDir: string -> bool)
    requires StartsWith(path, "/") && '?' !in path && '#' !in path
    requires Before(ref, '#') != "" && DirOf(path) != ""
    ensures ResolveRelative("file://" + path, ref, isDir) ==
      "file://" + NormalizePath(DirOf(path) + Before(ref, '#')) + Fragment(ref)
  {
    FileParts(path);
  }

  lemma FileParts(path: string)
    requires StartsWith(path, "/") && '?' !in path && '#' !in path
    ensures ParseUrl("file://" + path).GetOr(NoParts) == UrlParts("file", "", None, path)
  {
    assert "file://" + path == "file" + "://" + "" + path;
    ParseUrlCompose("file", "", path);
  }

  /** An http base with a plain host: the path part of the reference is
      joined onto the directory of the base path. */
  lemma ResolveHttpAt(host: string, path: string, ref: string, isDir: string -> bool)
    requires '/' !in host && ':' !in host && '?' !in host && '#' !in host
    requires StartsWith(path, "/") && '?' !in path && '#' !in path
    requires Before(ref, '#') != ""
    ensures ResolveRelative("http://" + host + path, ref, isDir) ==
      "http://" + host + NormalizePath(DirOf(path) + Before(ref, '#')) + Fragment(ref)
  {
    HttpPrefix(host);
    HttpParts(host, path);
  }

  lemma HttpPrefix(host: string)
    ensures "http" + "://" + host + PortText(None) == "http://" + host
  {
    assert "http" + "://" == "http://";
  }

  lemma HttpParts(host: string, path: string)
    requires '/' !in host && ':' !in host && '?' !in host && '#' !in host
    requires StartsWith(path, "/") && '?' !in path && '#' !in path
    ensures ParseUrl("http://" + host + path).GetOr(NoParts) == UrlParts("http", host, None, path)
  {
    assert "http://" + host + path == "http" + "://" + host + path;
    ParseUrlCompose("http", host, path);
  }

  /** `parse_url` never looks past the query mark. */
  lemma QueryIgnored(baseUri: string, query: string)
    requires '?' !in baseUri && '#' !in baseUri && '#' !in query
    ensures ParseUrl(baseUri + "?" + query) == ParseUrl(baseUri)
  {
    var s := baseUri + "?" + query;
    BeforeAbsent(s, '#');
    BeforeAbsent(baseUri, '#');
    BeforeAbsent(baseUri, '?');
    assert s == baseUri + ['?'] + query;
    IndexOfAfter(baseUri, '?', query);
    assert s[..|baseUri|] == baseUri;
  }

  /** An http(s) base loses its query: the reference replaces the whole path
      and query. */
  lemma HttpQueryDropped(baseUri: string, query: string, ref: string, isDir: string -> bool)
    requires '?' !in baseUri && '#' !in baseUri && '#' !in query
    requires UrlScheme(baseUri) in {"http", "https"} && Before(ref, '#') != ""
    ensures ResolveRelative(baseUri + "?" + query, ref, isDir) == ResolveRelative(baseUri, ref, isDir)
  {
    QueryIgnored(baseUri, query);
  }

  /** The path of `file:///a/b/f` and its directory. */
  lemma ParentPath(a: string, b: string, f: string)
    requires Plain(a) && Plain(b) && Plain(f)
    ensures var path := "/" + a + "/" + b + "/" + f;
      && StartsWith(path, "/") && '?' !in path && '#' !in path
      && DirOf(path) == "/" + a + "/" + b + "/"
  {
    var dir := "/" + a + "/" + b + "/";
    assert "/" + a + "/" + b + "/" + f == dir + f;
    DirOfFile(dir, f);
  }

  /** `../g` joined onto the directory `/a/b/`. */
  lemma ParentJoin(a: string, b: string, g: string)
    requires Plain(a) && Plain(b) && Plain(g)
    ensures NormalizePath(("/" + a + "/" + b + "/") + ("../" + g)) == "/" + a + "/" + g
  {
    assert ("/" + a + "/" + b + "/") + ("../" + g) == "/" + a + "/" + b + "/" + ".." + "/" + g;
    NormalizeParent(a, b, g);
  }

  /** A file base `file:///a/b/f` and the reference `../g`: the result
      climbs out of `b` and stays a rooted file URI. */
  lemma ResolveFileParent(a: string, b: string, f: string, g: string, isDir: string -> bool)
    requires Plain(a) && Plain(b) && Plain(f) && Plain(g)
    ensures ResolveRelative("file://" + ("/" + a + "/" + b + "/" + f), "../" + g, isDir) ==
      "file://" + ("/" + a + "/" + g)
  {
    ParentPath(a, b, f);
    ParentJoin(a, b, g);
    NoFragment("../" + g);
    ResolveFileAt("/" + a + "/" + b + "/" + f, "../" + g, isDir);
  }

  /** The same with the literal paths of a root document and a shared file. */
  lemma ResolveFileParentExample(isDir: string -> bool)
    ensures ResolveRelative("file:///var/spec/root.json", "../common.json", isDir) == "file:///var/common.json"
  {
    FileParentNames();
    FileParentSpelled();
    ResolveFileParent("var", "spec", "root.json", "common.json", isDir);
  }

  lemma FileParentNames()
    ensures Plain("var") && Plain("spec") && Plain("root.json") && Plain("common.json")
  {
  }

  lemma FileParentSpelled()
    ensures "file://" + ("/" + "var" + "/" + "spec" + "/" + "root.json") == "file:///var/spec/root.json"
    ensures "../" + "common.json" == "../common.json"
    ensures "file://" + ("/" + "var" + "/" + "common.json") == "file:///var/common.json"
  {
  }

  /** The paths of `http://h/f` and `d/g`. */
  lemma SiblingPath(f: string, d: string, g: string)
    requires Plain(f) && Plain(d) && Plain(g)
    ensures StartsWith("/" + f, "/") && '?' !in "/" + f && '#' !in "/" + f
    ensures NormalizePath(DirOf("/" + f) + (d + "/" + g)) == "/" + d + "/" + g
  {
    DirOfFile("/", f);
    assert "/" + (d + "/" + g) == "/" + d + "/" + g;
    NormalizePlain(d, g);
  }

  /** An http base `http://h/f` and the reference `d/g`: the result sits
      next to the base document. */
  lemma ResolveSibling(h: string, f: string, d: string, g: string, isDir: string -> bool)
    requires '/' !in h && ':' !in h && '?' !in h && '#' !in h
    requires Plain(f) && Plain(d) && Plain(g)
    ensures ResolveRelative("http://" + h + ("/" + f), d + "/" + g, isDir) == "http://" + h + ("/" + d + "/" + g)
  {
    NoFragment(d + "/" + g);
    SiblingPath(f, d, g);
    ResolveHttpAt(h, "/" + f, d + "/" + g, isDir);
    assert "http://" + h + ("/" + d + "/" + g) + "" == "http://" + h + ("/" + d + "/" + g);
  }

  /** An http base `http://h/f` and the reference `d/g#y`: the target is
      `http://h/d/g` next to the base document and the pointer is `y`. */
  lemma SplitRefHttp(h: string, f: string, d: string, g: string, y: string, isDir: string -> bool)
    requires '/' !in h && ':' !in h && '?' !in h && '#' !in h
    requires Plain(f) && Plain(d) && Plain(g)
    ensures SplitRef("http://" + h + ("/" + f), d + "/" + g + "#" + y, isDir) ==
      ("http://" + h + ("/" + d + "/" + g), y)
  {
    var pathPart := d + "/" + g;
    var r := SplitRef("http://" + h + ("/" + f), pathPart + "#" + y, isDir);
    WithFragment(pathPart, y);
    assert r.1 == y by {
      assert pathPart + "#" + y == pathPart + "#" + r.1;
      CancelPrefix(pathPart + "#", y, r.1);
    }
    SiblingHashFree(h, d, g);
    ResolveSibling(h, f, d, g, isDir);
  }

  lemma SiblingHashFree(h: string, d: string, g: string)
    requires '#' !in h && Plain(d) && Plain(g)
    ensures Before("http://" + h + ("/" + d + "/" + g), '#') == "http://" + h + ("/" + d + "/" + g)
  {
    BeforeAbsent("http://" + h + ("/" + d + "/" + g), '#');
  }

  lemma CancelPrefix(p: string, x: string, y: string)
    requires p + x == p + y
    ensures x == y
  {
    assert x == (p + x)[|p|..];
    assert y == (p + y)[|p|..];
  }

  /** The same with a literal host and a model file in a sub-directory. */
  lemma SplitRefHttpExample(isDir: string -> bool)
    ensures SplitRef("http://host/root.json", "models/user.json#/User", isDir) ==
      ("http://host/models/user.json", "/User")
  {
    HttpNames();
    HttpSpelled();
    SplitRefHttp("host", "root.json", "models", "user.json", "/User", isDir);
  }

  lemma HttpNames()
    ensures '/' !in "host" && ':' !in "host" && '?' !in "host" && '#' !in "host"
    ensures Plain("root.json") && Plain("models") && Plain("user.json")
  {
  }

  lemma HttpSpelled()
    ensures "http://" + "host" + ("/" + "root.json") == "http://host/root.json"
    ensures "models" + "/" + "user.json" + "#" + "/User" == "models/user.json#/User"
    ensures "http://" + "host" + ("/" + "models" + "/" + "user.json") == "http://host/models/user.json"
  {
  }

  /** The path of `file:///a/f` and its directory. */
  lemma CurrentPath(a: string, f: string)
    requires Plain(a) && Plain(f)
    ensures var path := "/" + a + "/" + f;
      && StartsWith(path, "/") && '?' !in path && '#' !in path
      && DirOf(path) == "/" + a + "/"
  {
    var dir := "/" + a + "/";
    assert "/" + a + "/" + f == dir + f;
    DirOfFile(dir, f);
  }

  /** `./g` joined onto the directory `/a/`. */
  lemma CurrentJoin(a: string, g: string)
    requires Plain(a) && Plain(g)
    ensures NormalizePath(("/" + a + "/") + ("./" + g)) == "/" + a + "/" + g
  {
    assert ("/" + a + "/") + ("./" + g) == "/" + a + "/" + "." + "/" + g;
    NormalizeCurrent(a, g);
  }

  /** A document reached through an external hop, `file:///a/f`, resolves its
      own `./g#y` next to itself: the base has switched to that document. */
  lemma ResolveCurrentDir(a: string, f: string, g: string, y: string, isDir: string -> bool)
    requires Plain(a) && Plain(f) && Plain(g)
    ensures ResolveRelative("file://" + ("/" + a + "/" + f), "./" + g + "#" + y, isDir) ==
      "file://" + ("/" + a + "/" + g) + ("#" + y)
  {
    CurrentPath(a, f);
    CurrentJoin(a, g);
    WithFragment("./" + g, y);
    ResolveFileAt("/" + a + "/" + f, "./" + g + "#" + y, isDir);
  }

  /** The same with literal names: `./c.json#/Y` inside `file:///a/b.json`. */
  lemma ResolveCurrentDirExample(isDir: string -> bool)
    ensures ResolveRelative("file:///a/b.json", "./c.json#/Y", isDir) == "file:///a/c.json#/Y"
  {
    CurrentNames();
    CurrentSpelled();
    ResolveCurrentDir("a", "b.json", "c.json", "/Y", isDir);
  }

  lemma CurrentNames()
    ensures Plain("a") && Plain("b.json") && Plain("c.json")
  {
  }

  lemma CurrentSpelled()
    ensures "file://" + ("/" + "a" + "/" + "b.json") == "file:///a/b.json"
    ensures "./" + "c.json" + "#" + "/Y" == "./c.json#/Y"
    ensures "file://" + ("/" + "a" + "/" + "c.json") + ("#" + "/Y") == "file:///a/c.json#/Y"
  {
  }

  // ---------------------------------------------------------------------------
  // getByPointer

  /** One reference token: an exact key first (a digit string coerced to an
      integer key as PHP does), then a digit string read as an integer. */
  function Lookup(node: Json, token: string): (r: Option<Json>)
    ensures !node.Arr? ==> r == None
    ensures node.Arr? && ToKey(UnescapeToken(token)) in Keys(node.entries) ==>
      r == Get(node.entries, ToKey(UnescapeToken(token)))
    // `ctype_digit` fallback: only when no exact key matches
    ensures node.Arr? && ToKey(UnescapeToken(token)) !in Keys(node.entries) && AllDigits(UnescapeToken(token)) ==>
      r == Get(node.entries, IntKey(ParseNat(UnescapeToken(token))))
    ensures node.Arr? && ToKey(UnescapeToken(token)) !in Keys(node.entries) && !AllDigits(UnescapeToken(token)) ==>
      r == None
    ensures r.Some? <==> (node.Arr? &&
      (ToKey(UnescapeToken(token)) in Keys(node.entries) ||
       (AllDigits(UnescapeToken(token)) && IntKey(ParseNat(UnescapeToken(token))) in Keys(node.entries))))
  {
    if !node.Arr? then None
    else
      var key := UnescapeToken(token);
      match Get(node.entries, ToKey(key))
      case Some(v) => Some(v)
      case None =>
        if AllDigits(key) then Get(node.entries, IntKey(ParseNat(key))) else None
  }

  /** Follows the tokens; `null` when a step finds nothing. */
  function Follow(node: Json, tokens: seq<string>): Json
    decreases |tokens|
  {
    if |tokens| == 0 then node
    else
      match Lookup(node, tokens[0])
      case None => Null
      case Some(v) => Follow(v, tokens[1..])
  }

  /** The node the tokens reach one `Lookup` at a time, or nothing when a
      step finds nothing; unlike `Follow`, a stored `null` and a missing
      step stay apart. */
  ghost function Reach(node: Json, tokens: seq<string>): Option<Json>
    decreases |tokens|
  {
    if |tokens| == 0 then Some(node)
    else if Lookup(node, tokens[0]).None? then None
    else Reach(Lookup(node, tokens[0]).value, tokens[1..])
  }

  lemma {:induction false} FollowReach(node: Json, tokens: seq<string>)
    ensures Follow(node, tokens) == Reach(node, tokens).GetOr(Null)
    decreases |tokens|
  {
    if |tokens| > 0 && Lookup(node, tokens[0]).Some? {
      FollowReach(Lookup(node, tokens[0]).value, tokens[1..]);
    }
  }

  /** The reference tokens of a pointer; a pointer without a leading slash is
      read as if it had one. */
  function Tokens(pointer: string): (ts: seq<string>)
    ensures forall i :: 0 <= i < |ts| ==> '/' !in ts[i]
    // the tokens are the pieces after the leading `/`, which is added first when missing
    ensures Join([""] + ts, '/') == if StartsWith(pointer, "/") then pointer else "/" + pointer
  {
    var p := if StartsWith(pointer, "/") then pointer else "/" + pointer;
    SlashLed(pointer);
    SplitHead(p);
    var parts := Split(p, '/');
    assert parts == [""] + parts[1..];
    parts[1..]
  }

  lemma SlashLed(pointer: string)
    ensures StartsWith("/" + pointer, "/")
  {
    assert ("/" + pointer)[..1] == "/";
  }

  /** `getByPointer`: the empty pointer is the whole document; any other
      pointer gives the node its tokens reach, and `null` when a step finds
      nothing (a stored `null` reads the same). */
  function GetByPointer(doc: Entries, pointer: string): (r: Json)
    ensures pointer == "" ==> r == Arr(doc)
    ensures pointer != "" ==> r == Reach(Arr(doc), Tokens(pointer)).GetOr(Null)
  {
    if pointer == "" then Arr(doc)
    else
      FollowReach(Arr(doc), Tokens(pointer));
      Follow(Arr(doc), Tokens(pointer))
  }

  /** A non-empty pointer without its leading slash reads as if it had one. */
  lemma MissingSlashTolerated(doc: Entries, pointer: string)
    requires pointer != "" && !StartsWith(pointer, "/")
    ensures GetByPointer(doc, pointer) == GetByPointer(doc, "/" + pointer)
  {
    SlashLed(pointer);
  }

  /** Once a step finds nothing, the whole path does not resolve. */
  lemma {:induction false} ReachMiss(node: Json, tokens: seq<string>, i: nat)
    requires i < |tokens| && Reach(node, tokens[..i]).Some?
    requires Lookup(Reach(node, tokens[..i]).value, tokens[i]).None?
    ensures Reach(node, tokens).None?
    decreases i
  {
    if i > 0 {
      var v := Lookup(node, tokens[0]).value;
      assert tokens[..i][1..] == tokens[1..][..i - 1];
      ReachMiss(v, tokens[1..], i - 1);
    }
  }

  /** A step that finds nothing makes `getByPointer` return `null`, whatever
      the later tokens are. */
  lemma MissedStepIsNull(doc: Entries, pointer: string, i: nat)
    requires pointer != ""
    requires var ts := Tokens(pointer);
      i < |ts| && Reach(Arr(doc), ts[..i]).Some? && Lookup(Reach(Arr(doc), ts[..i]).value, ts[i]).None?
    ensures GetByPointer(doc, pointer) == Null
  {
    ReachMiss(Arr(doc), Tokens(pointer), i);
  }

  /** The exact path a sequence of keys names in a tree. */
  ghost function At(node: Json, keys: seq<Key>): Option<Json>
    decreases |keys|
  {
    if |keys| == 0 then Some(node)
    else if !node.Arr? then None
    else
      match Get(node.entries, keys[0])
      case None => None
      case Some(v) => At(v, keys[1..])
  }

  /** The escaped text of each key of a path. */
  function KeyTokens(keys: seq<Key>): (ts: seq<string>)
    ensures |ts| == |keys|
    ensures forall i :: 0 <= i < |keys| ==> ts[i] == EscapeToken(KeyText(keys[i]))
  {
    seq(|keys|, i requires 0 <= i < |keys| => EscapeToken(KeyText(keys[i])))
  }

  lemma KeyTokensTail(keys: seq<Key>)
    requires |keys| > 0
    ensures KeyTokens(keys)[1..] == KeyTokens(keys[1..])
  {
  }

  /** One step of `Follow` through a token that finds `v`. */
  lemma FollowStep(node: Json, tokens: seq<string>, v: Json)
    requires |tokens| > 0 && Lookup(node, tokens[0]) == Some(v)
    ensures Follow(node, tokens) == Follow(v, tokens[1..])
  {
  }

  /** Following the escaped texts of well-formed keys reaches what the keys
      name. */
  lemma {:induction false} FollowKeys(node: Json, keys: seq<Key>)
    requires forall i :: 0 <= i < |keys| ==> WellKeyed(keys[i])
    requires At(node, keys).Some?
    ensures Follow(node, KeyTokens(keys)) == At(node, keys).value
    decreases |keys|
  {
    if |keys| > 0 {
      var ts := KeyTokens(keys);
      KeyRoundTrip(keys[0]);
      assert UnescapeToken(ts[0]) == KeyText(keys[0]);
      var v := Get(node.entries, keys[0]).value;
      assert Lookup(node, ts[0]) == Some(v);
      FollowStep(node, ts, v);
      KeyTokensTail(keys);
      FollowKeys(v, keys[1..]);
    }
  }

  /** A digit token falls back to the integer key when no exact key matches:
      `/007` reaches the element at index 7. */
  lemma DigitFallback(v: Json)
    ensures GetByPointer([(IntKey(7), v)], "/007") == v
  {
    var doc := [(IntKey(7), v)];
    TokensOf007();
    UnescapeOf007();
    ParseOf007();
    assert ToKey("007") == StrKey("007");
    assert Get(doc, StrKey("007")) == None;
    assert Get(doc, IntKey(7)) == Some(v);
    assert Lookup(Arr(doc), "007") == Some(v);
    assert Follow(Arr(doc), ["007"]) == Follow(v, []);
  }

  lemma TokensOf007()
    ensures Tokens("/007") == ["007"]
  {
    assert Join(["", "007"], '/') == "/007";
    SplitJoin(["", "007"], '/');
  }

  lemma UnescapeOf007()
    ensures UnescapeToken("007") == "007"
  {
    assert Replace("007", "~1", "/") == "007" by {
      ReplaceCons('0', "07", "~1", "/");
      ReplaceCons('0', "7", "~1", "/");
    }
    assert Replace("007", "~0", "~") == "007" by {
      ReplaceCons('0', "07", "~0", "~");
      ReplaceCons('0', "7", "~0", "~");
    }
  }

  lemma ParseOf007()
    ensures AllDigits("007") && ParseNat("007") == 7
  {
    assert "007"[..2] == "00" && "00"[..1] == "0" && "0"[..0] == "";
  }
}

=== FILE: validation.dfy ===
/** What validation rules see and produce: the `ValidationContext` they run
    in (profile, strictness, base URI and the JSON Pointer of the node being
    checked), the `ValidationError` items they report and the
    `ValidationReport` that collects them. */
module Validation {
  import opened Wrappers
  import opened Text
  import PathContexts

  datatype Severity = Error | Warning | Info

  datatype Strictness = Strict | Lenient

  /** One finding: where, a stable code, a message, how bad, which profile
      found it, and an optional hint. */
  datatype Issue = Issue(
    pointer: string,
    code: string,
    message: string,
    severity: Severity,
    sourceVersion: Option<string>,
    hint: Option<string>)

  /** `ValidationError::error($pointer, $code, $message)`. */
  function ErrorAt(pointer: string, code: string, message: string): (e: Issue)
    ensures e.severity == Error && e.pointer == pointer && e.code == code
    ensures e.message == message && e.hint == None && e.sourceVersion == None
  {
    Issue(pointer, code, message, Error, None, None)
  }

  // ---------------------------------------------------------------------------
  // ValidationContext

  /** The active profile is represented by its `major.minor` id. */
  datatype Context = Context(profile: string, strictness: Strictness, baseUri: Option<string>, pointer: string) {

    /** `withPointer`: the same context at another node. */
    function WithPointer(p: string): (c: Context)
      ensures c.pointer == p
      ensures c.profile == profile && c.strictness == strictness && c.baseUri == baseUri
    {
      Context(profile, strictness, baseUri, p)
    }

    /** `child($segment)`: one level deeper. From the root `#` the pointer
        becomes `#/` and the escaped segment, elsewhere the current pointer,
        a slash and the escaped segment; the new last token holds no slash and
        unescapes to the segment. */
    function Child(segment: string): (c: Context)
      ensures c.profile == profile && c.strictness == strictness && c.baseUri == baseUri
      ensures var prefix := if pointer == "#" then "#/" else pointer + "/";
        && StartsWith(c.pointer, prefix)
        && '/' !in c.pointer[|prefix|..]
        && UnescapeToken(c.pointer[|prefix|..]) == segment
    {
      var escaped := EscapeToken(segment);
      var ptr := if pointer == "#" then "#/" + escaped else pointer + "/" + escaped;
      assert ptr[|ptr| - |escaped|..] == escaped;
      WithPointer(ptr)
    }
  }

  /** The constructor with its defaults: no base URI, pointer `#`. */
  function NewContext(profile: string, strictness: Strictness): (c: Context)
    ensures c.pointer == "#" && c.baseUri == None
    ensures c.profile == profile && c.strictness == strictness
  {
    Context(profile, strictness, None, "#")
  }

  /** `child` applied once per segment, left to right. */
  function Descend(ctx: Context, segments: seq<string>): (c: Context)
    ensures c.profile == ctx.profile && c.strictness == ctx.strictness && c.baseUri == ctx.baseUri
    decreases |segments|
  {
    if segments == [] then ctx else Descend(ctx.Child(segments[0]), segments[1..])
  }

  /** Every segment escaped and preceded by a slash. */
  function Slashed(segments: seq<string>): string
    decreases |segments|
  {
    if segments == [] then "" else "/" + EscapeToken(segments[0]) + Slashed(segments[1..])
  }

  lemma {:induction false} DescendAppends(ctx: Context, segments: seq<string>)
    requires ctx.pointer != "#"
    ensures Descend(ctx, segments).pointer == ctx.pointer + Slashed(segments)
    decreases |segments|
  {
    if segments != [] {
      var next := ctx.Child(segments[0]);
      ChildAppends(ctx, segments[0]);
      DescendAppends(next, segments[1..]);
      AppendAssoc(ctx.pointer, "/" + EscapeToken(segments[0]), Slashed(segments[1..]));
    }
  }

  /** Below the root, `child` appends a slash and the escaped segment. */
  lemma ChildAppends(ctx: Context, segment: string)
    requires ctx.pointer != "#"
    ensures ctx.Child(segment).pointer == ctx.pointer + ("/" + EscapeToken(segment))
    ensures ctx.Child(segment).pointer != "#"
  {
    var tail := "/" + EscapeToken(segment);
    AppendAssoc(ctx.pointer, "/", EscapeToken(segment));
    assert ctx.Child(segment).pointer == ctx.pointer + tail;
    assert (ctx.pointer + tail)[|ctx.pointer|] == tail[0] == '/';
  }

  lemma AppendAssoc(a: string, b: string, c: string)
    ensures a + b + c == a + (b + c)
  {
  }

  lemma {:induction false} SlashedJoin(segments: seq<string>)
    requires segments != []
    ensures Slashed(segments) == "/" + Join(PathContexts.EscapedAll(segments), '/')
    decreases |segments|
  {
    var escaped := PathContexts.EscapedAll(segments);
    EscapedTail(segments);
    if |segments| > 1 {
      SlashedJoin(segments[1..]);
      SlashCons(escaped[0], Join(escaped[1..], '/'));
    } else {
      SlashedOne(segments);
    }
  }

  lemma EscapedTail(segments: seq<string>)
    requires segments != []
    ensures var escaped := PathContexts.EscapedAll(segments);
      escaped[0] == EscapeToken(segments[0]) && PathContexts.EscapedAll(segments[1..]) == escaped[1..]
  {
    assert PathContexts.EscapedAll(segments[1..]) == PathContexts.EscapedAll(segments)[1..];
  }

  lemma SlashCons(a: string, rest: string)
    ensures "/" + a + ("/" + rest) == "/" + (a + ['/'] + rest)
  {
  }

  lemma SlashedOne(segments: seq<string>)
    requires |segments| == 1
    ensures Slashed(segments) == "/" + EscapeToken(segments[0])
  {
    assert Slashed(segments[1..]) == "";
    assert "/" + EscapeToken(segments[0]) + "" == "/" + EscapeToken(segments[0]);
  }

  /** The validator's pointer and the parser's pointer agree: descending
      from the root context through some segments yields `#` followed by the
      pointer a `PathContext` with those segments renders. */
  lemma DescendFromRoot(profile: string, strictness: Strictness, segments: seq<string>, baseUri: string)
    ensures Descend(NewContext(profile, strictness), segments).pointer
         == "#" + PathContexts.PathContext(baseUri, segments).Pointer()
  {
    var root := NewContext(profile, strictness);
    if segments != [] {
      var first := root.Child(segments[0]);
      assert first.pointer == "#/" + EscapeToken(segments[0]);
      assert first.pointer != "#";
      DescendAppends(first, segments[1..]);
      SlashedJoin(segments);
    }
  }

  // ---------------------------------------------------------------------------
  // ValidationReport

  /** `array_values(array_filter($items, severity === $sev))`. */
  function OfSeverity(items: seq<Issue>, sev: Severity): (r: seq<Issue>)
    ensures |r| <= |items|
    ensures forall x :: x in r <==> x in items && x.severity == sev
    decreases |items|
  {
    if items == [] then []
    else
      var init := items[..|items| - 1];
      var last := items[|items| - 1];
      assert items == init + [last];
      if last.severity == sev then OfSeverity(init, sev) + [last] else OfSeverity(init, sev)
  }

  /** Filtering distributes over concatenation, so the order of the items
      kept is their order in the report. */
  lemma {:induction false} OfSeverityAppend(a: seq<Issue>, b: seq<Issue>, sev: Severity)
    ensures OfSeverity(a + b, sev) == OfSeverity(a, sev) + OfSeverity(b, sev)
    decreases |b|
  {
    if b != [] {
      var init := b[..|b| - 1];
      assert a + b == (a + init) + [b[|b| - 1]];
      assert (a + b)[..|a + b| - 1] == a + init;
      OfSeverityAppend(a, init, sev);
    } else {
      assert a + b == a;
    }
  }

  /** Every item has exactly one severity. */
  lemma {:induction false} SeverityPartition(items: seq<Issue>)
    ensures |OfSeverity(items, Error)| + |OfSeverity(items, Warning)| + |OfSeverity(items, Info)| == |items|
    decreases |items|
  {
    if items != [] {
      SeverityPartition(items[..|items| - 1]);
    }
  }

  /** The items at one pointer, in report order. */
  function AtPointer(items: seq<Issue>, p: string): (r: seq<Issue>)
    ensures forall x :: x in r <==> x in items && x.pointer == p
    decreases |items|
  {
    if items == [] then []
    else
      var init := items[..|items| - 1];
      var last := items[|items| - 1];
      assert items == init + [last];
      if last.pointer == p then AtPointer(init, p) + [last] else AtPointer(init, p)
  }

  type Groups = seq<(string, seq<Issue>)>

  function Names(g: Groups): (r: seq<string>)
    ensures |r| == |g|
    ensures forall i :: 0 <= i < |g| ==> r[i] == g[i].0
  {
    seq(|g|, i requires 0 <= i < |g| => g[i].0)
  }

  function Pointers(items: seq<Issue>): (r: seq<string>)
    ensures |r| == |items|
    ensures forall i :: 0 <= i < |items| ==> r[i] == items[i].pointer
  {
    seq(|items|, i requires 0 <= i < |items| => items[i].pointer)
  }

  predicate Distinct(s: seq<string>) {
    forall i, j :: 0 <= i < j < |s| ==> s[i] != s[j]
  }

  /** `r` is `g` with `e` appended to the group of its pointer, or with a
      new group `[e]` at the end when no group has that pointer yet. */
  predicate AddedTo(g: Groups, e: Issue, r: Groups) {
    && |r| == (if e.pointer in Names(g) then |g| else |g| + 1)
    && (forall i :: 0 <= i < |g| ==>
          r[i].0 == g[i].0 && r[i].1 == g[i].1 + (if g[i].0 == e.pointer then [e] else []))
    && (e.pointer !in Names(g) ==> r[|g|] == (e.pointer, [e]))
  }

  /** `$out[$e->pointer][] = $e`: append to the pointer's group, opening a
      new group at the end when the pointer is new. */
  function AddTo(g: Groups, e: Issue): (r: Groups)
    requires Distinct(Names(g))
    ensures AddedTo(g, e, r)
    decreases |g|
  {
    if g == [] then [(e.pointer, [e])]
    else if g[0].0 == e.pointer then
      AddHead(g, e);
      [(g[0].0, g[0].1 + [e])] + g[1..]
    else
      DistinctTail(g);
      var rest := AddTo(g[1..], e);
      AddCons(g, e, rest);
      [g[0]] + rest
  }

  lemma NamesCons(g: Groups)
    requires g != []
    ensures Names(g) == [g[0].0] + Names(g[1..])
  {
  }

  lemma DistinctTail(g: Groups)
    requires g != [] && Distinct(Names(g))
    ensures Distinct(Names(g[1..]))
    ensures g[0].0 !in Names(g[1..])
  {
    NamesCons(g);
  }

  /** The item joins the first group. */
  lemma AddHead(g: Groups, e: Issue)
    requires g != [] && Distinct(Names(g)) && g[0].0 == e.pointer
    ensures AddedTo(g, e, [(g[0].0, g[0].1 + [e])] + g[1..])
  {
    DistinctTail(g);
    assert e.pointer in Names(g);
    forall i | 1 <= i < |g|
      ensures g[i].0 != e.pointer
    {
      assert Names(g)[i] == g[i].0;
    }
  }

  /** The item goes past the first group into the rest. */
  lemma AddCons(g: Groups, e: Issue, rest: Groups)
    requires g != [] && g[0].0 != e.pointer
    requires AddedTo(g[1..], e, rest)
    ensures AddedTo(g, e, [g[0]] + rest)
  {
    NamesCons(g);
    var r := [g[0]] + rest;
    var tail := g[1..];
    assert e.pointer in Names(g) <==> e.pointer in Names(tail);
    forall i | 0 <= i < |g|
      ensures r[i].0 == g[i].0 && r[i].1 == g[i].1 + (if g[i].0 == e.pointer then [e] else [])
    {
      if i > 0 {
        assert r[i] == rest[i - 1] && g[i] == tail[i - 1];
      }
    }
    if e.pointer !in Names(g) {
      assert r[|g|] == rest[|tail|];
    }
  }

  /** Adding an item keeps the group names distinct and adds its pointer. */
  lemma AddToNames(g: Groups, e: Issue)
    requires Distinct(Names(g))
    ensures Distinct(Names(AddTo(g, e)))
    ensures forall p :: p in Names(AddTo(g, e)) <==> p in Names(g) || p == e.pointer
  {
    var r := AddTo(g, e);
    if e.pointer in Names(g) {
      assert Names(r) == Names(g);
    } else {
      assert Names(r) == Names(g) + [e.pointer];
    }
  }

  /** `groupByPointer()`: one group per distinct pointer, each holding
      exactly the items at that pointer in report order. */
  function Group(items: seq<Issue>): (r: Groups)
    ensures Distinct(Names(r))
    ensures forall p :: p in Names(r) <==> p in Pointers(items)
    ensures forall i :: 0 <= i < |r| ==> r[i].1 == AtPointer(items, r[i].0) && r[i].1 != []
    decreases |items|
  {
    if items == [] then []
    else
      var init := items[..|items| - 1];
      var e := items[|items| - 1];
      assert items == init + [e];
      var g := Group(init);
      var r := AddTo(g, e);
      AddToNames(g, e);
      assert Pointers(items) == Pointers(init) + [e.pointer];
      forall i | 0 <= i < |r|
        ensures r[i].1 == AtPointer(items, r[i].0) && r[i].1 != []
      {
        AtPointerSnoc(init, e, r[i].0);
        if i == |g| {
          assert e.pointer !in Pointers(init);
          AtPointerAbsent(init, e.pointer);
        }
      }
      r
  }

  lemma AtPointerSnoc(init: seq<Issue>, e: Issue, p: string)
    ensures AtPointer(init + [e], p) == AtPointer(init, p) + (if e.pointer == p then [e] else [])
  {
    assert (init + [e])[..|init|] == init;
  }

  lemma {:induction false} AtPointerAbsent(items: seq<Issue>, p: string)
    requires p !in Pointers(items)
    ensures AtPointer(items, p) == []
    decreases |items|
  {
    if items != [] {
      var init := items[..|items| - 1];
      assert Pointers(init) == Pointers(items)[..|init|];
      AtPointerAbsent(init, p);
    }
  }

  /** `ValidationReport`: the items, renumbered as a list. */
  datatype Report = Report(items: seq<Issue>) {

    /** `isOk()`: no item is an error. */
    predicate IsOk()
    {
      Errors() == []
    }

    function All(): (r: seq<Issue>)
      ensures |r| == Count()
      ensures forall i :: 0 <= i < |r| ==> r[i] == items[i]
    {
      items
    }

    function Errors(): (r: seq<Issue>)
      ensures forall x :: x in r <==> x in items && x.severity == Error
    {
      OfSeverity(items, Error)
    }

    function Warnings(): (r: seq<Issue>)
      ensures forall x :: x in r <==> x in items && x.severity == Warning
    {
      OfSeverity(items, Warning)
    }

    function Infos(): (r: seq<Issue>)
      ensures forall x :: x in r <==> x in items && x.severity == Info
    {
      OfSeverity(items, Info)
    }

    function Count(): (n: nat)
      ensures n == |items|
    {
      |items|
    }

    /** `with($more)`: a new report with the extra items appended. */
    function With(more: seq<Issue>): (r: Report)
      ensures r.Count() == Count() + |more|
      ensures r.items[..Count()] == items && r.items[Count()..] == more
    {
      Report(items + more)
    }

    function GroupByPointer(): (r: Groups)
      ensures Distinct(Names(r))
      ensures forall p :: p in Names(r) <==> p in Pointers(items)
      ensures forall i :: 0 <= i < |r| ==> r[i].1 == AtPointer(items, r[i].0) && r[i].1 != []
    {
      Group(items)
    }
  }

  /** `isOk()` holds exactly when no item has severity Error. */
  lemma IsOkIff(rep: Report)
    ensures rep.IsOk() <==> forall i :: 0 <= i < |rep.items| ==> rep.items[i].severity != Error
  {
    if !rep.IsOk() {
      var x := rep.Errors()[0];
      assert x in rep.Errors();
    }
    if exists i :: 0 <= i < |rep.items| && rep.items[i].severity == Error {
      var i :| 0 <= i < |rep.items| && rep.items[i].severity == Error;
      assert rep.items[i] in rep.Errors();
    }
  }

  /** The three filters split the report: their lengths add up to `count()`. */
  lemma FiltersCount(rep: Report)
    ensures |rep.Errors()| + |rep.Warnings()| + |rep.Infos()| == rep.Count()
  {
    SeverityPartition(rep.items);
  }

  /** Extending a report extends each filter by the filtered extra items,
      and the result is ok exactly when both parts are. */
  lemma WithFilters(rep: Report, more: seq<Issue>)
    ensures rep.With(more).Errors() == rep.Errors() + OfSeverity(more, Error)
    ensures rep.With(more).Warnings() == rep.Warnings() + OfSeverity(more, Warning)
    ensures rep.With(more).Infos() == rep.Infos() + OfSeverity(more, Info)
    ensures rep.With(more).IsOk() <==> rep.IsOk() && Report(more).IsOk()
  {
    OfSeverityAppend(rep.items, more, Error);
    OfSeverityAppend(rep.items, more, Warning);
    OfSeverityAppend(rep.items, more, Info);
  }
}

=== FILE: version.dfy ===
/** Choosing the specification profile for a document: `VersionDetector`
    reads the root `openapi` string and reduces it to `major.minor`, and
    `ProfileRegistry` maps such ids to profiles and keeps a default. */
module Versions {
  import opened Wrappers
  import opened Text
  import opened Json
  import opened Serializer

  // ---------------------------------------------------------------------------
  // VersionDetector

  /** `\s` of PCRE without the `u` flag. */
  predicate IsSpace(c: char) {
    c == ' ' || c == '\t' || c == '\n' || c == 11 as char || c == 12 as char || c == '\r'
  }

  predicate AllSpace(s: string) {
    forall i :: 0 <= i < |s| ==> IsSpace(s[i])
  }

  /** One step of `TrimLeft`: a white-space character in front of a
      white-space prefix. */
  lemma TrimLeftStep(s: string, r: string)
    requires |s| > 0 && IsSpace(s[0])
    requires |r| <= |s| - 1 && r == s[1..][|s| - 1 - |r|..]
    requires AllSpace(s[1..][..|s| - 1 - |r|])
    ensures r == s[|s| - |r|..]
    ensures AllSpace(s[..|s| - |r|])
  {
    var pre := s[..|s| - |r|];
    forall i | 0 <= i < |pre|
      ensures IsSpace(pre[i])
    {
      if i > 0 {
        assert pre[i] == s[1..][..|s| - 1 - |r|][i - 1];
      }
    }
  }

  /** Leading white space removed. */
  function TrimLeft(s: string): (r: string)
    ensures |r| <= |s| && r == s[|s| - |r|..]
    ensures |r| > 0 ==> !IsSpace(r[0])
    ensures AllSpace(s[..|s| - |r|])
    decreases |s|
  {
    if |s| > 0 && IsSpace(s[0]) then
      var r := TrimLeft(s[1..]);
      TrimLeftStep(s, r);
      r
    else s
  }

  /** Trailing white space removed. */
  function TrimRight(s: string): (r: string)
    ensures |r| <= |s| && r == s[..|r|]
    ensures |r| > 0 ==> !IsSpace(r[|r| - 1])
    ensures AllSpace(s[|r|..])
    decreases |s|
  {
    if |s| > 0 && IsSpace(s[|s| - 1]) then
      var r := TrimRight(s[..|s| - 1]);
      assert s[|r|..] == s[..|s| - 1][|r|..] + [s[|s| - 1]];
      r
    else s
  }

  /** `^\s*(\d+)\.(\d+)(?:\.\d+)?\s*$` and `$m[1] . '.' . $m[2]`: after
      trimming white space, two or three dot-separated digit runs, of which
      the first two are kept, leading zeros and all. */
  function NormalizeVersion(ver: string): (r: Option<string>)
  {
    var parts := Split(TrimRight(TrimLeft(ver)), '.');
    if (|parts| == 2 || |parts| == 3) && forall i :: 0 <= i < |parts| ==> AllDigits(parts[i])
    then Some(parts[0] + "." + parts[1])
    else None
  }

  lemma TrimLeftAround(lead: string, rest: string)
    requires AllSpace(lead)
    requires |rest| > 0 && !IsSpace(rest[0])
    ensures TrimLeft(lead + rest) == rest
    decreases |lead|
  {
    if |lead| > 0 {
      assert (lead + rest)[1..] == lead[1..] + rest;
      TrimLeftAround(lead[1..], rest);
    } else {
      assert lead + rest == rest;
    }
  }

  lemma TrimRightAround(core: string, trail: string)
    requires AllSpace(trail)
    requires |core| > 0 && !IsSpace(core[|core| - 1])
    ensures TrimRight(core + trail) == core
    decreases |trail|
  {
    if |trail| > 0 {
      assert (core + trail)[..|core + trail| - 1] == core + trail[..|trail| - 1];
      TrimRightAround(core, trail[..|trail| - 1]);
    } else {
      assert core + trail == core;
    }
  }

  lemma TrimAround(lead: string, core: string, trail: string)
    requires AllSpace(lead) && AllSpace(trail)
    requires |core| > 0 && !IsSpace(core[0]) && !IsSpace(core[|core| - 1])
    ensures TrimRight(TrimLeft(lead + core + trail)) == core
  {
    assert lead + core + trail == lead + (core + trail);
    TrimLeftAround(lead, core + trail);
    TrimRightAround(core, trail);
  }

  lemma DigitsNoDot(s: string)
    requires AllDigits(s)
    ensures '.' !in s && !IsSpace(s[0]) && !IsSpace(s[|s| - 1])
  {
    assert forall k :: 0 <= k < |s| ==> IsDigit(s[k]);
  }

  /** The text `major.minor[.patch]`. */
  function VersionText(major: string, minor: string, patch: Option<string>): string {
    major + "." + minor + (if patch.Some? then "." + patch.value else "")
  }

  lemma VersionJoin(major: string, minor: string, patch: Option<string>)
    ensures var parts := if patch.Some? then [major, minor, patch.value] else [major, minor];
      Join(parts, '.') == VersionText(major, minor, patch)
  {
    if patch.Some? {
      var parts := [major, minor, patch.value];
      assert parts[1..] == [minor, patch.value];
      assert parts[1..][1..] == [patch.value];
      assert Join([patch.value], '.') == patch.value;
      assert Join([minor, patch.value], '.') == minor + ['.'] + patch.value;
      assert Join(parts, '.') == major + ['.'] + (minor + ['.'] + patch.value);
    } else {
      var parts := [major, minor];
      assert parts[1..] == [minor];
      assert Join([minor], '.') == minor;
    }
  }

  lemma {:induction false} JoinEnds(parts: seq<string>, c: char)
    requires |parts| >= 1 && forall i :: 0 <= i < |parts| ==> |parts[i]| > 0
    ensures var s := Join(parts, c);
      |s| > 0 && s[0] == parts[0][0] && s[|s| - 1] == parts[|parts| - 1][|parts[|parts| - 1]| - 1]
    decreases |parts|
  {
    if |parts| > 1 {
      JoinEnds(parts[1..], c);
    }
  }

  /** White space around dot-separated digit runs: two or three runs give
      the first two, any other number gives nothing. */
  lemma NormalizeJoin(lead: string, parts: seq<string>, trail: string)
    requires AllSpace(lead) && AllSpace(trail)
    requires |parts| >= 1 && forall i :: 0 <= i < |parts| ==> AllDigits(parts[i])
    ensures NormalizeVersion(lead + Join(parts, '.') + trail) ==
      if |parts| == 2 || |parts| == 3 then Some(parts[0] + "." + parts[1]) else None
  {
    forall i | 0 <= i < |parts|
      ensures '.' !in parts[i]
    {
      DigitsNoDot(parts[i]);
    }
    JoinEnds(parts, '.');
    DigitsNoDot(parts[0]);
    DigitsNoDot(parts[|parts| - 1]);
    TrimAround(lead, Join(parts, '.'), trail);
    SplitJoin(parts, '.');
  }

  /** `major.minor[.patch]`, padded with white space, normalizes to
      `major.minor`. */
  lemma NormalizeAccepts(lead: string, major: string, minor: string, patch: Option<string>, trail: string)
    requires AllSpace(lead) && AllSpace(trail)
    requires AllDigits(major) && AllDigits(minor) && (patch.Some? ==> AllDigits(patch.value))
    ensures NormalizeVersion(lead + VersionText(major, minor, patch) + trail) == Some(major + "." + minor)
  {
    var parts := if patch.Some? then [major, minor, patch.value] else [major, minor];
    VersionJoin(major, minor, patch);
    NormalizeJoin(lead, parts, trail);
  }

  /** A normalized version normalizes to itself. */
  lemma NormalizeIdempotent(ver: string)
    requires NormalizeVersion(ver).Some?
    ensures NormalizeVersion(NormalizeVersion(ver).value) == NormalizeVersion(ver)
  {
    var parts := Split(TrimRight(TrimLeft(ver)), '.');
    var text := VersionText(parts[0], parts[1], None);
    NormalizeAccepts("", parts[0], parts[1], None, "");
    Unpadded(text);
    assert text == parts[0] + "." + parts[1];
  }

  /** Dot-separated digit runs without padding. */
  lemma NormalizeDotted(parts: seq<string>)
    requires |parts| >= 1 && forall i :: 0 <= i < |parts| ==> AllDigits(parts[i])
    ensures NormalizeVersion(Join(parts, '.')) ==
      if |parts| == 2 || |parts| == 3 then Some(parts[0] + "." + parts[1]) else None
  {
    var text := Join(parts, '.');
    NormalizeJoin([], parts, []);
    Unpadded(text);
  }

  lemma Unpadded(text: string)
    ensures [] + text + [] == text
  {
  }

  lemma JoinTwo(a: char, b: char)
    ensures Join([[a], [b]], '.') == [a, '.', b]
  {
    assert [[a], [b]][1..] == [[b]];
  }

  lemma JoinThree(a: char, b: char, c: char)
    ensures Join([[a], [b], [c]], '.') == [a, '.', b, '.', c]
  {
    assert [[a], [b], [c]][1..] == [[b], [c]];
    JoinTwo(b, c);
  }

  lemma JoinFour(a: char, b: char, c: char, d: char)
    ensures Join([[a], [b], [c], [d]], '.') == [a, '.', b, '.', c, '.', d]
  {
    assert [[a], [b], [c], [d]][1..] == [[b], [c], [d]];
    JoinThree(b, c, d);
  }

  lemma DotPair(a: char, b: char)
    ensures [a] + "." + [b] == [a, '.', b]
  {
  }

  /** Three one-digit runs give the first two. */
  lemma NormalizeTriple(a: char, b: char, c: char)
    requires IsDigit(a) && IsDigit(b) && IsDigit(c)
    ensures NormalizeVersion([a, '.', b, '.', c]) == Some([a, '.', b])
  {
    var parts := [[a], [b], [c]];
    assert AllDigits(parts[0]) && AllDigits(parts[1]) && AllDigits(parts[2]);
    NormalizeDotted(parts);
    JoinThree(a, b, c);
    DotPair(a, b);
  }

  /** `3.<minor>.0` gives `3.<minor>`. */
  lemma NormalizePatch(minor: char)
    requires IsDigit(minor)
    ensures NormalizeVersion(['3', '.', minor, '.', '0']) == Some(['3', '.', minor])
  {
    NormalizeTriple('3', minor, '0');
  }

  /** `3.1.0` gives `3.1`. */
  lemma NormalizeThreeOne()
    ensures NormalizeVersion("3.1.0") == Some("3.1")
  {
    NormalizePatch('1');
  }

  lemma PadPair(pad: char, a: char, b: char)
    ensures [pad] + Join([[a], [b]], '.') + [pad] == [pad, a, '.', b, pad]
  {
    JoinTwo(a, b);
  }

  /** Two one-digit runs with one white-space character on each side. */
  lemma NormalizePaddedPair(pad: char, major: char, minor: char)
    requires IsSpace(pad) && IsDigit(major) && IsDigit(minor)
    ensures NormalizeVersion([pad, major, '.', minor, pad]) == Some([major, '.', minor])
  {
    var parts := [[major], [minor]];
    assert AllDigits(parts[0]) && AllDigits(parts[1]);
    assert AllSpace([pad]);
    NormalizeJoin([pad], parts, [pad]);
    PadPair(pad, major, minor);
    DotPair(major, minor);
  }

  /** ` 3.2 ` gives `3.2`. */
  lemma NormalizePadded()
    ensures NormalizeVersion(" 3.2 ") == Some("3.2")
  {
    NormalizePaddedPair(' ', '3', '2');
  }

  /** Four one-digit runs are one too many. */
  lemma NormalizeFourRuns(a: char, b: char, c: char, d: char)
    requires IsDigit(a) && IsDigit(b) && IsDigit(c) && IsDigit(d)
    ensures NormalizeVersion([a, '.', b, '.', c, '.', d]) == None
  {
    var parts := [[a], [b], [c], [d]];
    assert AllDigits(parts[0]) && AllDigits(parts[1]) && AllDigits(parts[2]) && AllDigits(parts[3]);
    NormalizeDotted(parts);
    JoinFour(a, b, c, d);
  }

  /** `3.1.0.1` has four parts and gives nothing. */
  lemma NormalizeFourParts()
    ensures NormalizeVersion("3.1.0.1") == None
  {
    NormalizeFourRuns('3', '1', '0', '1');
  }

  /** `extractOpenApiVersion`: the root `openapi` value when it is a
      non-empty string. */
  function OpenApiVersion(doc: Entries): (r: Option<string>)
    ensures r.Some? <==> exists s :: s != "" && Get(doc, StrKey("openapi")) == Some(Str(s))
    ensures r.Some? ==> Get(doc, StrKey("openapi")) == Some(Str(r.value))
  {
    match Get(doc, StrKey("openapi"))
    case Some(Str(s)) => if s != "" then Some(s) else None
    case _ => None
  }

  // ---------------------------------------------------------------------------
  // ProfileRegistry

  /** A profile: its `major.minor` id and the extra feature flags it carries;
      its key lists, normalizers and extra validators are not modelled. */
  datatype Profile = Profile(majorMinor: string, extra: map<string, Flag>)

  datatype RegistryError = ProfileNotFound(id: string) | NoDefault

  /** The PHP array of profiles as its keys in insertion order and the map
      they index, and the default id. */
  datatype Registry = Registry(ids: seq<string>, profiles: map<string, Profile>, defaultId: Option<string>)

  /** What every registry built through `register` and `setDefault`
      satisfies: each id once, each profile under its own id, and a default
      that is registered, absent only while nothing is. */
  predicate Valid(reg: Registry) {
    && (forall i, j :: 0 <= i < j < |reg.ids| ==> reg.ids[i] != reg.ids[j])
    && (forall id :: id in reg.ids ==> id in reg.profiles)
    && (forall id :: id in reg.profiles ==> id in reg.ids)
    && (forall id :: id in reg.profiles ==> reg.profiles[id].majorMinor == id)
    && (reg.defaultId.Some? ==> reg.defaultId.value in reg.profiles)
    && (reg.defaultId.None? ==> reg.ids == [])
  }

  const EmptyRegistry := Registry([], map[], None)

  /** `register($profile, $asDefault)`: stored under its id, replacing an
      earlier profile in place or appended as a new id; the first profile
      becomes the default, and so does one registered as default. */
  function Register(reg: Registry, p: Profile, asDefault: bool): (r: Registry)
    requires Valid(reg)
    ensures Valid(r)
    ensures r.ids == if p.majorMinor in reg.ids then reg.ids else reg.ids + [p.majorMinor]
    ensures r.defaultId == if asDefault || reg.defaultId.None? then Some(p.majorMinor) else reg.defaultId
  {
    var id := p.majorMinor;
    Registry(if id in reg.profiles then reg.ids else reg.ids + [id],
             reg.profiles[id := p],
             if asDefault || reg.defaultId.None? then Some(id) else reg.defaultId)
  }

  /** `has($id)`. */
  predicate Has(reg: Registry, id: string) {
    id in reg.profiles
  }

  /** `get($id)`: the profile, or `ProfileNotFound`. */
  function Lookup(reg: Registry, id: string): (r: Result<Profile, RegistryError>)
    requires Valid(reg)
    ensures r.Failure? <==> id !in reg.ids
    ensures r.Failure? ==> r.error == ProfileNotFound(id)
    ensures r.Success? ==> r.value.majorMinor == id
  {
    if id in reg.profiles then Success(reg.profiles[id]) else Failure(ProfileNotFound(id))
  }

  /** `getDefault()`: fails only on an empty registry. */
  function GetDefault(reg: Registry): (r: Result<Profile, RegistryError>)
    requires Valid(reg)
    ensures r.Failure? <==> reg.ids == []
    ensures r.Failure? ==> r.error == NoDefault
    ensures r.Success? ==> Lookup(reg, reg.defaultId.value) == r
  {
    match reg.defaultId
    case None => Failure(NoDefault)
    case Some(id) => Lookup(reg, id)
  }

  /** `setDefault($id)`: fails on an unknown id, which leaves the registry as
      it was. */
  function SetDefault(reg: Registry, id: string): (r: Result<Registry, RegistryError>)
    requires Valid(reg)
    ensures r.Failure? <==> id !in reg.ids
    ensures r.Failure? ==> r.error == ProfileNotFound(id)
    ensures r.Success? ==> Valid(r.value) && r.value.ids == reg.ids && r.value.profiles == reg.profiles
    ensures r.Success? ==> GetDefault(r.value) == Lookup(reg, id)
  {
    if !Has(reg, id) then Failure(ProfileNotFound(id))
    else Success(Registry(reg.ids, reg.profiles, Some(id)))
  }

  /** `all()`: the profiles in the order of `ids()`. */
  function All(reg: Registry): (ps: seq<Profile>)
    requires Valid(reg)
    ensures |ps| == |reg.ids|
    ensures forall i :: 0 <= i < |ps| ==> ps[i].majorMinor == reg.ids[i] && Lookup(reg, reg.ids[i]) == Success(ps[i])
  {
    seq(|reg.ids|, i requires 0 <= i < |reg.ids| => reg.profiles[reg.ids[i]])
  }

  /** The variadic constructor: registers each profile in turn. */
  function FromProfiles(ps: seq<Profile>): (r: Registry)
    ensures Valid(r)
    ensures ps != [] ==> r.defaultId == Some(ps[0].majorMinor)
    decreases |ps|
  {
    if ps == [] then EmptyRegistry
    else
      var init := FromProfiles(ps[..|ps| - 1]);
      assert |ps| > 1 ==> ps[..|ps| - 1][0] == ps[0];
      Register(init, ps[|ps| - 1], false)
  }

  /** After `register`, the new profile answers for its id and every other id
      answers as before. */
  lemma RegisterLookup(reg: Registry, p: Profile, asDefault: bool, id: string)
    requires Valid(reg)
    ensures Lookup(Register(reg, p, asDefault), id) ==
      if id == p.majorMinor then Success(p) else Lookup(reg, id)
  {
  }

  /** Some profile of the list has this id. */
  predicate HasId(ps: seq<Profile>, id: string) {
    exists i :: 0 <= i < |ps| && ps[i].majorMinor == id
  }

  lemma HasIdSnoc(ps: seq<Profile>, id: string)
    requires ps != []
    ensures HasId(ps, id) <==> HasId(ps[..|ps| - 1], id) || ps[|ps| - 1].majorMinor == id
  {
    var init := ps[..|ps| - 1];
    if HasId(init, id) {
      var i :| 0 <= i < |init| && init[i].majorMinor == id;
      assert ps[i] == init[i];
    }
    if HasId(ps, id) && ps[|ps| - 1].majorMinor != id {
      var i :| 0 <= i < |ps| && ps[i].majorMinor == id;
      assert init[i] == ps[i];
    }
  }

  /** Registering adds the profile's id to the ids and nothing else. */
  lemma RegisterIds(reg: Registry, p: Profile, asDefault: bool, id: string)
    requires Valid(reg)
    ensures id in Register(reg, p, asDefault).ids <==> id in reg.ids || id == p.majorMinor
  {
  }

  /** The ids of a registry built from a list of profiles are the ids of
      those profiles. */
  lemma {:induction false} FromProfilesIds(ps: seq<Profile>, id: string)
    ensures id in FromProfiles(ps).ids <==> exists i :: 0 <= i < |ps| && ps[i].majorMinor == id
    decreases |ps|
  {
    if ps != [] {
      var init := ps[..|ps| - 1];
      var last := ps[|ps| - 1];
      FromProfilesIds(init, id);
      assert FromProfiles(ps) == Register(FromProfiles(init), last, false);
      RegisterIds(FromProfiles(init), last, false, id);
      HasIdSnoc(ps, id);
    }
  }

  /** `detect($rawDoc, $registry)`: the registered profile of the normalized
      version, else the default. */
  function Detect(doc: Entries, reg: Registry): (r: Result<Profile, RegistryError>)
    requires Valid(reg)
    ensures var v := OpenApiVersion(doc);
      var n := if v.Some? then NormalizeVersion(v.value) else None;
      if n.Some? && Has(reg, n.value) then r == Lookup(reg, n.value) && r.Success? && r.value.majorMinor == n.value
      else r == GetDefault(reg)
  {
    match OpenApiVersion(doc)
    case None => GetDefault(reg)
    case Some(ver) =>
      match NormalizeVersion(ver)
      case Some(id) =>
        if Has(reg, id) then Lookup(reg, id) else GetDefault(reg)
      case None => GetDefault(reg)
  }

  /** The version of a document holding only `openapi`. */
  lemma SingleVersion(v: string)
    ensures OpenApiVersion([(StrKey("openapi"), Str(v))]) == if v == "" then None else Some(v)
  {
    assert Get([(StrKey("openapi"), Str(v))], StrKey("openapi")) == Some(Str(v));
  }

  /** A document whose normalized version is registered selects the
      profile registered under it. */
  lemma DetectRegistered(doc: Entries, reg: Registry, v: string, id: string)
    requires Valid(reg)
    requires OpenApiVersion(doc) == Some(v) && NormalizeVersion(v) == Some(id) && id in reg.profiles
    ensures Detect(doc, reg) == Success(reg.profiles[id])
  {
  }

  /** Registering `3.1` then `3.2` makes `3.1` the default. */
  lemma TwoProfiles(e31: map<string, Flag>, e32: map<string, Flag>)
    ensures var reg := FromProfiles([Profile("3.1", e31), Profile("3.2", e32)]);
      && reg.profiles == map["3.1" := Profile("3.1", e31), "3.2" := Profile("3.2", e32)]
      && reg.defaultId == Some("3.1")
  {
    var p31 := Profile("3.1", e31);
    var p32 := Profile("3.2", e32);
    var ps := [p31, p32];
    assert ps[..1] == [p31];
    assert [p31][..0] == [];
    assert FromProfiles([]) == EmptyRegistry;
    var reg1 := FromProfiles([p31]);
    assert reg1 == Register(EmptyRegistry, p31, false);
    assert reg1.profiles == map["3.1" := p31];
    var reg := FromProfiles(ps);
    assert reg == Register(reg1, p32, false);
  }

  /** With profiles `3.1` and `3.2` registered in that order, `3.2.0`
      selects `3.2`. */
  lemma DetectSelects(e31: map<string, Flag>, e32: map<string, Flag>)
    ensures var reg := FromProfiles([Profile("3.1", e31), Profile("3.2", e32)]);
      Detect([(StrKey("openapi"), Str("3.2.0"))], reg) == Success(Profile("3.2", e32))
  {
    var reg := FromProfiles([Profile("3.1", e31), Profile("3.2", e32)]);
    TwoProfiles(e31, e32);
    SingleVersion("3.2.0");
    NormalizePatch('2');
    DetectRegistered([(StrKey("openapi"), Str("3.2.0"))], reg, "3.2.0", "3.2");
  }

  /** In the same registry a four-part version and a missing one both fall
      back to the default `3.1`. */
  lemma DetectFallsBack(e31: map<string, Flag>, e32: map<string, Flag>)
    ensures var reg := FromProfiles([Profile("3.1", e31), Profile("3.2", e32)]);
      && Detect([(StrKey("openapi"), Str("3.1.0.1"))], reg) == Success(Profile("3.1", e31))
      && Detect([], reg) == Success(Profile("3.1", e31))
  {
    TwoProfiles(e31, e32);
    SingleVersion("3.1.0.1");
    NormalizeFourParts();
    assert OpenApiVersion([]) == None;
  }
}

=== FILE: wrappers.dfy ===
/** Failure-compatible wrappers used throughout the model: an optional value
    (PHP's nullable) and a result that either carries a value or an error
    (PHP's thrown exception). */
module Wrappers {

  datatype Option<+T> = None | Some(value: T) {

    predicate IsFailure() {
      None?
    }

    function PropagateFailure<U>(): Option<U>
      requires None?
    {
      None
    }

    function Extract(): T
      requires Some?
    {
      value
    }

    /** PHP's `$x ?? $default`. */
    function GetOr(default: T): T {
      match this
      case Some(v) => v
      case None => default
    }
  }

  datatype Result<+R, +E> = Success(value: R) | Failure(error: E) {

    predicate IsFailure() {
      Failure?
    }

    function PropagateFailure<U>(): Result<U, E>
      requires Failure?
    {
      Failure(error)
    }

    function Extract(): R
      requires Success?
    {
      value
    }
  }
}
